=== FILE: README.md ===
# Animated portfolio widgets, modelled in Dafny

This project models the widget controllers of the portfolio site's `js/script.js`.
Each controller is a page ornament driven by clicks, music and the lights switch.
They all follow one pattern: a click starts a timed run of pictures, each frame set
by a browser timeout at the sum of the durations before it, and a last timeout puts
the idle picture back. Some widgets also run an ambient loop on a browser interval
while music plays, and a manual run pauses that loop.

Each controller is a `class` whose fields are the closure variables the script
updates: flags such as `running`, `busy`, `active` and `manualActive`, the frame
index, the stage, and the timer-id lists and sets. Each class also owns a simulated
slice of the browser's timer service:

- `now`, the clock;
- `pending`, the timers not yet fired, each a `Timer(id, due, period, event)`;
- `nextId`, the next id `setTimeout`/`setInterval` returns. Ids start at 1, so an id
  is always truthy, as in a browser.

`Fire()` is the browser firing the earliest pending timer: the clock moves to its due
time, a timeout is removed, an interval is re-armed one period later, and then the
widget's callback runs. The event of each timer names the callback.

The shared module `Timers` states the frame-sequencer rule once, as
`Timeline(firstId, start, frames, final)`. Its loop `ScheduleSequence`, which models
every `forEach(... elapsed += duration)` in the script, is proved against it. Each
widget's click is proved to leave exactly its timeline pending.

The modules:

- `Timers`: the timer model, the `Timeline` rule and the proved scheduling loop.
- `Ring`: the index arithmetic `(i + n) % n` with JavaScript's truncating `%`, and
  `(index + 1) % len`.
- `Filters`: the CSS filter composition (`getLightsFilter`, `applySkullFilter`,
  `setFilters`).
- `Door`, `Tv`, `Heart`, `Banana`, `Plant`, `Skull`, `HotDog`, `Dudes`, `Glow`,
  `MeLeaning`, `Magpies`, `Slideshow`: one controller each.
- `Cockatoo`: the `reduce` total of the cockatoo sequence.

The global lights state (the body's `lights-off` class) is passed as a
`lightsOff: bool` parameter to the methods that read it.

## Model

| member | source | states |
|---|---|---|
| Timers.ScheduleSequence | js/script.js:129-143 | The scheduling loop leaves the old pending list followed by the timeline: one timeout per frame at the start plus the holds before it, then the final timeout at the total; it returns every new id in order |
| Timers.TimelineAt | js/script.js:129-143 | Timeline entry i is frame i at start + Duration(frames[..i]) with id firstId + i; the last entry is the final event at start + Duration(frames) |
| Timers.TimelineOrdered | js/script.js:129-143 | Timeline entries fall due in nondecreasing order, none before the start, and the final one no earlier than any frame |
| Timers.TimelineOneShots | js/script.js:129-143 | Every timer a timeline sets is a one-shot timeout |
| Timers.WfTimeline | js/script.js:129-143 | Appending a timeline at or after now keeps the pending list well formed (distinct ids below nextId, nothing overdue) and adds exactly the ids nextId .. nextId + n |
| Timers.EvenDuration | js/script.js:774-784 | In a list where every frame is held `step`, the first k frames last step * k, so `FRAME_DURATION * frameNumber` is the cumulative offset |
| Timers.DurationAppend | js/script.js:129-143 | The duration of two concatenated frame lists is the sum of their durations |
| Timers.CancelKeeps | js/script.js:115-118 | Cancelling a set of ids keeps exactly the pending timers whose id is not in the set |
| Timers.CancelAll | js/script.js:115-118 | Cancelling every pending id leaves nothing pending |
| Timers.CancelMissing | js/script.js:56-61 | Cancelling ids no pending timer carries (a stale handle) changes nothing |
| Timers.WfCancel | js/script.js:115-118 | Cancelling keeps the pending list well formed and removes exactly the cancelled ids |
| Ring.JsRem | js/script.js:2555 | JavaScript's `%`: the remainder is smaller in size than the divisor and has the sign of the dividend |
| Ring.JsRemNonNegative | js/script.js:2555 | For a nonnegative dividend JavaScript's `%` agrees with the mathematical remainder |
| Ring.JsRemNegative | js/script.js:2555 | For a negative dividend JavaScript's `%` is the negated remainder of its magnitude, never positive |
| Ring.ShiftWrap | js/script.js:2555 | For -n <= i <= n, `(i + n) % n` is on the ring: i + n for negative i, i for an index already on it, 0 for i == n |
| Ring.Next | js/script.js:1647 | `(i + 1) % n` stays below n, is i + 1 inside the ring and wraps to 0 from the last index |
| Ring.AdvanceIsSum | js/script.js:1647 | k successive `Next` steps from i land on (i + k) % n |
| Ring.FullTurn | js/script.js:1647 | n successive `Next` steps come back to where they started |
| Filters.LightsFilter | js/script.js:565 | `getLightsFilter` is non-empty exactly when the lights are off, and is then the dimming filter |
| Filters.Compose | js/script.js:567-575 | The combined filter is base and effect separated by a space when both are present, whichever is present otherwise, and empty exactly when both are empty |
| Filters.SplitLights | js/script.js:567-575 | Reading a filter back: it reports a dimmed state only when the text starts with the dimming filter, and otherwise returns the text as the effect |
| Filters.ComposeLightsRoundTrip | js/script.js:567-575 | Composing the lights filter with an effect that does not start with it loses nothing: both the lights state and the effect are read back |
| Filters.Effect | js/script.js:696 | A tinted value's effect is its palette entry, a plain value's is empty |
| Filters.CssEmpty | js/script.js:570-574 | The composed text is empty exactly when neither dimming nor tint is set, so the property is removed rather than set |
| Filters.CssInjective | js/script.js:689-702 | Two filter values with the same text are equal: the text determines the lights state and the colour |
| Filters.AnglesTellApart | js/script.js:668-677 | A palette of `hue-rotate(...)` tints whose angles differ in their first three characters is good: every entry non-empty, distinct from the others and not starting with the dimming filter |
| Door.Src | js/script.js:39-42 | The open file is loaded exactly for the open picture, the closed file exactly for the closed picture |
| Door.PendingOkClear | js/script.js:56-61 | `clearDoorTimeout` on a live or stale handle leaves only automatic closes pending |
| Door.PendingOkFire | js/script.js:75-80 | An `openDoorFor` close that fires is the one the handle names, and firing keeps the handle relation |
| Door.DoorToggle.constructor | js/script.js:51-54 | Load: the door is open under automatic control, with two automatic closes pending at 6000 ms (ids 1 and 2) |
| Door.DoorToggle.SetDoor | js/script.js:39-42 | The picture and the `open` flag are set together |
| Door.DoorToggle.ClearDoorTimeout | js/script.js:56-61 | A held handle is cancelled and dropped; nothing but automatic closes stays pending |
| Door.DoorToggle.OpenDoor | js/script.js:63-67 | The visitor takes control, the handle's close is cancelled and the door opens |
| Door.DoorToggle.CloseDoor | js/script.js:69-73 | The visitor takes control, the handle's close is cancelled and the door closes |
| Door.DoorToggle.OpenDoorFor | js/script.js:75-80 | The door opens under visitor control and exactly one new close is pending, `duration` from now, named by the handle |
| Door.DoorToggle.SetCloseTimer | js/script.js:76-79 | The new close timeout is appended at now + duration and stored in the handle |
| Door.DoorToggle.Click | js/script.js:82-89 | A click toggles the door, ends automatic control and cancels a pending `openDoorFor` close |
| Door.DoorToggle.OnAutoClose | js/script.js:44-50 | The automatic close shuts the door only while under automatic control, and automatic control is over afterwards |
| Door.DoorToggle.OnCloseAfterOpenFor | js/script.js:77-79 | The `openDoorFor` callback closes the door; its cancel of the fired id leaves the pending list unchanged |
| Door.DoorToggle.Fire | js/script.js:44-80 | Firing the earliest door timer: an automatic close acts only under automatic control, an `openDoorFor` close shuts the door and drops the handle |
| Door.LeftAlone | js/script.js:51-54 | Left alone, the door is shut at 6000 ms by the first automatic close, the second changes nothing, and nothing is left pending |
| Tv.Src | js/script.js:104-110 | Each of the four power-up pictures loads its own file from the table, and the idle picture's file is loaded exactly when no frame of the table is shown |
| Tv.SrcInjective | js/script.js:104-110 | The idle picture and the four power-up pictures load pairwise distinct files: two pictures in use load the same file exactly when they are the same picture |
| Tv.PowerUpTimeline | js/script.js:105-143 | The power-up frames fall at 0, 1000, 1500 and 2000 ms after the click and the reset at 4000 ms |
| Tv.TvPowerUp.constructor | js/script.js:104-113 | Load: idle picture, not running, nothing pending |
| Tv.TvPowerUp.ClearScheduledFrames | js/script.js:115-118 | Every tracked timeout is cancelled: nothing stays pending and the set is empty |
| Tv.TvPowerUp.ResetTv | js/script.js:120-124 | Nothing stays scheduled, the idle picture is back and the TV accepts clicks again |
| Tv.TvPowerUp.Click | js/script.js:126-145 | A click while running changes nothing; otherwise the TV is running and the pending list is exactly the power-up timeline from now |
| Tv.TvPowerUp.SchedulePowerUp | js/script.js:129-144 | The loop sets the power-up timeline and tracks exactly the ids it set |
| Tv.TvPowerUp.Fire | js/script.js:131-142 | A frame timeout shows its picture; the reset returns the idle TV with nothing pending |
| Tv.Watch | js/script.js:126-145 | Letting a run's timers fire in due order records each frame's time and picture, and ends idle with nothing pending |
| Tv.ClickAndWatch | js/script.js:126-145 | After a click on an idle TV, frame i shows at the click time plus the holds before it, and the idle picture returns at the click time plus the total |
| Tv.PowerUpTrace | js/script.js:104-145 | From a fresh page: pictures one to four at 0, 1000, 1500 and 2000 ms, idle again at 4000 ms |
| Heart.Src | js/script.js:831-843 | Each of the eight mwah pictures loads its own file from the table, and the base picture's file is loaded exactly when no frame of the table is shown |
| Heart.SrcInjective | js/script.js:831-843 | The base picture and the eight mwah pictures load pairwise distinct files: two pictures in use load the same file exactly when they are the same picture |
| Heart.Loops | js/script.js:876 | Every frame is shown at least once and exactly `repeat` times when `repeat` is positive |
| Heart.CopiesDuration | js/script.js:876-885 | The n showings of one frame that the inner `for` loop sets (`Copies`) last n times its duration |
| Heart.ExpandShape | js/script.js:874-886 | The expanded list has one entry per showing and lasts the sum of `max(1, repeat) * duration` |
| Heart.MwahRun | js/script.js:835-843 | The authored run has 15 showings and its reset is due at 4520 ms |
| Heart.MwahResetAt | js/script.js:888-889 | In the scheduled run the sixteenth and last timer is the reset, 4520 ms after the click |
| Heart.ScheduleMwah | js/script.js:872-889 | The nested loop leaves the mwah timeline pending: each frame `max(1, repeat)` times, each showing at the running elapsed time, then the reset |
| Heart.ScheduleRepeats | js/script.js:876-885 | One frame's inner loop appends its showings, each one duration after the last |
| Heart.MwahHeart.constructor | js/script.js:845-847 | Load: base picture, inactive, nothing pending |
| Heart.MwahHeart.ClearTimers | js/script.js:849-852 | Every timer the heart set is cancelled and the list emptied |
| Heart.MwahHeart.Click | js/script.js:864-893 | A click while active changes nothing and swaps no door picture; otherwise the heart is active, earlier timers are gone and the pending list is the mwah timeline, and exactly when the door shows open the result `swapDoor` asks for the mwah door picture and the restore is marked |
| Heart.MwahHeart.Begin | js/script.js:866-874 | The accepted click: active at once, earlier timers gone, the door decision recorded, the run scheduled |
| Heart.MwahHeart.StartRun | js/script.js:872-889 | The run's timeline is pending and every id it set is tracked |
| Heart.MwahHeart.ResetHeart | js/script.js:854-862 | Base picture, nothing pending, inactive; the door is restored exactly when the click marked it, and the mark is cleared |
| Heart.MwahHeart.Fire | js/script.js:879-889 | A showing changes the picture; the reset ends the run and reports whether the door picture is put back |
| Banana.FiltersDistinct | js/script.js:668-677 | The eight colour filters are distinct, non-empty and never start with the dimming filter |
| Banana.Src | js/script.js:655-665 | Each of the eight dance pictures loads its own file from the table, and the base portrait's file is loaded exactly when no frame of the table is shown |
| Banana.SrcInjective | js/script.js:655-665 | The base portrait and the eight dance pictures load pairwise distinct files: two pictures in use load the same file exactly when they are the same picture |
| Banana.ManualEvents | js/script.js:774-782 | A click shows the eight frames twice, frame k % 8 as showing k |
| Banana.ManualTimelineAt | js/script.js:774-785 | The click timeline: frame k % 8 at 200 * k ms for the sixteen showings and `stopManual` at 3200 ms |
| Banana.ManualStep | js/script.js:776-779 | Frame `index` of cycle `cycle` is showing 8 * cycle + index, due at 200 ms per showing before it |
| Banana.ManualRunShape | js/script.js:772-784 | The sixteen showings last 3200 ms |
| Banana.ManualFinal | js/script.js:784-785 | `stopManual` at 200 * 16 ms completes the click timeline |
| Banana.ScheduleManual | js/script.js:774-785 | The click's two nested loops leave exactly the click timeline pending and list every id |
| Banana.ScheduleCycle | js/script.js:775-781 | One cycle's loop appends the eight frame timeouts at their showing offsets |
| Banana.IdleIsEmpty | js/script.js:679-685 | With neither loop nor click run, nothing is pending |
| Banana.CancelLoopLeavesNothing | js/script.js:738-741 | With no click timers listed, cancelling the loop leaves nothing pending |
| Banana.CancelManualLeavesNothing | js/script.js:749-752 | Without the loop, cancelling the listed click timers leaves nothing pending |
| Banana.BananaPortrait.constructor | js/script.js:714-715 | Load: overlay hidden, the portrait filtered for the current lights |
| Banana.BananaPortrait.SetFilters | js/script.js:689-702 | The portrait gets the lights filter; a shown overlay gets lights and colour composed, and the property is removed when that is empty or the overlay is hidden |
| Banana.BananaPortrait.HideOverlay | js/script.js:708-712 | The overlay is hidden, back on the base picture and unfiltered |
| Banana.BananaPortrait.ClearOverlay | js/script.js:743-745 | Filters reset and overlay hidden: the dance is cleared off the portrait |
| Banana.BananaPortrait.ApplyFrame | js/script.js:717-726 | Frame `index % 8` shows on the overlay, coloured by its own filter exactly while music plays |
| Banana.BananaPortrait.StartLoop | js/script.js:728-736 | With no loop running, the current frame shows and a 200 ms interval is set; a running loop is left alone |
| Banana.BananaPortrait.SetLoop | js/script.js:732-735 | The loop interval is set, due one frame duration from now |
| Banana.BananaPortrait.CancelLoop | js/script.js:739-741 | The loop interval is cancelled and forgotten |
| Banana.BananaPortrait.StopLoop | js/script.js:738-747 | A running loop is cancelled; with neither click run nor music the overlay is cleared and hidden |
| Banana.BananaPortrait.CancelManual | js/script.js:750-752 | All listed click timers are cancelled; with the loop stopped nothing stays pending |
| Banana.BananaPortrait.StopManual | js/script.js:749-763 | The click run ends and its timers are gone; with music the loop restarts from frame 0, otherwise the overlay is cleared and the index reset |
| Banana.BananaPortrait.StopDancing | js/script.js:756-762 | The quiet branch: loop stopped, filters reset, overlay hidden, frame 0, nothing pending |
| Banana.BananaPortrait.HandleClick | js/script.js:765-786 | A click during a click run changes nothing; otherwise the loop stops, frame 0 shows with the portrait filtered for the lights alone, and the pending list is exactly the click timeline |
| Banana.BananaPortrait.StartManual | js/script.js:766-786 | The accepted click: loop stopped, frame 0 shown, the portrait filtered for the lights alone, the click timeline set and listed, the clock unchanged |
| Banana.BananaPortrait.BeginManual | js/script.js:766-768 | The click run begins and stopping the loop leaves nothing pending |
| Banana.BananaPortrait.StartRun | js/script.js:774-785 | The click timeline is set on an empty pending list and its ids listed |
| Banana.BananaPortrait.StartMusic | js/script.js:791-797 | Music is on; outside a click run the loop starts from frame 0, and a loop already running keeps its timer |
| Banana.BananaPortrait.LoopFromStart | js/script.js:794-795 | Outside a click run, a loop that was not running starts alone from frame 0 |
| Banana.BananaPortrait.StopMusic | js/script.js:798-807 | Music is off; outside a click run the loop stops and the overlay is cleared |
| Banana.BananaPortrait.UpdateLights | js/script.js:808-818 | With music the current frame is re-applied under the new lights; otherwise the filters reset, and outside a click run the overlay is hidden |
| Banana.BananaPortrait.OnTick | js/script.js:732-735 | The loop's tick shows the next frame on a shown overlay, wrapping after the eighth; the portrait keeps the lights filter alone |
| Banana.BananaPortrait.OnFrame | js/script.js:777-779 | A click frame's timeout shows that frame on a shown overlay, coloured exactly while music plays, under the lights filter |
| Banana.BananaPortrait.OnFinish | js/script.js:784 | The click's completion runs `stopManual`: timers gone; with music a fresh loop from frame 0 in its colour, otherwise nothing pending and the overlay hidden and unfiltered |
| Banana.BananaPortrait.Fire | js/script.js:732-785 | Music is untouched; a tick advances the loop one frame, a click frame shows its frame in its filter, and the completion ends the click run with `stopManual`'s state |
| HotDog.Src | js/script.js:997-1006 | Each of the seven dance pictures loads its own file from the table, and the sign picture's file is loaded exactly when no frame of the table is shown |
| HotDog.SrcInjective | js/script.js:997-1006 | The sign picture and the seven dance pictures load pairwise distinct files: two pictures in use load the same file exactly when they are the same picture |
| HotDog.ClickEvents | js/script.js:1112-1130 | A click shows the seven frames twice, frame k % 7 as showing k |
| HotDog.ClickTimelineAt | js/script.js:1110-1133 | The click timeline: frame k % 7 at 500 * k ms for the fourteen showings and `finishManual` at 7000 ms |
| HotDog.ClickStep | js/script.js:1113-1128 | Frame `index` of pass `pass` is showing 7 * pass + index, due at 500 ms per showing before it |
| HotDog.ClickFinal | js/script.js:1132-1133 | `finishManual` at the accumulated elapsed time completes the click timeline |
| HotDog.ScheduleClick | js/script.js:1110-1133 | The click's nested loops leave exactly the click timeline pending and list every id |
| HotDog.SchedulePass | js/script.js:1113-1129 | One pass appends the seven frame timeouts, 500 ms apart |
| HotDog.PendingOkClearManual | js/script.js:1027-1030 | `clearManualTimers` keeps only the loop interval pending |
| HotDog.CancelManualLeavesNothing | js/script.js:1027-1030 | Without the loop, cancelling the listed click timers leaves nothing pending |
| HotDog.IdleIsEmpty | js/script.js:1019-1023 | With no loop and no listed click timers, nothing is pending |
| HotDog.HotDogDance.constructor | js/script.js:1019-1023 | Load: nothing dancing, overlay hidden on the sign picture, no filter set |
| HotDog.HotDogDance.ApplyBaseFilter | js/script.js:1032-1039 | The hot dog is dimmed exactly while the lights are off |
| HotDog.HotDogDance.HideOverlay | js/script.js:1045-1050 | Overlay hidden, back on the sign picture, unfiltered; the hot dog gets the lights filter |
| HotDog.HotDogDance.ApplyFrame | js/script.js:1052-1067 | Frame `index % 7` shows; with music it carries its colour behind the lights filter, otherwise just the lights filter |
| HotDog.HotDogDance.StartLoop | js/script.js:1069-1077 | With no loop running, music is on, the current frame shows and a 500 ms interval is set; a running loop is left alone |
| HotDog.HotDogDance.SetLoop | js/script.js:1073-1076 | The loop interval is set, due one frame duration from now |
| HotDog.HotDogDance.StopLoop | js/script.js:1079-1087 | Music is off; a running loop is cancelled and, outside a click run, the overlay hidden |
| HotDog.HotDogDance.CancelLoop | js/script.js:1082-1083 | The loop interval is cancelled and forgotten |
| HotDog.HotDogDance.ClearManualTimers | js/script.js:1027-1030 | Every listed click timer is cancelled; only the loop can stay pending |
| HotDog.HotDogDance.FinishManual | js/script.js:1089-1097 | The click run ends and its timers are gone; the loop starts when `shouldResume`, otherwise the overlay is hidden |
| HotDog.HotDogDance.HandleClick | js/script.js:1099-1134 | A click during a click run changes nothing; otherwise a playing loop stops, the overlay shows with its filters unchanged, and the pending list is exactly the click timeline ending in `finishManual(musicWasPlaying)` |
| HotDog.HotDogDance.StartClick | js/script.js:1101-1133 | The accepted click: run begun, filters unchanged, the click timeline set and listed |
| HotDog.HotDogDance.BeginClick | js/script.js:1102-1108 | The run begins, a playing loop stops, old click timers are cleared, the overlay shows with its filters unchanged; it reports whether music was playing |
| HotDog.HotDogDance.StartRun | js/script.js:1110-1133 | The click timeline is set on an empty pending list and its ids listed |
| HotDog.HotDogDance.UpdateLights | js/script.js:1142-1155 | The hot dog gets the lights filter; a shown overlay carries the current colour while music or a click run is on, otherwise just the lights filter |
| HotDog.HotDogDance.OnTick | js/script.js:1073-1076 | The loop's tick shows the next frame on a shown overlay, wrapping after the seventh, in its colour; the sign keeps the lights filter alone |
| HotDog.HotDogDance.OnClickFrame | js/script.js:1114-1126 | A click frame shows frame `idx % 7`, coloured while music plays and otherwise with no overlay filter at all |
| HotDog.HotDogDance.Fire | js/script.js:1073-1133 | A tick advances the loop, a click frame shows its frame (coloured exactly while music plays), music untouched by both; the completion ends the run with `finishManual`'s state, resuming the loop exactly when music was playing at the click |
| Dudes.Src | js/script.js:1166-1181 | Each of the thirteen dance pictures loads its own file from the table, and the first dudes picture's file is loaded exactly when no frame of the table is shown |
| Dudes.SrcInjective | js/script.js:1166-1181 | The first dudes picture and the thirteen dance pictures load pairwise distinct files: two pictures in use load the same file exactly when they are the same picture |
| Dudes.ClickEvents | js/script.js:1236-1242 | A click shows each of the thirteen frames once, in order |
| Dudes.ClickRun | js/script.js:1236-1242 | Every click frame is held 500 ms |
| Dudes.ClickTimelineAt | js/script.js:1235-1245 | The click timeline: frame k at 500 * k ms and `finishManual` at 6500 ms |
| Dudes.PendingOkClearManual | js/script.js:1189-1192 | `clearManualTimers` keeps only the loop interval pending |
| Dudes.CancelManualLeavesNothing | js/script.js:1189-1192 | Without the loop, cancelling the listed click timers leaves nothing pending |
| Dudes.IdleIsEmpty | js/script.js:1184-1187 | With no loop and no listed click timers, nothing is pending |
| Dudes.DancingDudes.constructor | js/script.js:1184-1187 | Load: nothing dancing, overlay hidden |
| Dudes.DancingDudes.HideOverlay | js/script.js:1195 | The overlay is hidden and back on the base picture |
| Dudes.DancingDudes.ApplyFrame | js/script.js:1197-1201 | Frame `idx % 13` shows on the overlay |
| Dudes.DancingDudes.StartLoop | js/script.js:1203-1210 | With no loop running, the current frame shows and a 500 ms interval is set; a running loop is left alone |
| Dudes.DancingDudes.SetLoop | js/script.js:1206-1209 | The loop interval is set, due one frame duration from now |
| Dudes.DancingDudes.StopLoop | js/script.js:1212-1217 | A running loop is cancelled and, outside a click run, the overlay hidden |
| Dudes.DancingDudes.ClearManualTimers | js/script.js:1189-1192 | Every listed click timer is cancelled; only the loop can stay pending |
| Dudes.DancingDudes.FinishManual | js/script.js:1219-1224 | The click run ends and its timers are gone; the loop starts when `resume`, otherwise the overlay is hidden |
| Dudes.DancingDudes.HandleClick | js/script.js:1226-1246 | A click during a click run changes nothing; otherwise a running loop stops, the overlay shows and the pending list is exactly the click timeline ending in `finishManual(loopWasRunning)` |
| Dudes.DancingDudes.BeginClick | js/script.js:1229-1233 | The run begins after a running loop stops; the overlay shows; it reports whether the loop was running |
| Dudes.DancingDudes.StartRun | js/script.js:1235-1245 | The click timeline is set on an empty pending list and its ids listed |
| Dudes.DancingDudes.Fire | js/script.js:1206-1244 | A tick advances the loop one frame on a shown overlay, wrapping after the thirteenth; a click frame only swaps the overlay picture; the completion ends the run, resuming the loop when it was running at the click and hiding the overlay otherwise |
| Plant.Src | js/script.js:391-411 | Of the five plant pictures only the plain plant loads `assets/plant.png`, the default picture the plant returns to |
| Plant.BloomTimelineAt | js/script.js:470-491 | The bloom timeline of the steps after the first (`BloomRun`): the flowered picture 1000 ms after the click, the next step at 3000 ms, the last step at 7000 ms and the return to idle at 7500 ms |
| Plant.BloomRunDuration9 | js/script.js:392-404 | The holds of the first nine scheduled steps add up to 6000 ms |
| Plant.Without | js/script.js:479 | The filter never lengthens the list; which ids remain and in what order is stated by `WithoutKeeps` and `WithoutAppend` |
| Plant.WithoutKeeps | js/script.js:479 | Every id other than `id` survives the filter, and `id` does not |
| Plant.WithoutAppend | js/script.js:479 | Filtering a concatenation concatenates the filtered pieces, so the remaining ids keep their order |
| Plant.PendingOkClearBloom | js/script.js:422-429 | Clearing the bloom timers keeps only the music interval pending |
| Plant.CancelBloomLeavesNothing | js/script.js:422-424 | Without the music interval, cancelling the listed bloom timers leaves nothing pending |
| Plant.PlantWidget.constructor | js/script.js:413-416 | Load: the plain plant, idle, nothing pending |
| Plant.PlantWidget.ClearBloomTimers | js/script.js:422-429 | Every listed bloom timer is cancelled; a bloom in progress ends in `idle`, on the plain plant when `reset` |
| Plant.PlantWidget.StopMusicLoop | js/script.js:431-436 | A running music interval is cancelled and forgotten |
| Plant.PlantWidget.StartMusicCycle | js/script.js:438-452 | A bloom stops where it is, music mode starts on the first music picture, and the only pending timer is the beat interval of `max(200, beat)` ms |
| Plant.PlantWidget.ClearAll | js/script.js:441-442 | Clearing the bloom timers and the music interval leaves nothing pending |
| Plant.PlantWidget.NothingLeft | js/script.js:441-442 | With neither the music interval nor bloom timers listed, nothing is pending |
| Plant.PlantWidget.SetMusicInterval | js/script.js:448-451 | The beat interval is the only pending timer, due one beat from now |
| Plant.PlantWidget.StopMusicCycle | js/script.js:454-462 | The music interval stops; only in music mode does the plant go back to the plain picture and `idle` |
| Plant.PlantWidget.CancelLoneMusic | js/script.js:454-455 | In music mode the interval is all that is pending, so cancelling it leaves nothing |
| Plant.PlantWidget.TriggerBloom | js/script.js:464-492 | Ignored in music mode; otherwise an earlier bloom is cleared, the first step shows at once and the rest plus the return to idle are pending at their offsets |
| Plant.PlantWidget.StartBloom | js/script.js:470-491 | The first step shows and the later steps are scheduled and listed on an empty pending list |
| Plant.PlantWidget.OnBloomTimer | js/script.js:476-490 | Outside bloom mode a bloom timeout does nothing; otherwise it shows its picture (or the plain plant and `idle` for the last) and drops its own id |
| Plant.PlantWidget.Fire | js/script.js:448-490 | A beat advances the music picture round the ring of four; a bloom timeout acts only in bloom mode |
| Plant.Max | js/script.js:440 | `Math.max`: at least both arguments and equal to one of them |
| Skull.FiltersDistinct | js/script.js:544-553 | The eight skull colours are distinct, non-empty and never start with the dimming filter |
| Skull.Src | js/script.js:532-543 | The demon file is loaded exactly for the demon picture, the base file exactly for the skull picture |
| Skull.SkullFire.constructor | js/script.js:557-577 | Load: the plain skull, fire hidden, the lights filter applied with no effect |
| Skull.SkullFire.UpdateFire | js/script.js:579-602 | With the fire image present, the fire runs exactly while the demon shows or music plays; starting it shows frame 0 in its colour and sets the 120 ms interval; stopping it hides the fire and removes the colour |
| Skull.SkullFire.StartFire | js/script.js:583-593 | The fire starts from frame 0 in frame 0's colour with its interval set |
| Skull.SkullFire.SetFire | js/script.js:588-592 | The fire interval is set, due one frame duration from now |
| Skull.SkullFire.StopFire | js/script.js:595-600 | A running fire interval is cancelled, the fire hidden and the skull's colour removed |
| Skull.SkullFire.CancelManual | js/script.js:606-609 | A listed click timeout is cancelled and forgotten |
| Skull.SkullFire.StopManual | js/script.js:579-612 | The demon ends, its timeout is gone, the plain skull returns and the fire keeps running only for the music; a stopping fire is hidden and the skull keeps the lights filter alone, a running fire keeps its frame and colour, and without the fire image nothing of the fire changes |
| Skull.SkullFire.HideDemon | js/script.js:605-610 | Demon flag cleared, timeout cancelled, plain skull shown |
| Skull.SkullFire.HandleClick | js/script.js:579-620 | The demon shows and the fire runs: a fresh fire shows frame 0 with the skull in frame 0's colour, a running fire keeps its frame and colour, and without the fire image nothing of the fire changes; the only pending timeout is the demon's end 4000 ms from now, replacing an earlier one |
| Skull.SkullFire.ShowDemon | js/script.js:615-616 | The demon flag is set and the demon picture shown |
| Skull.SkullFire.RestartManual | js/script.js:618-619 | Any listed click timeout is cancelled and a new one set 4000 ms from now |
| Skull.SkullFire.SetManual | js/script.js:619 | The demon's end is set 4000 ms from now and listed |
| Skull.SkullFire.StartMusic | js/script.js:579-627 | Music is on and the fire runs: a fresh fire shows frame 0 with the skull in frame 0's colour, a running fire keeps its frame, colour and timers, and without the fire image nothing of the fire changes |
| Skull.SkullFire.SetMusic | js/script.js:624-630 | The music flag and the `music-active` class are set together |
| Skull.SkullFire.StopMusic | js/script.js:579-635 | Music is off; the fire runs only while the demon shows, and the skull picture is plain unless the demon shows; a stopping fire is hidden and the skull keeps the lights filter alone, a continuing fire keeps its frame and colour |
| Skull.SkullFire.RestoreBase | js/script.js:632-634 | Outside the demon's four seconds the plain skull shows |
| Skull.SkullFire.UpdateLights | js/script.js:636-642 | The skull's filter is recomposed under the new lights, keeping the current frame's colour while fire, demon or music is on |
| Skull.SkullFire.OnFireFrame | js/script.js:588-592 | The fire interval shows the next of the eight frames in its colour |
| Skull.SkullFire.Fire | js/script.js:579-619 | The fire advances a frame in its colour, or the demon's four seconds end with `stopManual`'s state: the fire stops (hidden, lights filter alone) unless music plays, and otherwise keeps its frame and colour |
| Glow.CycleOrder | js/script.js:1599 | An id is in the cycle order exactly when it is a cycle id present on the page; the order is no longer than `CYCLE_IDS` |
| Glow.CycleOrderNoDuplicates | js/script.js:1599 | Filtering keeps ids distinct, so each present sign has exactly one place in the cycle |
| Glow.CycleOrderAppend | js/script.js:1599 | Filtering a concatenation concatenates the filtered pieces, so the present signs keep their relative order from `CYCLE_IDS` |
| Glow.CycleOrderAll | js/script.js:1599 | When every id is present the filter returns the ids unchanged, in their order |
| Glow.AllSignsCycle | js/script.js:1587-1599 | Every cycle sign on the page takes part, once each, and nothing else does; with all four signs on the page the cycle is `CYCLE_IDS` itself, in its order |
| Glow.GlowCycle.constructor | js/script.js:1717-1732 | Setup: every glow hidden; the cycle is enabled or disabled when a lights state was published before, and off otherwise |
| Glow.GlowCycle.HideAllGlows | js/script.js:1614-1619 | No glow is visible |
| Glow.GlowCycle.SetGlowVisibility | js/script.js:1607-1612 | Only signs on the page can be lit or dimmed; the others are untouched |
| Glow.GlowCycle.StopCycle | js/script.js:1621-1627 | The pending glow timer, if any, is cancelled and the cycle is stopped with nothing pending |
| Glow.GlowCycle.SetCycleTimer | js/script.js:1640-1649 | The glow's end is set 1000 ms from now for the current sign and held in `cycleTimer` |
| Glow.GlowCycle.StepCycle | js/script.js:1629-1650 | The cycle runs exactly when it is enabled, no hit is held and some sign is present; it then lights only the current sign and the only pending timer ends that glow in 1000 ms |
| Glow.GlowCycle.StartCycle | js/script.js:1652-1655 | A running cycle is left alone; otherwise it steps when it may |
| Glow.GlowCycle.PauseForManual | js/script.js:1657-1660 | The hit is held and the cycle stopped with nothing pending |
| Glow.GlowCycle.ResumeFromManual | js/script.js:1662-1668 | The hit is let go; when no hit is held every glow is hidden and the cycle starts again if enabled |
| Glow.GlowCycle.ShowManual | js/script.js:1674-1678 | The cycle pauses and only the target sign glows |
| Glow.GlowCycle.HideManual | js/script.js:1680-1683 | The target's glow goes off and the hit is let go, restarting the cycle when it was the last one held |
| Glow.GlowCycle.Enable | js/script.js:1705-1709 | With some sign present the cycle is enabled and started; with none nothing changes |
| Glow.GlowCycle.Disable | js/script.js:1711-1715 | The cycle is disabled and stopped, nothing is pending and every glow is hidden |
| Glow.GlowCycle.OnCycleTimeout | js/script.js:1640-1649 | With a hit held or the cycle disabled it only stops the cycle; otherwise the sign's glow ends, the index moves to the next sign and the cycle steps again |
| Glow.GlowCycle.Fire | js/script.js:1640-1649 | A running cycle moves on to the next sign one second later and keeps running |
| Glow.RunCycle | js/script.js:1640-1649 | Left alone, after k firings the cycle is k signs further round the ring and k seconds later |
| Glow.FullCycle | js/script.js:1647 | After one firing per sign the cycle is back on the sign it started from |
| MeLeaning.Src | js/script.js:2129-2133 | Each of the two speech pictures loads its own file from the table, and the plain figure's file is loaded exactly when no frame of the table is shown |
| MeLeaning.SrcInjective | js/script.js:2129-2133 | The plain figure and the two speech pictures load pairwise distinct files: two pictures in use load the same file exactly when they are the same picture |
| MeLeaning.SpeechTimeline | js/script.js:2155-2166 | The speech timeline: bubble one at the click, bubble two at 2000 ms, the reset at 4000 ms |
| MeLeaning.Figure.constructor | js/script.js:2135-2136 | Load: plain figure, inactive, nothing pending |
| MeLeaning.Figure.ClearTimers | js/script.js:2138-2141 | Every listed id is cancelled, so nothing stays pending, and the list is emptied |
| MeLeaning.Figure.ResetFigure | js/script.js:2143-2147 | The plain figure is back, nothing is pending and clicks are accepted again |
| MeLeaning.Figure.Click | js/script.js:2149-2167 | A click while active changes nothing; otherwise the figure is active and the pending list is exactly the speech timeline, every id listed |
| MeLeaning.Figure.ScheduleSpeech | js/script.js:2155-2166 | The loop sets the speech timeline and lists exactly its ids |
| MeLeaning.Figure.Fire | js/script.js:2158-2165 | A frame shows its bubble; the reset returns the plain figure with nothing pending |
| MeLeaning.ClickAndWait | js/script.js:2149-2167 | A click on an idle figure shows bubble one at once, bubble two 2000 ms later, and the plain figure, idle, at 4000 ms |
| Magpies.Src | js/script.js:2253-2390 | Of the fifteen magpie pictures only the base picture loads the base file the sequences return to |
| Magpies.Speech | js/script.js:2386-2391 | A speech of the sixth sequence shows its picture at once and the next callback comes 2000 ms later |
| Magpies.GroupDurations | js/script.js:2315-2391 | Each group of `add` calls of the sixth sequence holds for its summed delays |
| Magpies.SpecialDuration | js/script.js:2315-2399 | The sixth sequence's end is due 18000 ms after the click |
| Magpies.SpecialEvents | js/script.js:2318-2391 | The sixth sequence sets neither the end nor the earthquake's end itself, and starts the earthquake once, fourth |
| Magpies.SpecialQuakeAt | js/script.js:2318-2329 | The earthquake starts 3000 ms into the sixth sequence |
| Magpies.SpecialFramesOk | js/script.js:2315-2399 | Every frame of the sixth sequence falls due before its end, and the earthquake is over by then |
| Magpies.StagesOk | js/script.js:2254-2274 | Every stage's frames (`seq[stage]`: the five chains, then the special sequence) end before its `Done`, and any earthquake ends in time |
| Magpies.Render | js/script.js:2291-2399 | How a callback changes the scene: overlay pictures go to the magpies when there is no overlay, the dimmer only shows when present, resets hide what is present |
| Magpies.AbsentStaysHidden | js/script.js:2334-2382 | A page without an overlay never displays it, and one without a dimmer never dims |
| Magpies.TailScene | js/script.js:2382-2391 | The last groups of the sixth sequence put everything back to base and then show the three speeches |
| Magpies.SpecialLeavesSceneClean | js/script.js:2318-2391 | Whatever the scene before, the sixth sequence's callbacks in timeline order leave the overlay hidden, the scene undimmed and speech eight on the magpies |
| Magpies.PendingOkTimeline | js/script.js:2286-2309 | A played frame list, as scheduled, falls due before its end and its earthquake ends in time |
| Magpies.PendingOkFire | js/script.js:2291-2307 | Firing the earliest magpie timer keeps that relation, and when the end fires nothing else is pending |
| Magpies.MagpieStages.constructor | js/script.js:2276-2278 | Load: stage 0, not busy, nothing pending, the base picture |
| Magpies.MagpieStages.ClearTimers | js/script.js:2280-2284 | Every listed id is cancelled, the list emptied and the earthquake class removed |
| Magpies.MagpieStages.Play | js/script.js:2286-2309 | Busy at once, earlier timers cleared, then one timeout per frame at its cumulative offset and the end at the total, every id listed |
| Magpies.MagpieStages.ScheduleRun | js/script.js:2289-2308 | The scheduling loop leaves exactly the frames' timeline pending and lists its ids |
| Magpies.MagpieStages.Click | js/script.js:2414-2419 | A click while busy changes nothing; otherwise the current stage's sequence is playing |
| Magpies.MagpieStages.StartQuake | js/script.js:2322-2329 | The earthquake class goes on and its removal is set, and listed, 1000 ms later |
| Magpies.MagpieStages.Finish | js/script.js:2300-2307 | The base picture is back, clicks are accepted again and the stage moves to the next, after the sixth back to the first |
| Magpies.MagpieStages.EndQuake | js/script.js:2325-2327 | The earthquake class goes off |
| Magpies.MagpieStages.Display | js/script.js:2291-2296 | A picture callback only changes what the page shows |
| Magpies.MagpieStages.Fire | js/script.js:2291-2399 | The callback renders the scene; the earthquake start adds its end, the ends switch the class; the sequence's end leaves nothing pending, ends the busy state and advances the stage |
| Magpies.SixSequencesComeBack | js/script.js:2306 | Six completed sequences bring the magpies back to the stage they started from |
| Slideshow.WrapStep | js/script.js:2593-2594 | A step forward or back stays on the ring: forward from the last goes to the first, back from the first to the last, every other step moves by one |
| Slideshow.StepsUndo | js/script.js:2593-2594 | A step back undoes a step forward, and a step forward undoes a step back |
| Slideshow.ForwardIsNext | js/script.js:2555 | Stepping forward is the ring's `Next`, so n steps forward come back to the same slide |
| Slideshow.Gallery.constructor | js/script.js:2550 | Load: the first slide selected, modal closed |
| Slideshow.Gallery.Show | js/script.js:2553-2558 | Without slides nothing changes; otherwise the index is the wrap of i, the picture is that slide's and the indicator reads (index + 1) / count; an index already on the ring is kept |
| Slideshow.Gallery.OpenModal | js/script.js:2560-2569 | Without slides nothing happens; otherwise a numeric start index is wrapped into the index, the modal opens and the slide shows |
| Slideshow.Gallery.CloseModal | js/script.js:2571-2575 | The modal closes, is hidden from assistive technology and the page scrolls again; the slide is kept |
| Slideshow.Gallery.ClickTrigger | js/script.js:2577-2590 | A click on gallery picture `index` opens the modal on exactly that slide |
| Slideshow.Gallery.NextSlide | js/script.js:2594 | One slide forward, from the last back to the first |
| Slideshow.Gallery.PrevSlide | js/script.js:2593 | One slide back, from the first to the last |
| Slideshow.Gallery.ClickModal | js/script.js:2595 | Only a click on the backdrop itself closes the modal |
| Slideshow.Gallery.KeyDown | js/script.js:2597-2602 | Keys are ignored while closed; Escape closes, ArrowRight and ArrowLeft step forward and back round the ring, other keys change nothing |
| Slideshow.WrapForward | js/script.js:2538-2602 | On the seven-slide gallery, ArrowRight from the last slide shows the first picture as 1 / 7 |
| Cockatoo.ReduceIsDuration | js/script.js:354 | The `reduce` fold adds exactly the frames' total duration to its start value |
| Cockatoo.ResetEndsLastFrame | js/script.js:343-358 | The reduce total is where the scheduling loop's elapsed time ends: the reset to base is the timeline's final timeout, due when the last frame's hold runs out |

## Left out

- Responsive scaling (js/script.js:8-12): floating-point window arithmetic.
- Audio: the audio element, `ensureStartOffset`, play and pause (js/script.js:1353-1379, 1482-1510). These are float seconds over a media API.
- The CD's float beat (js/script.js:438-447). `Plant.PlantWidget.StartMusicCycle` takes the already scaled and rounded interval in milliseconds as a parameter.
- The plant's `--plant-dance-duration` property (js/script.js:447, 458): presentation only. Its `dancing` class is the `dancing` field of `Plant.PlantWidget`.
- Widgets driven by CSS `animationend` events: the bee, dog, spray can, soap bucket and graffiti. The CSS engine's timing is not modelled.
- Navigation and links: the bottom icons, cloud nav, category-hit links (the glow click's `window.open`/`location` after `hideManual`) and the credits overlays. These are plain DOM and location changes.
- The cockatoo widget beyond its `reduce` total (js/script.js:286-380): the pulse and the speech-five timing are not part of this model.
- Slideshow swipe gestures (js/script.js:2605-2614) and image preloading (js/script.js:2548).
- The magpies' effect classes (`stop-grow`, `stop-shake`, `mum-landing`, `drongo-fly-away`, the transform reset and the reflow tricks). The scene records only the pictures and what is displayed. The stop's "grow" and "shake" callbacks fall due at the same instant, 6000 ms after the click, because the grow is added with delay 0; the model keeps those times as written.
- The lights switch itself (js/script.js:1285-1333). Its effect reaches the widgets as the `lightsOff` parameter of their `UpdateLights` and as `Glow.GlowCycle.Enable`/`Disable`.
- Real browser timers. Timers are the abstract pending list described above. Clock progress comes from `AdvanceTo` and `Fire`.
- Element lookup. Each widget assumes its required elements exist. Optional elements are parameters: the skull's fire image, the magpies' overlay and dimmer, the door picture seen by the heart.
- Heart.MwahHeart.ResetHeart: does not write the door element. It returns a `restoreDoor` flag instead, as `Click` returns `swapDoor`: the heart's direct writes to `door.src` (js/script.js:859, 871) are results of the heart, not changes to a `Door.DoorToggle` object.
- Door.DoorToggle: its agreement of picture and `open` flag covers only the writes through `setDoor` (js/script.js:38-42). The heart (js/script.js:859, 871) and the dumbbell (js/script.js:1577-1579) write `door.src` directly and leave `open` alone, so on the page the two can disagree: with the door open, a heart click shows the mwah door, a door click closes the door, and the heart's reset then shows the open picture while `open` stays false. The dumbbell widget is not part of this model.
- Glow.GlowCycle.constructor: takes the lights state published before setup (`window.__lightsOnState`) as an `Option<bool>` parameter, not as a global.
- Glow.GlowCycle.HideManual: states only that the target stops glowing when the cycle does not restart. As written, a second `hideManual` while the cycle runs also hides the glow the cycle has just lit on that sign. The invariant therefore allows at most the current sign to glow, not exactly it.
- Skull.SkullFire.HandleClick: the invariant does not record that the demon timeout's id is pending. It states that the click leaves exactly one timeout, the demon's end at now + 4000.
- Slideshow.Gallery.Show: requires an index no lower than minus the slide count when there are slides. Below that, `slides[idx]` is undefined in the script and its `.src` throws; every caller passes a valid index plus or minus one.
- Liveness is not proved for every widget: that a busy widget always becomes idle again. It is shown by explicit runs for the TV, the door and the leaning figure, and for a full glow cycle.
- Hot dog and dancing dudes: whether the loop resumes is decided at the click (`const resumeLoop = musicActive`, js/script.js:1104; `const resume = !!loopInterval`, js/script.js:1229) and passed to `finishManual`; a music change during the run does not alter it.

=== FILE: banana.dfy ===
/**
 * The banana portrait: a dancing overlay cycles eight frames. A click plays
 * the frames twice, 200 ms apart; while music plays the overlay loops on an
 * interval and each frame gets its own colour filter; the page lights add a
 * dimming filter to both the portrait and the overlay.
 */
module Banana {
  import opened Timers
  import opened Filters

  const BASE_SRC := "assets/banana-portrait.png"
  const FRAMES: seq<string> := [
    "assets/banana-one.png",
    "assets/banana-two.png",
    "assets/banana-three.png",
    "assets/banana-four.png",
    "assets/banana-five.png",
    "assets/banana-six.png",
    "assets/banana-seven.png",
    "assets/banana-eight.png"
  ]
  /** `FRAMES.length`. */
  const FRAME_COUNT := 8
  const FRAME_DURATION := 200
  const REPEAT_COUNT := 2
  const FILTERS: seq<string> := [
    "hue-rotate(0deg) saturate(130%)",
    "hue-rotate(45deg) saturate(150%)",
    "hue-rotate(90deg) saturate(170%)",
    "hue-rotate(135deg) saturate(200%)",
    "hue-rotate(180deg) saturate(170%)",
    "hue-rotate(225deg) saturate(150%)",
    "hue-rotate(270deg) saturate(140%)",
    "hue-rotate(315deg) saturate(160%)"
  ]

  /** The three characters after `hue-rotate(` of each colour filter: its angle, which tells the filters apart. */
  const ANGLES: seq<string> := ["0de", "45d", "90d", "135", "180", "225", "270", "315"]

  /**
   * The eight colour filters are distinct, non-empty and never start with the
   * dimming filter, so the overlay's filter text tells apart every lights state
   * and frame colour.
   */
  lemma FiltersDistinct()
    ensures GoodPalette(FILTERS)
  {
    AnglesTellApart(FILTERS, ANGLES);
  }


  /** An image the overlay can show: the base portrait or dance frame `index`. */
  datatype Image = Base | Dance(index: nat)

  /**
   * The file a image is loaded from. Only the base portrait loads `BASE_SRC`; an
   * index past the table, which no caller uses, falls back to it.
   */
  function Src(img: Image): (src: string)
    ensures img.Dance? && img.index < |FRAMES| ==> src == FRAMES[img.index]
    ensures src == BASE_SRC <==> !(img.Dance? && img.index < |FRAMES|)
  {
    match img
    case Base => BASE_SRC
    case Dance(i) => if i < |FRAMES| then FRAMES[i] else BASE_SRC
  }

  /** The pictures the widget uses: the base portrait and the frames of its table. */
  predicate InRange(img: Image)
  {
    img.Base? || img.index < |FRAMES|
  }

  /** Distinct pictures in use load distinct files, so the file on the page tells which picture shows. */
  lemma SrcInjective(a: Image, b: Image)
    requires InRange(a) && InRange(b)
    ensures Src(a) == Src(b) <==> a == b
  {
  }

  /** What a banana timer does when it fires. */
  datatype Event =
    | Tick                 // the music loop's interval callback
    | ApplyFrame(index: nat) // a click's frame callback
    | FinishManual         // the click's completion callback (`stopManual`)

  /** The events of a click: the eight frames, twice. */
  function ManualEvents(): (events: seq<Event>)
    ensures |events| == FRAME_COUNT * REPEAT_COUNT
  {
    seq(FRAME_COUNT * REPEAT_COUNT, k => ApplyFrame(k % 8))
  }

  /** The click's frames, each held one frame duration. */
  function ManualRun(): seq<Frame<Event>>
  {
    Even(ManualEvents(), FRAME_DURATION)
  }

  /**
   * The click's timeline: frame `k % 8` at `200 * k` ms for the sixteen showings,
   * `stopManual` at 3200 ms.
   */
  lemma ManualTimelineAt(firstId: nat, start: nat)
    ensures |Timeline(firstId, start, ManualRun(), FinishManual)| == 17
    ensures forall k :: 0 <= k < 16 ==>
      Timeline(firstId, start, ManualRun(), FinishManual)[k]
        == Timer(firstId + k, start + FRAME_DURATION * k, 0, ApplyFrame(k % 8))
    ensures Timeline(firstId, start, ManualRun(), FinishManual)[16] == Timer(firstId + 16, start + 3200, 0, FinishManual)
  {
    TimelineAt(firstId, start, ManualRun(), FinishManual);
    forall k | 0 <= k <= 16 ensures Duration(ManualRun()[..k]) == FRAME_DURATION * k {
      EvenDuration(ManualEvents(), FRAME_DURATION, k);
    }
    assert ManualRun()[..16] == ManualRun();
  }

  /** Frame `index` of cycle `cycle` is the click's showing number `8 * cycle + index`, at `200` ms per showing before it. */
  lemma ManualStep(nextId: nat, start: nat, cycle: nat, index: nat)
    requires cycle < REPEAT_COUNT && index < FRAME_COUNT
    ensures var n := cycle * FRAME_COUNT + index;
      var run := ManualRun();
      var t := Timer(nextId + n, start + FRAME_DURATION * n, 0, ApplyFrame(index));
      n < |run| &&
      Scheduled(nextId, start, run[..n + 1]) == Scheduled(nextId, start, run[..n]) + [t] &&
      IdList(Scheduled(nextId, start, run[..n]) + [t]) == IdList(Scheduled(nextId, start, run[..n])) + [t.id]
  {
    var n := cycle * FRAME_COUNT + index;
    var run := ManualRun();
    assert n % 8 == index;
    ScheduledStep(nextId, start, run, n);
    EvenDuration(ManualEvents(), FRAME_DURATION, n);
    IdListSnoc(Scheduled(nextId, start, run[..n]), Timer(nextId + n, start + FRAME_DURATION * n, 0, ApplyFrame(index)));
  }

  /** The click's sixteen showings last 3200 ms. */
  lemma ManualRunShape()
    ensures |ManualRun()| == 16 && ManualRun()[..16] == ManualRun()
    ensures Duration(ManualRun()) == FRAME_DURATION * 16
  {
    EvenDuration(ManualEvents(), FRAME_DURATION, 16);
    assert ManualRun()[..16] == ManualRun();
  }

  /** After the sixteen showings, `stopManual` at `200 * 16` completes the click timeline. */
  lemma ManualFinal(nextId: nat, start: nat)
    ensures var run := ManualRun();
      var t := Timer(nextId + 16, start + FRAME_DURATION * 16, 0, FinishManual);
      |run| == 16 &&
      Scheduled(nextId, start, run[..16]) + [t] == Timeline(nextId, start, run, FinishManual) &&
      IdList(Scheduled(nextId, start, run[..16])) + [t.id] == IdList(Timeline(nextId, start, run, FinishManual))
  {
    ManualRunShape();
    var run := ManualRun();
    var t := Timer(nextId + 16, start + FRAME_DURATION * 16, 0, FinishManual);
    IdListSnoc(Scheduled(nextId, start, run), t);
  }

  /**
   * The click's scheduling loops: for each of the two cycles and each frame, a
   * timeout at `FRAME_DURATION * frameNumber`, then `stopManual` after all sixteen.
   */
  method ScheduleManual(q: seq<Timer<Event>>, nextId: nat, start: nat)
    returns (q': seq<Timer<Event>>, nextId': nat, ids: seq<nat>)
    ensures q' == q + Timeline(nextId, start, ManualRun(), FinishManual)
    ensures nextId' == nextId + |ManualRun()| + 1
    ensures ids == IdList(Timeline(nextId, start, ManualRun(), FinishManual))
  {
    var run := ManualRun();
    var s: seq<Timer<Event>> := [];
    nextId', ids := nextId, [];
    for cycle := 0 to REPEAT_COUNT
      invariant s == Scheduled(nextId, start, run[..cycle * 8])
      invariant nextId' == nextId + cycle * 8
      invariant ids == IdList(s)
    {
      s, nextId', ids := ScheduleCycle(s, nextId, start, cycle, nextId', ids);
    }
    var totalFrames := FRAME_COUNT * REPEAT_COUNT;
    ManualFinal(nextId, start);
    s := s + [Timer(nextId', start + FRAME_DURATION * totalFrames, 0, FinishManual)];
    ids := ids + [nextId'];
    nextId' := nextId' + 1;
    q' := q + s;
  }

  /** One cycle of the click's scheduling: a timeout for each of the eight frames, at its showing's offset. */
  method ScheduleCycle(s: seq<Timer<Event>>, nextId: nat, start: nat, cycle: nat, id: nat, ids: seq<nat>)
    returns (s': seq<Timer<Event>>, id': nat, ids': seq<nat>)
    requires cycle < REPEAT_COUNT
    requires s == Scheduled(nextId, start, ManualRun()[..cycle * 8])
    requires id == nextId + cycle * 8 && ids == IdList(s)
    ensures s' == Scheduled(nextId, start, ManualRun()[..(cycle + 1) * 8])
    ensures id' == nextId + (cycle + 1) * 8 && ids' == IdList(s')
  {
    var run := ManualRun();
    s', id', ids' := s, id, ids;
    for index := 0 to FRAME_COUNT
      invariant s' == Scheduled(nextId, start, run[..cycle * 8 + index])
      invariant id' == nextId + cycle * 8 + index
      invariant ids' == IdList(s')
    {
      var frameNumber := cycle * FRAME_COUNT + index;
      ManualStep(nextId, start, cycle, index);
      s' := s' + [Timer(id', start + FRAME_DURATION * frameNumber, 0, ApplyFrame(index))];
      ids' := ids' + [id'];
      id' := id' + 1;
    }
  }

  /**
   * How the banana's timers relate to its state: the loop interval is the only
   * ticking timer and re-arms every frame duration; every other pending timer is
   * a timeout of the click run, listed in `manual`.
   */
  ghost predicate PendingOk(q: seq<Timer<Event>>, loop: Option<nat>, manual: seq<nat>)
  {
    (forall i :: 0 <= i < |q| ==>
       (q[i].event == Tick <==> loop == Some(q[i].id)) &&
       (q[i].event == Tick ==> q[i].period == FRAME_DURATION) &&
       (q[i].event != Tick ==> q[i].period == 0 && q[i].id in manual)) &&
    (loop.Some? ==> loop.value in Ids(q))
  }

  /** With neither loop nor click run, nothing is pending. */
  lemma IdleIsEmpty(q: seq<Timer<Event>>)
    requires PendingOk(q, None, [])
    ensures q == []
  {
    var none: seq<nat> := [];
    CancelManualLeavesNothing(q, none);
    CancelMissing(q, {});
    assert (set k | k in none) == {};
  }

  /** With no click run listed, cancelling the loop leaves nothing pending. */
  lemma {:induction false} CancelLoopLeavesNothing(q: seq<Timer<Event>>, l: nat)
    requires PendingOk(q, Some(l), [])
    ensures Cancel(q, {l}) == []
  {
    forall x | x in Ids(q) ensures x in {l} {
      var i :| 0 <= i < |q| && q[i].id == x;
      assert q[i].event == Tick;
    }
    CancelAll(q, {l});
  }

  /** Without the loop, cancelling the listed click timers leaves nothing pending. */
  lemma {:induction false} CancelManualLeavesNothing(q: seq<Timer<Event>>, manual: seq<nat>)
    requires PendingOk(q, None, manual)
    ensures Cancel(q, set k | k in manual) == []
  {
    forall x | x in Ids(q) ensures x in (set k | k in manual) {
      var i :| 0 <= i < |q| && q[i].id == x;
      assert q[i].event != Tick;
    }
    CancelAll(q, set k | k in manual);
  }

  /** Firing the earliest banana timer keeps the timers related to the state as before. */
  lemma PendingOkFire(q: seq<Timer<Event>>, now: nat, nextId: nat, loop: Option<nat>, manual: seq<nat>)
    requires Wf(q, now, nextId) && q != [] && PendingOk(q, loop, manual)
    ensures PendingOk(AfterFire(q, Earliest(q)), loop, manual)
  {
    var k := Earliest(q);
    WfFire(q, now, nextId);
    AfterFireFrom(q, k);
    if loop.Some? && q[k].event != Tick {
      assert loop.value != q[k].id;
    }
  }

  /** Setting the loop interval, when none runs, keeps the timers related to the state. */
  lemma PendingOkStartLoop(q: seq<Timer<Event>>, now: nat, nextId: nat, manual: seq<nat>, t: Timer<Event>)
    requires Wf(q, now, nextId) && PendingOk(q, None, manual)
    requires t == Timer(nextId, t.due, FRAME_DURATION, Tick)
    ensures PendingOk(q + [t], Some(nextId), manual)
  {
    assert (q + [t])[|q|] == t;
    IdsSingle(t);
    IdsAppend(q, [t]);
  }

  /** Cancelling the loop interval keeps the timers related to the state. */
  lemma PendingOkStopLoop(q: seq<Timer<Event>>, l: nat, manual: seq<nat>)
    requires PendingOk(q, Some(l), manual)
    ensures PendingOk(Cancel(q, {l}), None, manual)
  {
    CancelKeeps(q, {l});
  }

  /** A fresh click timeline is all click timeouts, each listed. */
  lemma PendingOkManualRun(firstId: nat, start: nat)
    ensures var t := Timeline(firstId, start, ManualRun(), FinishManual);
      PendingOk(t, None, IdList(t))
  {
    var t := Timeline(firstId, start, ManualRun(), FinishManual);
    ManualTimelineAt(firstId, start);
    assert forall i :: 0 <= i < |t| ==> t[i].event != Tick && t[i].period == 0;
  }

  class BananaPortrait {
    var overlayShown: bool
    var overlayImage: Image
    var overlayFilter: Filter
    var bananaFilter: Filter
    var manualActive: bool
    var manualTimers: seq<nat>
    var musicActive: bool
    var loopInterval: Option<nat>
    var frameIndex: nat
    var now: nat
    var pending: seq<Timer<Event>>
    var nextId: nat

    /** The timer bookkeeping, which also holds between the steps of an operation. */
    ghost predicate TimersOk()
      reads this`pending, this`now, this`nextId, this`frameIndex, this`loopInterval, this`manualTimers
    {
      Wf(pending, now, nextId) && 1 <= nextId && frameIndex < FRAME_COUNT &&
      PendingOk(pending, loopInterval, manualTimers)
    }

    /**
     * Between events: the loop runs exactly while music plays and no click run
     * is on; the click timers are listed only during a click run; the overlay is
     * shown exactly while the banana dances (click run or music), and a hidden
     * overlay carries no filter.
     */
    ghost predicate Valid()
      reads this
    {
      TimersOk() &&
      (loopInterval.Some? <==> musicActive && !manualActive) &&
      (!manualActive ==> manualTimers == []) &&
      (overlayShown <==> manualActive || musicActive) &&
      (!overlayShown ==> overlayFilter == NO_FILTER)
    }

    /** Load: the overlay hidden, the portrait filtered for the current lights. */
    constructor (lightsOff: bool)
      ensures Valid()
      ensures !overlayShown && overlayImage == Base && bananaFilter == Filter(lightsOff, Plain)
      ensures !manualActive && !musicActive && loopInterval == None && frameIndex == 0 && pending == []
    {
      overlayShown, overlayImage, overlayFilter := false, Base, NO_FILTER;
      bananaFilter := Filter(lightsOff, Plain);
      manualActive, manualTimers, musicActive := false, [], false;
      loopInterval, frameIndex := None, 0;
      now, pending, nextId := 0, [], 1;
    }

    /** Time passes with nothing due before `t`. */
    method AdvanceTo(t: nat)
      requires Valid() && now <= t
      requires forall i :: 0 <= i < |pending| ==> t <= pending[i].due
      modifies this`now
      ensures Valid() && now == t
    {
      now := t;
    }

    /**
     * `setFilters`: the portrait gets the lights filter; a shown overlay gets the
     * lights filter and the colour effect composed, and the property is removed
     * when that composition is empty or the overlay is hidden.
     */
    method SetFilters(tint: Tint, lightsOff: bool)
      modifies this`bananaFilter, this`overlayFilter
      ensures bananaFilter == Filter(lightsOff, Plain)
      ensures overlayFilter == if overlayShown then Filter(lightsOff, tint) else NO_FILTER
    {
      bananaFilter := Filter(lightsOff, Plain);
      var combined := Filter(lightsOff, tint);
      if overlayShown && combined.IsSet() {
        overlayFilter := combined;
      } else {
        overlayFilter := NO_FILTER;
      }
    }

    /** `hideOverlay`: hidden, back to the base image, unfiltered. */
    method HideOverlay()
      modifies this`overlayShown, this`overlayImage, this`overlayFilter
      ensures !overlayShown && overlayImage == Base && overlayFilter == NO_FILTER
    {
      overlayShown := false;
      overlayImage := Base;
      overlayFilter := NO_FILTER;
    }

    /** `setFilters('')` followed by `hideOverlay()`: the dance is cleared off the portrait. */
    method ClearOverlay(lightsOff: bool)
      modifies this`overlayShown, this`overlayImage, this`overlayFilter, this`bananaFilter
      ensures !overlayShown && overlayImage == Base && overlayFilter == NO_FILTER && bananaFilter == Filter(lightsOff, Plain)
    {
      SetFilters(Plain, lightsOff);
      HideOverlay();
    }

    /**
     * `applyFrame`: frame `index % 8` is shown on the overlay, coloured by its own
     * filter only while music plays.
     */
    method ApplyFrame(index: nat, lightsOff: bool)
      modifies this`frameIndex, this`overlayShown, this`overlayImage, this`overlayFilter, this`bananaFilter
      ensures frameIndex == index % 8 && overlayShown && overlayImage == Dance(frameIndex)
      ensures index < FRAME_COUNT ==> frameIndex == index
      ensures bananaFilter == Filter(lightsOff, Plain)
      ensures overlayFilter == Filter(lightsOff, if musicActive then Tinted(frameIndex) else Plain)
    {
      frameIndex := index % 8;
      overlayShown := true;
      overlayImage := Dance(frameIndex);
      if musicActive {
        SetFilters(Tinted(frameIndex), lightsOff);
      } else {
        SetFilters(Plain, lightsOff);
      }
    }

    /**
     * `startLoop`: when no loop runs, the current frame is shown and an interval
     * of one frame duration is set; a running loop is left alone.
     */
    method StartLoop(lightsOff: bool)
      requires TimersOk()
      modifies this`frameIndex, this`overlayShown, this`overlayImage, this`overlayFilter, this`bananaFilter
      modifies this`pending, this`loopInterval, this`nextId
      ensures TimersOk() && loopInterval.Some?
      ensures old(loopInterval).Some? ==>
        loopInterval == old(loopInterval) && pending == old(pending) && nextId == old(nextId) &&
        frameIndex == old(frameIndex) && overlayShown == old(overlayShown) && overlayImage == old(overlayImage) &&
        overlayFilter == old(overlayFilter) && bananaFilter == old(bananaFilter)
      ensures old(loopInterval).None? ==>
        loopInterval == Some(old(nextId)) && pending == old(pending) + [Timer(old(nextId), now + FRAME_DURATION, FRAME_DURATION, Tick)] &&
        frameIndex == old(frameIndex) && overlayShown && overlayImage == Dance(frameIndex) &&
        bananaFilter == Filter(lightsOff, Plain) &&
        overlayFilter == Filter(lightsOff, if musicActive then Tinted(frameIndex) else Plain)
    {
      if loopInterval.Some? {
        return;
      }
      overlayShown := true;
      ApplyFrame(frameIndex, lightsOff);
      SetLoop();
    }

    /** `setInterval` for the loop: a ticking timer one frame duration from now. */
    method SetLoop()
      requires TimersOk() && loopInterval.None?
      modifies this`pending, this`loopInterval, this`nextId
      ensures TimersOk()
      ensures loopInterval == Some(old(nextId)) && nextId == old(nextId) + 1
      ensures pending == old(pending) + [Timer(old(nextId), now + FRAME_DURATION, FRAME_DURATION, Tick)]
    {
      var t := Timer(nextId, now + FRAME_DURATION, FRAME_DURATION, Tick);
      WfAppend(pending, now, nextId, t);
      PendingOkStartLoop(pending, now, nextId, manualTimers, t);
      pending := pending + [t];
      loopInterval := Some(nextId);
      nextId := nextId + 1;
    }

    /** `clearInterval` for the loop. */
    method CancelLoop()
      requires TimersOk() && loopInterval.Some?
      modifies this`pending, this`loopInterval
      ensures TimersOk() && loopInterval == None
      ensures pending == Cancel(old(pending), {old(loopInterval).value})
    {
      var l := loopInterval.value;
      WfCancel(pending, now, nextId, {l});
      PendingOkStopLoop(pending, l, manualTimers);
      pending := Cancel(pending, {l});
      loopInterval := None;
    }

    /**
     * `stopLoop`: a running loop is cancelled; when neither a click run nor music
     * is on, the overlay is also cleared and hidden.
     */
    method StopLoop(lightsOff: bool)
      requires TimersOk()
      modifies this`pending, this`loopInterval
      modifies this`overlayShown, this`overlayImage, this`overlayFilter, this`bananaFilter
      ensures TimersOk() && loopInterval == None
      ensures pending == if old(loopInterval).Some? then Cancel(old(pending), {old(loopInterval).value}) else old(pending)
      ensures old(loopInterval).Some? && !manualActive && !musicActive ==>
        !overlayShown && overlayImage == Base && overlayFilter == NO_FILTER && bananaFilter == Filter(lightsOff, Plain)
      ensures old(loopInterval).None? || manualActive || musicActive ==>
        overlayShown == old(overlayShown) && overlayImage == old(overlayImage) &&
        overlayFilter == old(overlayFilter) && bananaFilter == old(bananaFilter)
    {
      if loopInterval.None? {
        return;
      }
      CancelLoop();
      if !manualActive && !musicActive {
        ClearOverlay(lightsOff);
      }
    }

    /** `manualTimers.forEach(clearTimeout)` with the loop stopped: nothing stays pending. */
    method CancelManual()
      requires TimersOk() && loopInterval == None
      modifies this`pending, this`manualTimers
      ensures TimersOk() && pending == [] && manualTimers == []
    {
      CancelManualLeavesNothing(pending, manualTimers);
      pending := Cancel(pending, set k | k in manualTimers);
      manualTimers := [];
    }

    /**
     * `stopManual`: the click run ends and all its timers are cancelled; with music
     * on the loop restarts from the first frame, otherwise the overlay is cleared.
     */
    method StopManual(lightsOff: bool)
      requires TimersOk() && loopInterval == None
      modifies this
      ensures TimersOk()
      ensures !manualActive && manualTimers == [] && frameIndex == 0 && musicActive == old(musicActive)
      ensures musicActive ==>
        loopInterval == Some(old(nextId)) && pending == [Timer(old(nextId), now + FRAME_DURATION, FRAME_DURATION, Tick)] &&
        overlayShown && overlayImage == Dance(0) &&
        overlayFilter == Filter(lightsOff, Tinted(0))
      ensures !musicActive ==>
        loopInterval == None && pending == [] &&
        !overlayShown && overlayImage == Base && overlayFilter == NO_FILTER
      ensures bananaFilter == Filter(lightsOff, Plain) && now == old(now)
    {
      manualActive := false;
      CancelManual();
      if musicActive {
        LoopFromStart(lightsOff);
      } else {
        StopDancing(lightsOff);
      }
    }

    /**
     * The quiet branch of `stopManual` and `stopMusic`: `stopLoop`, then the
     * filters reset, the overlay hidden and the frame index back to 0. With no
     * click timers listed, nothing stays pending.
     */
    method StopDancing(lightsOff: bool)
      requires TimersOk() && !manualActive && !musicActive && manualTimers == []
      modifies this`pending, this`loopInterval, this`frameIndex
      modifies this`overlayShown, this`overlayImage, this`overlayFilter, this`bananaFilter
      ensures TimersOk() && loopInterval == None && pending == [] && frameIndex == 0
      ensures !overlayShown && overlayImage == Base && overlayFilter == NO_FILTER && bananaFilter == Filter(lightsOff, Plain)
    {
      if loopInterval.Some? {
        CancelLoopLeavesNothing(pending, loopInterval.value);
      } else {
        IdleIsEmpty(pending);
      }
      StopLoop(lightsOff);
      ClearOverlay(lightsOff);
      frameIndex := 0;
    }

    /**
     * A click during a click run does nothing. Otherwise the loop stops, frame 0
     * shows at once, and the pending list is exactly the click timeline: frame
     * `k % 8` at `now + 200 * k`, `stopManual` at `now + 3200`.
     */
    method HandleClick(lightsOff: bool)
      requires Valid()
      modifies this
      ensures Valid()
      ensures old(manualActive) ==> unchanged(this)
      ensures !old(manualActive) ==>
        manualActive && loopInterval == None && musicActive == old(musicActive) &&
        pending == Timeline(old(nextId), now, ManualRun(), FinishManual) &&
        manualTimers == IdList(pending) &&
        frameIndex == 0 && overlayShown && overlayImage == Dance(0) &&
        overlayFilter == Filter(lightsOff, if musicActive then Tinted(0) else Plain) &&
        bananaFilter == Filter(lightsOff, Plain)
      ensures now == old(now)
    {
      if manualActive {
        return;
      }
      StartManual(lightsOff);
    }

    /** The accepted click: the loop stops, frame 0 shows and the click timeline is set. */
    method StartManual(lightsOff: bool)
      requires Valid() && !manualActive
      modifies this
      ensures Valid()
      ensures manualActive && loopInterval == None && musicActive == old(musicActive)
      ensures pending == Timeline(old(nextId), now, ManualRun(), FinishManual) && manualTimers == IdList(pending)
      ensures frameIndex == 0 && overlayShown && overlayImage == Dance(0)
      ensures overlayFilter == Filter(lightsOff, if musicActive then Tinted(0) else Plain)
      ensures bananaFilter == Filter(lightsOff, Plain) && now == old(now)
    {
      var firstId, start := nextId, now;
      BeginManual(lightsOff);
      ApplyFrame(0, lightsOff); // also the `frameIndex = 0` before it
      StartRun(firstId, start);
    }

    /** The click run begins: `manualActive` is set and `stopLoop` leaves nothing pending. */
    method BeginManual(lightsOff: bool)
      requires Valid() && !manualActive
      modifies this`manualActive, this`pending, this`loopInterval
      modifies this`overlayShown, this`overlayImage, this`overlayFilter, this`bananaFilter
      ensures TimersOk() && manualActive && pending == [] && manualTimers == [] && loopInterval == None
      ensures overlayShown == old(overlayShown) && overlayImage == old(overlayImage)
      ensures overlayFilter == old(overlayFilter) && bananaFilter == old(bananaFilter)
    {
      if loopInterval.Some? {
        CancelLoopLeavesNothing(pending, loopInterval.value);
      } else {
        IdleIsEmpty(pending);
      }
      manualActive := true;
      StopLoop(lightsOff);
    }

    /** Sets the click timeline on an empty pending list and lists its ids. */
    method StartRun(firstId: nat, start: nat)
      requires TimersOk() && pending == [] && manualTimers == [] && loopInterval == None
      requires firstId == nextId && start == now
      modifies this`pending, this`manualTimers, this`nextId
      ensures TimersOk()
      ensures pending == Timeline(firstId, start, ManualRun(), FinishManual)
      ensures manualTimers == IdList(pending)
    {
      WfTimeline(pending, now, nextId, now, ManualRun(), FinishManual);
      PendingOkManualRun(nextId, now);
      pending, nextId, manualTimers := ScheduleManual(pending, nextId, now);
    }

    /**
     * `startMusic`: music is on; outside a click run the loop starts from the first
     * frame (a loop already running keeps its timer and display).
     */
    method StartMusic(lightsOff: bool)
      requires Valid()
      modifies this
      ensures Valid() && musicActive
      ensures manualActive == old(manualActive) && now == old(now)
      ensures old(manualActive) ==> pending == old(pending) && frameIndex == old(frameIndex) && overlayImage == old(overlayImage)
      ensures !old(manualActive) ==> frameIndex == 0 && loopInterval.Some?
      ensures !old(manualActive) && old(loopInterval).None? ==>
        loopInterval == Some(old(nextId)) &&
        pending == [Timer(old(nextId), now + FRAME_DURATION, FRAME_DURATION, Tick)] &&
        overlayImage == Dance(0) && overlayFilter == Filter(lightsOff, Tinted(0))
    {
      musicActive := true;
      if !manualActive {
        LoopFromStart(lightsOff);
      }
    }

    /**
     * `state.frameIndex = 0; startLoop()`, as `startMusic` and `stopManual` do it
     * outside a click run: a loop that was not running starts alone from frame 0.
     */
    method LoopFromStart(lightsOff: bool)
      requires TimersOk() && musicActive && manualTimers == []
      modifies this`frameIndex, this`overlayShown, this`overlayImage, this`overlayFilter, this`bananaFilter
      modifies this`pending, this`loopInterval, this`nextId
      ensures TimersOk() && loopInterval.Some? && frameIndex == 0
      ensures old(loopInterval).Some? ==>
        loopInterval == old(loopInterval) && pending == old(pending) && nextId == old(nextId) &&
        overlayShown == old(overlayShown) && overlayImage == old(overlayImage) &&
        overlayFilter == old(overlayFilter) && bananaFilter == old(bananaFilter)
      ensures old(loopInterval).None? ==>
        loopInterval == Some(old(nextId)) && pending == [Timer(old(nextId), now + FRAME_DURATION, FRAME_DURATION, Tick)] &&
        overlayShown && overlayImage == Dance(0) && bananaFilter == Filter(lightsOff, Plain) &&
        overlayFilter == Filter(lightsOff, Tinted(0))
    {
      if loopInterval.None? {
        IdleIsEmpty(pending);
      }
      frameIndex := 0;
      StartLoop(lightsOff);
    }

    /** `stopMusic`: music is off; outside a click run the loop stops and the overlay is cleared. */
    method StopMusic(lightsOff: bool)
      requires Valid()
      modifies this
      ensures Valid() && !musicActive
      ensures manualActive == old(manualActive) && now == old(now)
      ensures old(manualActive) ==> pending == old(pending) && frameIndex == old(frameIndex) && overlayImage == old(overlayImage)
      ensures !old(manualActive) ==>
        loopInterval == None && pending == [] && frameIndex == 0 &&
        !overlayShown && overlayImage == Base && overlayFilter == NO_FILTER && bananaFilter == Filter(lightsOff, Plain)
    {
      musicActive := false;
      if !manualActive {
        StopDancing(lightsOff);
      }
    }

    /**
     * `updateLights`: while music plays the current frame is re-applied with the
     * new lights; otherwise the filters are reset, and outside a click run the
     * overlay is hidden.
     */
    method UpdateLights(lightsOff: bool)
      requires Valid()
      modifies this`frameIndex, this`overlayShown, this`overlayImage, this`overlayFilter, this`bananaFilter
      ensures Valid()
      ensures bananaFilter == Filter(lightsOff, Plain) && frameIndex == old(frameIndex)
      ensures musicActive ==>
        overlayImage == Dance(frameIndex) &&
        overlayFilter == Filter(lightsOff, Tinted(frameIndex))
      ensures !musicActive && !manualActive ==> overlayImage == Base && overlayFilter == NO_FILTER
      ensures !musicActive && manualActive ==> overlayImage == old(overlayImage) && overlayFilter == Filter(lightsOff, Plain)
    {
      if musicActive {
        ApplyFrame(frameIndex, lightsOff);
      } else if !manualActive {
        ClearOverlay(lightsOff);
      } else {
        SetFilters(Plain, lightsOff);
      }
    }

    /** Removes the earliest pending timer as the browser does when it fires, and moves the clock to it. */
    method TakeEarliest() returns (t: Timer<Event>)
      requires Valid() && pending != []
      modifies this`pending, this`now
      ensures Valid()
      ensures t == old(pending[Earliest(pending)]) && now == t.due
      ensures t.event == Tick ==> loopInterval == Some(t.id)
      ensures t.event != Tick ==> t.id in manualTimers
      ensures pending == AfterFire(old(pending), Earliest(old(pending)))
    {
      var k := Earliest(pending);
      t := pending[k];
      WfFire(pending, now, nextId);
      PendingOkFire(pending, now, nextId, loopInterval, manualTimers);
      now := t.due;
      pending := AfterFire(pending, k);
    }

    /** The loop's tick: the next frame, wrapping after the eighth. */
    method OnTick(lightsOff: bool)
      requires Valid() && loopInterval.Some?
      modifies this`frameIndex, this`overlayShown, this`overlayImage, this`overlayFilter, this`bananaFilter
      ensures Valid()
      ensures frameIndex == (old(frameIndex) + 1) % 8 && overlayShown && overlayImage == Dance(frameIndex)
      ensures overlayFilter == Filter(lightsOff, Tinted(frameIndex)) && bananaFilter == Filter(lightsOff, Plain)
    {
      ApplyFrame((frameIndex + 1) % 8, lightsOff);
    }

    /** A click frame's timeout: that frame is shown. */
    method OnFrame(index: nat, lightsOff: bool)
      requires Valid() && manualActive
      modifies this`frameIndex, this`overlayShown, this`overlayImage, this`overlayFilter, this`bananaFilter
      ensures Valid()
      ensures frameIndex == index % 8 && overlayShown && overlayImage == Dance(frameIndex)
      ensures overlayFilter == Filter(lightsOff, if musicActive then Tinted(frameIndex) else Plain)
      ensures bananaFilter == Filter(lightsOff, Plain)
    {
      ApplyFrame(index, lightsOff);
    }

    /** The click's completion timeout: `stopManual`. */
    method OnFinish(lightsOff: bool)
      requires Valid() && manualActive
      modifies this
      ensures Valid()
      ensures !manualActive && manualTimers == [] && frameIndex == 0 && musicActive == old(musicActive) && now == old(now)
      ensures musicActive ==>
        loopInterval == Some(old(nextId)) && pending == [Timer(old(nextId), now + FRAME_DURATION, FRAME_DURATION, Tick)] &&
        overlayShown && overlayImage == Dance(0) && overlayFilter == Filter(lightsOff, Tinted(0))
      ensures !musicActive ==>
        loopInterval == None && pending == [] &&
        !overlayShown && overlayImage == Base && overlayFilter == NO_FILTER
      ensures bananaFilter == Filter(lightsOff, Plain)
    {
      StopManual(lightsOff);
    }

    /**
     * The browser fires the earliest pending banana timer: a tick advances the
     * loop by one frame, a click frame shows its frame, and the completion ends
     * the click run.
     */
    method Fire(lightsOff: bool) returns (fired: Timer<Event>)
      requires Valid() && pending != []
      modifies this
      ensures Valid()
      ensures fired == old(pending[Earliest(pending)]) && now == fired.due
      ensures fired.event != FinishManual ==> pending == AfterFire(old(pending), Earliest(old(pending)))
      ensures musicActive == old(musicActive) && bananaFilter == Filter(lightsOff, Plain)
      ensures fired.event == Tick ==>
        frameIndex == (old(frameIndex) + 1) % 8 && overlayShown && overlayImage == Dance(frameIndex) &&
        overlayFilter == Filter(lightsOff, Tinted(frameIndex))
      ensures fired.event.ApplyFrame? ==>
        manualActive && frameIndex == fired.event.index % 8 && overlayShown && overlayImage == Dance(frameIndex) &&
        overlayFilter == Filter(lightsOff, if musicActive then Tinted(frameIndex) else Plain)
      ensures fired.event == FinishManual ==>
        !manualActive && manualTimers == [] && frameIndex == 0 &&
        (musicActive ==>
          loopInterval == Some(old(nextId)) && pending == [Timer(old(nextId), now + FRAME_DURATION, FRAME_DURATION, Tick)] &&
          overlayShown && overlayImage == Dance(0) && overlayFilter == Filter(lightsOff, Tinted(0))) &&
        (!musicActive ==>
          loopInterval == None && pending == [] && !overlayShown && overlayImage == Base && overlayFilter == NO_FILTER)
    {
      fired := TakeEarliest();
      match fired.event
      case Tick =>
        OnTick(lightsOff);
      case ApplyFrame(i) =>
        OnFrame(i, lightsOff);
      case FinishManual =>
        OnFinish(lightsOff);
    }
  }
}

=== FILE: cockatoo.dfy ===
/**
 * The cockatoo sequence's total: the frames' durations summed with a left fold,
 * the time at which its return to the base portrait is scheduled.
 */
module Cockatoo {
  import opened Timers

  /** `frames.reduce((sum, frame) => sum + frame.duration, sum)`. */
  function ReduceHolds<E>(sum: nat, frames: seq<Frame<E>>): nat
    decreases |frames|
  {
    if frames == [] then sum else ReduceHolds(sum + frames[0].hold, frames[1..])
  }

  /** The fold started at `sum` adds exactly the frames' total duration to it. */
  lemma {:induction false} ReduceIsDuration<E>(sum: nat, frames: seq<Frame<E>>)
    ensures ReduceHolds(sum, frames) == sum + Duration(frames)
    decreases |frames|
  {
    if frames != [] {
      ReduceIsDuration(sum + frames[0].hold, frames[1..]);
    }
  }

  /**
   * The total is where the scheduling loop's `elapsed` ends up: the reset to the
   * base portrait is the final timeout of the frame timeline, due when the last
   * frame's hold runs out.
   */
  lemma ResetEndsLastFrame<E>(firstId: nat, start: nat, frames: seq<Frame<E>>, final: E)
    requires frames != []
    ensures ReduceHolds(0, frames) == Duration(frames[..|frames| - 1]) + frames[|frames| - 1].hold
    ensures |Timeline(firstId, start, frames, final)| == |frames| + 1 &&
            Timeline(firstId, start, frames, final)[|frames|].due == start + ReduceHolds(0, frames)
  {
    ReduceIsDuration(0, frames);
    TimelineAt(firstId, start, frames, final);
    var n := |frames| - 1;
    assert frames == frames[..n] + [frames[n]];
    DurationSnoc(frames[..n], frames[n]);
  }
}

=== FILE: door.dfy ===
/**
 * The front door: open on page load, closed automatically after six seconds
 * unless the visitor has already taken control, toggled by clicks, and opened
 * for a while by other widgets (`window.doorController`).
 */
module Door {
  import opened Timers

  const OPEN_SRC := "assets/door-open.png"
  const CLOSED_SRC := "assets/door-closed.png"
  /** Delay of the automatic close scheduled at load. */
  const AUTO_CLOSE_MS := 6000
  /** Default duration of `openDoorFor`. */
  const OPEN_FOR_MS := 2000

  /** The picture the door element shows. */
  datatype Image = OpenImage | ClosedImage

  /** The file a door picture is loaded from. */
  function Src(img: Image): (src: string)
    ensures src == OPEN_SRC <==> img == OpenImage
    ensures src == CLOSED_SRC <==> img == ClosedImage
  {
    match img
    case OpenImage => OPEN_SRC
    case ClosedImage => CLOSED_SRC
  }

  /** What a door timer does when it fires. */
  datatype Event =
    | AutoClose          // the `scheduleAutoClose` callback
    | CloseAfterOpenFor  // the `openDoorFor` callback

  /**
   * How the door's timers relate to its handle: all are timeouts, and the only
   * `openDoorFor` close pending is the one `handle` names. The handle may name a
   * timer that has already fired, as a JavaScript variable holding an old id does.
   */
  ghost predicate PendingOk(q: seq<Timer<Event>>, handle: Option<nat>)
  {
    forall i :: 0 <= i < |q| ==>
      q[i].period == 0 && (q[i].event == CloseAfterOpenFor <==> handle == Some(q[i].id))
  }

  /** `clearDoorTimeout` on a live or stale handle: only automatic closes remain pending. */
  lemma PendingOkClear(q: seq<Timer<Event>>, h: nat)
    requires PendingOk(q, Some(h))
    ensures PendingOk(Cancel(q, {h}), None)
    ensures forall i :: 0 <= i < |Cancel(q, {h})| ==> Cancel(q, {h})[i].event == AutoClose
  {
    CancelKeeps(q, {h});
    var r := Cancel(q, {h});
    forall i | 0 <= i < |r| ensures r[i].event == AutoClose && r[i].period == 0 {
      assert r[i] in r;
    }
  }

  /** Setting the `openDoorFor` close while no handle is held keeps the timers related to the handle. */
  lemma PendingOkSet(q: seq<Timer<Event>>, now: nat, nextId: nat, t: Timer<Event>)
    requires Wf(q, now, nextId) && PendingOk(q, None)
    requires t == Timer(nextId, t.due, 0, CloseAfterOpenFor)
    ensures PendingOk(q + [t], Some(nextId))
  {
    assert (q + [t])[|q|] == t;
  }

  /**
   * Firing the earliest door timer keeps the timers related to the handle, and
   * an `openDoorFor` close that fires is the one the handle names.
   */
  lemma PendingOkFire(q: seq<Timer<Event>>, now: nat, nextId: nat, handle: Option<nat>)
    requires Wf(q, now, nextId) && q != [] && PendingOk(q, handle)
    ensures q[Earliest(q)].event == CloseAfterOpenFor ==> handle == Some(q[Earliest(q)].id)
    ensures PendingOk(AfterFire(q, Earliest(q)), handle)
    ensures q[Earliest(q)].event == CloseAfterOpenFor ==>
      forall i :: 0 <= i < |AfterFire(q, Earliest(q))| ==> AfterFire(q, Earliest(q))[i].id != handle.value
  {
    var k := Earliest(q);
    WfFire(q, now, nextId);
    AfterFireFrom(q, k);
  }

  class DoorToggle {
    var open: bool
    var image: Image
    var autoControl: bool
    var doorCloseTimeout: Option<nat>
    var now: nat
    var pending: seq<Timer<Event>>
    var nextId: nat

    /** The timer bookkeeping, which also holds between the steps of an operation. */
    ghost predicate TimersOk()
      reads this`pending, this`now, this`nextId, this`doorCloseTimeout
    {
      Wf(pending, now, nextId) && 1 <= nextId && PendingOk(pending, doorCloseTimeout)
    }

    /**
     * Between events: the picture matches `open`, and automatic control only
     * lasts while the door is still open from page load.
     */
    ghost predicate Valid()
      reads this
    {
      TimersOk() &&
      image == (if open then OpenImage else ClosedImage) &&
      (autoControl ==> open)
    }

    /** Page load: the door is shown open and the automatic close is scheduled (twice, as written). */
    constructor ()
      ensures Valid()
      ensures open && image == OpenImage && autoControl && doorCloseTimeout == None && now == 0
      ensures pending == [Timer(1, AUTO_CLOSE_MS, 0, AutoClose), Timer(2, AUTO_CLOSE_MS, 0, AutoClose)]
      ensures nextId == 3
    {
      open, image := true, OpenImage;
      autoControl := true;
      doorCloseTimeout := None;
      now := 0;
      pending := [Timer(1, AUTO_CLOSE_MS, 0, AutoClose), Timer(2, AUTO_CLOSE_MS, 0, AutoClose)];
      nextId := 3;
    }

    /** Time passes with nothing due before `t`. */
    method AdvanceTo(t: nat)
      requires Valid() && now <= t
      requires forall i :: 0 <= i < |pending| ==> t <= pending[i].due
      modifies this`now
      ensures Valid() && now == t
    {
      now := t;
    }

    /** `setDoor`: the picture and the `open` flag always agree. */
    method SetDoor(isOpen: bool)
      modifies this`open, this`image
      ensures open == isOpen && image == (if isOpen then OpenImage else ClosedImage)
    {
      image := if isOpen then OpenImage else ClosedImage;
      open := isOpen;
    }

    /** `clearDoorTimeout`: a held handle is cancelled and dropped; only automatic closes stay pending. */
    method ClearDoorTimeout()
      requires TimersOk()
      modifies this`pending, this`doorCloseTimeout
      ensures TimersOk() && doorCloseTimeout == None
      ensures pending == if old(doorCloseTimeout).Some? then Cancel(old(pending), {old(doorCloseTimeout).value}) else old(pending)
      ensures forall i :: 0 <= i < |pending| ==> pending[i].event == AutoClose
    {
      if doorCloseTimeout.Some? {
        var h := doorCloseTimeout.value;
        WfCancel(pending, now, nextId, {h});
        PendingOkClear(pending, h);
        pending := Cancel(pending, {h});
        doorCloseTimeout := None;
      }
    }

    /** `openDoor`: the visitor takes control and the door opens. */
    method OpenDoor()
      requires Valid()
      modifies this`autoControl, this`pending, this`doorCloseTimeout, this`open, this`image
      ensures Valid()
      ensures open && !autoControl && doorCloseTimeout == None
      ensures pending == if old(doorCloseTimeout).Some? then Cancel(old(pending), {old(doorCloseTimeout).value}) else old(pending)
      ensures forall i :: 0 <= i < |pending| ==> pending[i].event == AutoClose
    {
      autoControl := false;
      ClearDoorTimeout();
      SetDoor(true);
    }

    /** `closeDoor`: the visitor takes control and the door closes. */
    method CloseDoor()
      requires TimersOk() && image == (if open then OpenImage else ClosedImage)
      modifies this`autoControl, this`pending, this`doorCloseTimeout, this`open, this`image
      ensures Valid()
      ensures !open && !autoControl && doorCloseTimeout == None
      ensures pending == if old(doorCloseTimeout).Some? then Cancel(old(pending), {old(doorCloseTimeout).value}) else old(pending)
      ensures forall i :: 0 <= i < |pending| ==> pending[i].event == AutoClose
    {
      autoControl := false;
      ClearDoorTimeout();
      SetDoor(false);
    }

    /**
     * `openDoorFor`: the door opens now and closes again `duration` ms later; a
     * close set by an earlier call is replaced.
     */
    method OpenDoorFor(duration: nat := OPEN_FOR_MS)
      requires Valid()
      modifies this`autoControl, this`pending, this`doorCloseTimeout, this`open, this`image, this`nextId
      ensures Valid()
      ensures open && !autoControl
      ensures doorCloseTimeout == Some(old(nextId)) && nextId == old(nextId) + 1
      ensures pending ==
        (if old(doorCloseTimeout).Some? then Cancel(old(pending), {old(doorCloseTimeout).value}) else old(pending)) +
        [Timer(old(nextId), now + duration, 0, CloseAfterOpenFor)]
    {
      OpenDoor();
      SetCloseTimer(duration);
    }

    /** The `setTimeout` of `openDoorFor`, stored in the handle. */
    method SetCloseTimer(duration: nat)
      requires TimersOk() && doorCloseTimeout == None
      modifies this`pending, this`doorCloseTimeout, this`nextId
      ensures TimersOk()
      ensures doorCloseTimeout == Some(old(nextId)) && nextId == old(nextId) + 1
      ensures pending == old(pending) + [Timer(old(nextId), now + duration, 0, CloseAfterOpenFor)]
    {
      var t := Timer(nextId, now + duration, 0, CloseAfterOpenFor);
      WfAppend(pending, now, nextId, t);
      PendingOkSet(pending, now, nextId, t);
      pending := pending + [t];
      doorCloseTimeout := Some(nextId);
      nextId := nextId + 1;
    }

    /** A click on the hit box toggles the door and ends automatic control. */
    method Click()
      requires Valid()
      modifies this`autoControl, this`pending, this`doorCloseTimeout, this`open, this`image
      ensures Valid()
      ensures open == !old(open) && !autoControl && doorCloseTimeout == None
      ensures pending == if old(doorCloseTimeout).Some? then Cancel(old(pending), {old(doorCloseTimeout).value}) else old(pending)
    {
      if open {
        CloseDoor();
      } else {
        OpenDoor();
      }
    }

    /** Removes the earliest pending timer as the browser does when it fires, and moves the clock to it. */
    method TakeEarliest() returns (t: Timer<Event>)
      requires Valid() && pending != []
      modifies this`pending, this`now
      ensures Valid()
      ensures t == old(pending[Earliest(pending)]) && now == t.due
      ensures pending == AfterFire(old(pending), Earliest(old(pending)))
      ensures t.event == CloseAfterOpenFor ==>
        doorCloseTimeout == Some(t.id) && forall i :: 0 <= i < |pending| ==> pending[i].id != t.id
    {
      var k := Earliest(pending);
      t := pending[k];
      WfFire(pending, now, nextId);
      PendingOkFire(pending, now, nextId, doorCloseTimeout);
      now := t.due;
      pending := AfterFire(pending, k);
    }

    /** The `scheduleAutoClose` callback: it only acts while the door is under automatic control. */
    method OnAutoClose()
      requires Valid()
      modifies this`open, this`image, this`autoControl
      ensures Valid() && !autoControl
      ensures open == (old(open) && !old(autoControl))
      ensures !old(autoControl) ==> open == old(open) && image == old(image)
    {
      if !autoControl {
        return;
      }
      SetDoor(false);
      autoControl := false;
    }

    /** The `openDoorFor` callback, `closeDoor`: its `clearTimeout` names the timer that just fired and cancels nothing. */
    method OnCloseAfterOpenFor(id: nat)
      requires Valid() && doorCloseTimeout == Some(id)
      requires forall i :: 0 <= i < |pending| ==> pending[i].id != id
      modifies this`autoControl, this`pending, this`doorCloseTimeout, this`open, this`image
      ensures Valid()
      ensures !open && image == ClosedImage && !autoControl && doorCloseTimeout == None
      ensures pending == old(pending)
    {
      CancelMissing(pending, {id});
      CloseDoor();
    }

    /**
     * The browser fires the earliest pending door timer. An automatic close only
     * acts while the door is still under automatic control, so the second of the
     * two load-time closes, and any close after a click, changes nothing.
     */
    method Fire() returns (fired: Timer<Event>)
      requires Valid() && pending != []
      modifies this`autoControl, this`pending, this`doorCloseTimeout, this`open, this`image, this`now
      ensures Valid()
      ensures fired == old(pending[Earliest(pending)]) && now == fired.due
      ensures pending == AfterFire(old(pending), Earliest(old(pending)))
      ensures fired.event == AutoClose ==>
        !autoControl && open == (old(open) && !old(autoControl)) &&
        doorCloseTimeout == old(doorCloseTimeout)
      ensures fired.event == AutoClose && !old(autoControl) ==> open == old(open) && image == old(image)
      ensures fired.event == CloseAfterOpenFor ==> !open && !autoControl && doorCloseTimeout == None
    {
      fired := TakeEarliest();
      match fired.event
      case AutoClose =>
        OnAutoClose();
      case CloseAfterOpenFor =>
        OnCloseAfterOpenFor(fired.id);
    }
  }

  /**
   * A page left alone: the first automatic close shuts the door at six seconds
   * and ends automatic control; the second, due at the same time, changes nothing.
   */
  method LeftAlone() returns (door: DoorToggle)
    ensures fresh(door) && door.Valid()
    ensures door.now == AUTO_CLOSE_MS && !door.open && door.image == ClosedImage
    ensures !door.autoControl && door.pending == []
  {
    door := new DoorToggle();
    EarliestFirst(door.pending);
    var first := door.Fire();
    assert door.pending == [Timer(2, AUTO_CLOSE_MS, 0, AutoClose)];
    var second := door.Fire();
  }
}

=== FILE: dudes.dfy ===
/**
 * The dancing dudes: an overlay loops thirteen frames on an interval while the
 * music asks it to. A click plays the thirteen frames once, 500 ms apart, and
 * at the end restarts the loop exactly when a loop was running at the click.
 */
module Dudes {
  import opened Timers

  const BASE_SRC := "assets/dancing-dudes-one.png"
  const FRAMES: seq<string> := [
    "assets/dancing-dudes-two.png",
    "assets/dancing-dudes-three.png",
    "assets/dancing-dudes-four.png",
    "assets/dancing-dudes-five.png",
    "assets/dancing-dudes-six.png",
    "assets/dancing-dudes-seven.png",
    "assets/dancing-dudes-eight.png",
    "assets/dancing-dudes-nine.png",
    "assets/dancing-dudes-ten.png",
    "assets/dancing-dudes-eleven.png",
    "assets/dancing-dudes-twelve.png",
    "assets/dancing-dudes-thirteen.png",
    "assets/dancing-dudes-fourteen.png"
  ]
  /** `FRAMES.length`. */
  const FRAME_COUNT := 13
  const FRAME_DURATION := 500

  /** An image the overlay can show: the first dudes picture or dance frame `index`. */
  datatype Image = Base | Dance(index: nat)

  /**
   * The file a image is loaded from. Only the first dudes picture loads `BASE_SRC`; an
   * index past the table, which no caller uses, falls back to it.
   */
  function Src(img: Image): (src: string)
    ensures img.Dance? && img.index < |FRAMES| ==> src == FRAMES[img.index]
    ensures src == BASE_SRC <==> !(img.Dance? && img.index < |FRAMES|)
  {
    match img
    case Base => BASE_SRC
    case Dance(i) => if i < |FRAMES| then FRAMES[i] else BASE_SRC
  }

  /** The pictures the widget uses: the first dudes picture and the frames of its table. */
  predicate InRange(img: Image)
  {
    img.Base? || img.index < |FRAMES|
  }

  /** Distinct pictures in use load distinct files, so the file on the page tells which picture shows. */
  lemma SrcInjective(a: Image, b: Image)
    requires InRange(a) && InRange(b)
    ensures Src(a) == Src(b) <==> a == b
  {
  }

  /** What a dudes timer does when it fires. */
  datatype Event =
    | Tick                   // the loop's interval callback
    | ClickFrame(index: nat) // a click's frame callback: `overlay.src = FRAMES[idx]`
    | Finish(resume: bool)   // `finishManual(resume)`, with the decision taken at the click

  /** The frames of a click: each of the thirteen once, in order. */
  function ClickEvents(): (events: seq<Event>)
    ensures |events| == FRAME_COUNT
  {
    seq(FRAME_COUNT, k requires 0 <= k => ClickFrame(k))
  }

  /** The click's frames, each held one frame duration. */
  function ClickRun(): (run: seq<Frame<Event>>)
    ensures |run| == FRAME_COUNT
  {
    Even(ClickEvents(), FRAME_DURATION)
  }

  /** The click's timeline: frame `k` at `500 * k` ms, the first at once, and `finishManual` at 6500 ms. */
  lemma ClickTimelineAt(firstId: nat, start: nat, resume: bool)
    ensures |Timeline(firstId, start, ClickRun(), Finish(resume))| == 14
    ensures forall k :: 0 <= k < 13 ==>
      Timeline(firstId, start, ClickRun(), Finish(resume))[k]
        == Timer(firstId + k, start + FRAME_DURATION * k, 0, ClickFrame(k))
    ensures Timeline(firstId, start, ClickRun(), Finish(resume))[13] == Timer(firstId + 13, start + 6500, 0, Finish(resume))
  {
    TimelineAt(firstId, start, ClickRun(), Finish(resume));
    forall k | 0 <= k <= 13 ensures Duration(ClickRun()[..k]) == FRAME_DURATION * k {
      EvenDuration(ClickEvents(), FRAME_DURATION, k);
    }
    assert ClickRun()[..13] == ClickRun();
  }

  /**
   * How the dudes' timers relate to their state: the loop interval is the only
   * ticking timer and re-arms every frame duration; every other pending timer
   * is a timeout of the click run, listed in `manual`, which never lists the loop.
   */
  ghost predicate PendingOk(q: seq<Timer<Event>>, loop: Option<nat>, manual: seq<nat>)
  {
    (forall i :: 0 <= i < |q| ==>
       (q[i].event == Tick <==> loop == Some(q[i].id)) &&
       (q[i].event == Tick ==> q[i].period == FRAME_DURATION) &&
       (q[i].event != Tick ==> q[i].period == 0 && q[i].id in manual)) &&
    (loop.Some? ==> loop.value in Ids(q) && loop.value !in manual)
  }

  /** `clearManualTimers` keeps only the loop interval. */
  lemma PendingOkClearManual(q: seq<Timer<Event>>, now: nat, nextId: nat, loop: Option<nat>, manual: seq<nat>)
    requires Wf(q, now, nextId) && PendingOk(q, loop, manual)
    ensures PendingOk(Cancel(q, set k | k in manual), loop, [])
  {
    var ids := set k | k in manual;
    CancelKeeps(q, ids);
    WfCancel(q, now, nextId, ids);
  }

  /** Without the loop, cancelling the listed click timers leaves nothing pending. */
  lemma {:induction false} CancelManualLeavesNothing(q: seq<Timer<Event>>, manual: seq<nat>)
    requires PendingOk(q, None, manual)
    ensures Cancel(q, set k | k in manual) == []
  {
    forall x | x in Ids(q) ensures x in (set k | k in manual) {
      var i :| 0 <= i < |q| && q[i].id == x;
      assert q[i].event != Tick;
    }
    CancelAll(q, set k | k in manual);
  }

  /** With no loop and no listed click timers, nothing is pending. */
  lemma IdleIsEmpty(q: seq<Timer<Event>>)
    requires PendingOk(q, None, [])
    ensures q == []
  {
    var none: seq<nat> := [];
    CancelManualLeavesNothing(q, none);
    CancelMissing(q, {});
    assert (set k | k in none) == {};
  }

  /** Firing the earliest dudes timer keeps the timers related to the state as before. */
  lemma PendingOkFire(q: seq<Timer<Event>>, now: nat, nextId: nat, loop: Option<nat>, manual: seq<nat>)
    requires Wf(q, now, nextId) && q != [] && PendingOk(q, loop, manual)
    ensures PendingOk(AfterFire(q, Earliest(q)), loop, manual)
  {
    var k := Earliest(q);
    WfFire(q, now, nextId);
    AfterFireFrom(q, k);
    if loop.Some? && q[k].event != Tick {
      assert loop.value != q[k].id;
    }
  }

  /** Setting the loop interval, when none runs, keeps the timers related to the state. */
  lemma PendingOkStartLoop(q: seq<Timer<Event>>, now: nat, nextId: nat, manual: seq<nat>, t: Timer<Event>)
    requires Wf(q, now, nextId) && PendingOk(q, None, manual)
    requires forall i :: 0 <= i < |manual| ==> manual[i] < nextId
    requires t == Timer(nextId, t.due, FRAME_DURATION, Tick)
    ensures PendingOk(q + [t], Some(nextId), manual)
  {
    assert (q + [t])[|q|] == t;
    IdsSingle(t);
    IdsAppend(q, [t]);
  }

  /** Cancelling the loop interval keeps the timers related to the state. */
  lemma PendingOkStopLoop(q: seq<Timer<Event>>, l: nat, manual: seq<nat>)
    requires PendingOk(q, Some(l), manual)
    ensures PendingOk(Cancel(q, {l}), None, manual)
  {
    CancelKeeps(q, {l});
  }

  /** A fresh click timeline is all click timeouts, each listed, with ids below the next one. */
  lemma PendingOkClickRun(firstId: nat, start: nat, resume: bool)
    ensures var t := Timeline(firstId, start, ClickRun(), Finish(resume));
      PendingOk(t, None, IdList(t)) &&
      forall i :: 0 <= i < |IdList(t)| ==> IdList(t)[i] < firstId + 14
  {
    var t := Timeline(firstId, start, ClickRun(), Finish(resume));
    ClickTimelineAt(firstId, start, resume);
    assert forall i :: 0 <= i < |t| ==> t[i].event != Tick && t[i].period == 0 && t[i].id < firstId + 14;
  }

  class DancingDudes {
    var overlayShown: bool
    var overlayImage: Image
    var manualActive: bool
    var manualTimers: seq<nat>
    var loopInterval: Option<nat>
    var frameIndex: nat
    var now: nat
    var pending: seq<Timer<Event>>
    var nextId: nat

    /** The timer bookkeeping, which also holds between the steps of an operation. */
    ghost predicate TimersOk()
      reads this`pending, this`now, this`nextId, this`frameIndex, this`loopInterval, this`manualTimers
    {
      Wf(pending, now, nextId) && 1 <= nextId && frameIndex < FRAME_COUNT &&
      PendingOk(pending, loopInterval, manualTimers) &&
      (forall i :: 0 <= i < |manualTimers| ==> manualTimers[i] < nextId)
    }

    /** Between events: click timers are listed only during a click run, which keeps the overlay shown. */
    ghost predicate Valid()
      reads this
    {
      TimersOk() &&
      (!manualActive ==> manualTimers == []) &&
      (manualActive ==> overlayShown)
    }

    /** Load: nothing dancing, the overlay hidden. */
    constructor ()
      ensures Valid()
      ensures !overlayShown && overlayImage == Base
      ensures !manualActive && loopInterval == None && frameIndex == 0 && pending == []
    {
      overlayShown, overlayImage := false, Base;
      manualActive, manualTimers, loopInterval, frameIndex := false, [], None, 0;
      now, pending, nextId := 0, [], 1;
    }

    /** Time passes with nothing due before `t`. */
    method AdvanceTo(t: nat)
      requires Valid() && now <= t
      requires forall i :: 0 <= i < |pending| ==> t <= pending[i].due
      modifies this`now
      ensures Valid() && now == t
    {
      now := t;
    }

    /** `hideOverlay`. */
    method HideOverlay()
      modifies this`overlayShown, this`overlayImage
      ensures !overlayShown && overlayImage == Base
    {
      overlayShown := false;
      overlayImage := Base;
    }

    /** `applyFrame`: frame `idx % 13` is shown. */
    method ApplyFrame(idx: nat)
      modifies this`frameIndex, this`overlayShown, this`overlayImage
      ensures frameIndex == idx % 13 && overlayShown && overlayImage == Dance(frameIndex)
      ensures idx < FRAME_COUNT ==> frameIndex == idx
    {
      frameIndex := idx % 13;
      overlayShown := true;
      overlayImage := Dance(frameIndex);
    }

    /** `startLoop`: when no loop runs, the current frame is shown and an interval set; a running loop is left alone. */
    method StartLoop()
      requires TimersOk()
      modifies this`frameIndex, this`overlayShown, this`overlayImage, this`pending, this`loopInterval, this`nextId
      ensures TimersOk() && loopInterval.Some?
      ensures old(loopInterval).Some? ==>
        loopInterval == old(loopInterval) && pending == old(pending) && nextId == old(nextId) &&
        frameIndex == old(frameIndex) && overlayShown == old(overlayShown) && overlayImage == old(overlayImage)
      ensures old(loopInterval).None? ==>
        loopInterval == Some(old(nextId)) &&
        pending == old(pending) + [Timer(old(nextId), now + FRAME_DURATION, FRAME_DURATION, Tick)] &&
        frameIndex == old(frameIndex) && overlayShown && overlayImage == Dance(frameIndex)
    {
      if loopInterval.Some? {
        return;
      }
      ApplyFrame(frameIndex);
      SetLoop();
    }

    /** `setInterval` for the loop: a ticking timer one frame duration from now. */
    method SetLoop()
      requires TimersOk() && loopInterval.None?
      modifies this`pending, this`loopInterval, this`nextId
      ensures TimersOk()
      ensures loopInterval == Some(old(nextId)) && nextId == old(nextId) + 1
      ensures pending == old(pending) + [Timer(old(nextId), now + FRAME_DURATION, FRAME_DURATION, Tick)]
    {
      var t := Timer(nextId, now + FRAME_DURATION, FRAME_DURATION, Tick);
      WfAppend(pending, now, nextId, t);
      PendingOkStartLoop(pending, now, nextId, manualTimers, t);
      pending := pending + [t];
      loopInterval := Some(nextId);
      nextId := nextId + 1;
    }

    /** `stopLoop`: a running loop is cancelled and, outside a click run, the overlay hidden. */
    method StopLoop()
      requires TimersOk()
      modifies this`pending, this`loopInterval, this`overlayShown, this`overlayImage
      ensures TimersOk() && loopInterval == None
      ensures pending == if old(loopInterval).Some? then Cancel(old(pending), {old(loopInterval).value}) else old(pending)
      ensures old(loopInterval).Some? && !manualActive ==> !overlayShown && overlayImage == Base
      ensures old(loopInterval).None? || manualActive ==>
        overlayShown == old(overlayShown) && overlayImage == old(overlayImage)
    {
      if loopInterval.None? {
        return;
      }
      var l := loopInterval.value;
      WfCancel(pending, now, nextId, {l});
      PendingOkStopLoop(pending, l, manualTimers);
      pending := Cancel(pending, {l});
      loopInterval := None;
      if !manualActive {
        HideOverlay();
      }
    }

    /** `clearManualTimers`: every listed click timer is cancelled; only the loop can stay pending. */
    method ClearManualTimers()
      requires TimersOk()
      modifies this`pending, this`manualTimers
      ensures TimersOk() && manualTimers == []
      ensures pending == Cancel(old(pending), set k | k in old(manualTimers))
    {
      PendingOkClearManual(pending, now, nextId, loopInterval, manualTimers);
      WfCancel(pending, now, nextId, set k | k in manualTimers);
      pending := Cancel(pending, set k | k in manualTimers);
      manualTimers := [];
    }

    /**
     * `finishManual(resume)`: the click run ends and its timers are cancelled;
     * the loop (re)starts when `resume`, otherwise the overlay is hidden.
     */
    method FinishManual(resume: bool)
      requires Valid() && manualActive
      modifies this
      ensures Valid() && !manualActive && manualTimers == [] && now == old(now)
      ensures resume ==> loopInterval.Some? && overlayShown
      ensures resume && old(loopInterval).None? ==>
        loopInterval == Some(old(nextId)) && frameIndex == old(frameIndex) && overlayImage == Dance(frameIndex)
      ensures !resume ==> loopInterval == old(loopInterval) && !overlayShown && overlayImage == Base
    {
      manualActive := false;
      ClearManualTimers();
      if resume {
        StartLoop();
      } else {
        HideOverlay();
      }
    }

    /**
     * The click handler. During a click run it does nothing. Otherwise a running
     * loop is stopped (hiding the overlay, as no run is on yet), the run begins,
     * the overlay is shown, and the pending list becomes the click timeline,
     * ending in `finishManual` with the decision taken now: was a loop running.
     */
    method HandleClick()
      requires Valid()
      modifies this
      ensures Valid()
      ensures old(manualActive) ==> unchanged(this)
      ensures !old(manualActive) ==>
        manualActive && loopInterval == None && overlayShown &&
        pending == Timeline(old(nextId), now, ClickRun(), Finish(old(loopInterval).Some?)) &&
        manualTimers == IdList(pending) &&
        frameIndex == old(frameIndex) &&
        overlayImage == (if old(loopInterval).Some? then Base else old(overlayImage))
      ensures now == old(now)
    {
      if manualActive {
        return;
      }
      var resume := BeginClick();
      StartRun(resume);
    }

    /** The click run begins: a running loop stops, `manualActive` is set, the overlay shown. */
    method BeginClick() returns (resume: bool)
      requires Valid() && !manualActive
      modifies this`manualActive, this`pending, this`loopInterval, this`manualTimers, this`overlayShown, this`overlayImage
      ensures TimersOk() && manualActive && loopInterval == None && overlayShown
      ensures pending == [] && manualTimers == [] && resume == old(loopInterval).Some?
      ensures overlayImage == if resume then Base else old(overlayImage)
    {
      resume := loopInterval.Some?;
      if resume {
        StopLoop();
      }
      manualActive := true;
      ClearManualTimers();
      overlayShown := true;
      IdleIsEmpty(pending);
    }

    /** Sets the click timeline on an empty pending list and lists its ids. */
    method StartRun(resume: bool)
      requires TimersOk() && pending == [] && manualTimers == [] && loopInterval == None
      modifies this`pending, this`manualTimers, this`nextId
      ensures TimersOk()
      ensures pending == Timeline(old(nextId), now, ClickRun(), Finish(resume))
      ensures manualTimers == IdList(pending)
    {
      WfTimeline(pending, now, nextId, now, ClickRun(), Finish(resume));
      PendingOkClickRun(nextId, now, resume);
      pending, nextId, manualTimers := ScheduleSequence(pending, nextId, now, ClickRun(), Finish(resume));
    }

    /** Removes the earliest pending timer as the browser does when it fires, and moves the clock to it. */
    method TakeEarliest() returns (t: Timer<Event>)
      requires Valid() && pending != []
      modifies this`pending, this`now
      ensures Valid()
      ensures t == old(pending[Earliest(pending)]) && now == t.due
      ensures t.event == Tick ==> loopInterval == Some(t.id)
      ensures t.event != Tick ==> manualActive
      ensures pending == AfterFire(old(pending), Earliest(old(pending)))
    {
      var k := Earliest(pending);
      t := pending[k];
      WfFire(pending, now, nextId);
      PendingOkFire(pending, now, nextId, loopInterval, manualTimers);
      now := t.due;
      pending := AfterFire(pending, k);
    }

    /**
     * The browser fires the earliest pending dudes timer: a tick advances the
     * loop by one frame, wrapping after the thirteenth; a click frame only swaps
     * the overlay picture; the completion ends the click run.
     */
    method Fire() returns (fired: Timer<Event>)
      requires Valid() && pending != []
      modifies this
      ensures Valid()
      ensures fired == old(pending[Earliest(pending)]) && now == fired.due
      ensures !fired.event.Finish? ==> pending == AfterFire(old(pending), Earliest(old(pending)))
      ensures fired.event == Tick ==> frameIndex == (old(frameIndex) + 1) % 13 && overlayShown && overlayImage == Dance(frameIndex)
      ensures fired.event.ClickFrame? ==>
        manualActive && frameIndex == old(frameIndex) && overlayImage == Dance(fired.event.index) &&
        overlayShown == old(overlayShown)
      ensures fired.event.Finish? ==>
        !manualActive && manualTimers == [] &&
        (fired.event.resume ==> loopInterval.Some? && overlayShown) &&
        (fired.event.resume && old(loopInterval).None? ==>
          loopInterval == Some(old(nextId)) && frameIndex == old(frameIndex) && overlayImage == Dance(frameIndex)) &&
        (!fired.event.resume ==> loopInterval == old(loopInterval) && !overlayShown && overlayImage == Base)
    {
      fired := TakeEarliest();
      match fired.event
      case Tick =>
        ApplyFrame((frameIndex + 1) % 13);
      case ClickFrame(i) =>
        overlayImage := Dance(i);
      case Finish(resume) =>
        FinishManual(resume);
    }
  }
}

=== FILE: filters.dfy ===
/**
 * CSS filter strings shared by the skull, banana and hot dog widgets. A filter
 * value of "" stands for the `filter` property being removed.
 */
module Filters {

  /** The dimming filter every lights-aware widget adds while the page lights are off. */
  const LIGHTS_OFF_FILTER := "brightness(0.9)"

  /** `getLightsFilter`: the dimming filter when the body has the `lights-off` class, else nothing. */
  function LightsFilter(lightsOff: bool): (f: string)
    ensures f != "" <==> lightsOff
    ensures lightsOff ==> f == LIGHTS_OFF_FILTER
  {
    if lightsOff then LIGHTS_OFF_FILTER else ""
  }

  /**
   * The combined filter of `applySkullFilter` and `setFilters`: the base and the
   * effect separated by one space when both are present, otherwise whichever is
   * present, otherwise nothing (the property is removed).
   */
  function Compose(base: string, effect: string): (r: string)
    ensures base != "" && effect != "" ==> r == base + " " + effect
    ensures base == "" ==> r == effect
    ensures effect == "" ==> r == base
    ensures r == "" <==> base == "" && effect == ""
  {
    if effect != "" then (if base != "" then base + " " + effect else effect) else base
  }

  /** Reads a composed filter back: was the dimming filter in front, and what effect follows it. */
  function SplitLights(r: string): (parts: (bool, string))
    ensures parts.0 ==> |r| >= |LIGHTS_OFF_FILTER| && r[..|LIGHTS_OFF_FILTER|] == LIGHTS_OFF_FILTER
    ensures !parts.0 ==> parts.1 == r
  {
    var n := |LIGHTS_OFF_FILTER|;
    if r == LIGHTS_OFF_FILTER then (true, "")
    else if |r| > n && r[..n] == LIGHTS_OFF_FILTER && r[n] == ' ' then (true, r[n + 1..])
    else (false, r)
  }

  /**
   * Nothing is lost by composing: as long as an effect does not itself begin with
   * the dimming filter, both the lights state and the effect can be read back.
   */
  lemma ComposeLightsRoundTrip(lightsOff: bool, effect: string)
    requires !(|effect| >= |LIGHTS_OFF_FILTER| && effect[..|LIGHTS_OFF_FILTER|] == LIGHTS_OFF_FILTER)
    ensures SplitLights(Compose(LightsFilter(lightsOff), effect)) == (lightsOff, effect)
  {
    var n := |LIGHTS_OFF_FILTER|;
    var r := Compose(LightsFilter(lightsOff), effect);
    if lightsOff && effect != "" {
      assert r[..n] == LIGHTS_OFF_FILTER;
      assert r[n + 1..] == effect;
    } else if !lightsOff {
      assert r == effect;
    }
  }

  /** A widget's colour effect: none, or entry `index` of its palette of filter strings. */
  datatype Tint = Plain | Tinted(index: nat)

  /**
   * The value a widget writes to a `filter` property, kept as the two parts it
   * is composed from: the dimming filter (when `dimmed`) and a colour effect.
   * `Filter(false, Plain)` is the property removed.
   */
  datatype Filter = Filter(dimmed: bool, tint: Tint)
  {
    /** Whether the composed text is non-empty, so the property is set rather than removed. */
    predicate IsSet()
    {
      dimmed || tint.Tinted?
    }
  }

  const NO_FILTER := Filter(false, Plain)

  /** Palettes whose effects are all present, distinct and never begin with the dimming filter. */
  ghost predicate GoodPalette(palette: seq<string>)
  {
    forall i :: 0 <= i < |palette| ==>
      palette[i] != "" &&
      !(|palette[i]| >= |LIGHTS_OFF_FILTER| && palette[i][..|LIGHTS_OFF_FILTER|] == LIGHTS_OFF_FILTER) &&
      forall j :: 0 <= j < |palette| && palette[i] == palette[j] ==> i == j
  }

  /**
   * A palette of `hue-rotate(...)` tints is good when the three characters
   * after `hue-rotate(` tell its entries apart: every entry starts with `h`,
   * which the dimming filter does not, and equal entries have equal angles.
   */
  lemma AnglesTellApart(palette: seq<string>, angles: seq<string>)
    requires |angles| == |palette|
    requires forall i :: 0 <= i < |palette| ==>
      |palette[i]| >= 14 && palette[i][0] == 'h' && |angles[i]| == 3 &&
      palette[i][11] == angles[i][0] && palette[i][12] == angles[i][1] && palette[i][13] == angles[i][2]
    requires forall i, j :: 0 <= i < j < |angles| ==> angles[i] != angles[j]
    ensures GoodPalette(palette)
  {
    forall i | 0 <= i < |palette|
      ensures !(|palette[i]| >= |LIGHTS_OFF_FILTER| && palette[i][..|LIGHTS_OFF_FILTER|] == LIGHTS_OFF_FILTER)
      ensures forall j :: 0 <= j < |palette| && palette[i] == palette[j] ==> i == j
    {
      forall j | 0 <= j < |palette| && palette[i] == palette[j] ensures i == j {
        assert angles[i] == angles[j];
      }
    }
  }

  /** The effect text of a tint: the palette entry, or nothing. */
  function Effect(t: Tint, palette: seq<string>): (e: string)
    ensures t.Tinted? && t.index < |palette| ==> e == palette[t.index]
    ensures t.Plain? ==> e == ""
  {
    if t.Tinted? && t.index < |palette| then palette[t.index] else ""
  }

  /** The text of a filter value, as `setFilters` and `applySkullFilter` compose it. */
  function Css(f: Filter, palette: seq<string>): (css: string)
  {
    Compose(LightsFilter(f.dimmed), Effect(f.tint, palette))
  }

  /** The text is empty exactly when the value is not set: the property is removed rather than set to "". */
  lemma CssEmpty(f: Filter, palette: seq<string>)
    requires GoodPalette(palette) && (f.tint.Tinted? ==> f.tint.index < |palette|)
    ensures Css(f, palette) == "" <==> !f.IsSet()
  {
  }

  /**
   * Two filter values with the same text are the same value: the text the page
   * sees determines both the lights state and the colour effect.
   */
  lemma CssInjective(f: Filter, g: Filter, palette: seq<string>)
    requires GoodPalette(palette)
    requires f.tint.Tinted? ==> f.tint.index < |palette|
    requires g.tint.Tinted? ==> g.tint.index < |palette|
    requires Css(f, palette) == Css(g, palette)
    ensures f == g
  {
    ComposeLightsRoundTrip(f.dimmed, Effect(f.tint, palette));
    ComposeLightsRoundTrip(g.dimmed, Effect(g.tint, palette));
  }
}

=== FILE: glow.dfy ===
/**
 * The category-label glows. While the page lights are on, the glows of the
 * category signs light up one after another, one second each; hovering,
 * focusing or touching a category hit area pauses the cycle and lights that
 * sign instead, and the cycle resumes when the last such hit is let go.
 */
module Glow {
  import opened Timers
  import Ring

  /** The signs the cycle visits, in order, when both their elements are on the page. */
  const CYCLE_IDS: seq<string> := ["writing", "directing", "animation", "production-design"]
  /** How long each sign glows before the cycle moves on. */
  const CYCLE_DURATION_MS := 1000

  /** `CYCLE_IDS.filter(id => signs.has(id))`: the ids of `ids` that are present, in their order. */
  function CycleOrder(ids: seq<string>, present: set<string>): (order: seq<string>)
    ensures forall x :: x in order <==> x in ids && x in present
    ensures |order| <= |ids|
  {
    if ids == [] then []
    else (if ids[0] in present then [ids[0]] else []) + CycleOrder(ids[1..], present)
  }

  ghost predicate NoDuplicates(s: seq<string>)
  {
    forall i, j :: 0 <= i < j < |s| ==> s[i] != s[j]
  }

  /** Filtering keeps ids distinct, so each present sign has exactly one place in the cycle. */
  lemma {:induction false} CycleOrderNoDuplicates(ids: seq<string>, present: set<string>)
    requires NoDuplicates(ids)
    ensures NoDuplicates(CycleOrder(ids, present))
  {
    if ids != [] {
      assert NoDuplicates(ids[1..]);
      CycleOrderNoDuplicates(ids[1..], present);
      var rest := CycleOrder(ids[1..], present);
      assert ids[0] !in ids[1..];
      assert ids[0] !in rest;
    }
  }

  /**
   * The filter works piece by piece: filtering a concatenation concatenates the
   * filtered pieces, so the present ids keep their relative order.
   */
  lemma {:induction false} CycleOrderAppend(a: seq<string>, b: seq<string>, present: set<string>)
    ensures CycleOrder(a + b, present) == CycleOrder(a, present) + CycleOrder(b, present)
  {
    if a != [] {
      assert (a + b)[0] == a[0] && (a + b)[1..] == a[1..] + b;
      CycleOrderAppend(a[1..], b, present);
    } else {
      assert a + b == b;
    }
  }

  /** When every id is present, the filter keeps them all, in their order. */
  lemma {:induction false} CycleOrderAll(ids: seq<string>, present: set<string>)
    requires forall x :: x in ids ==> x in present
    ensures CycleOrder(ids, present) == ids
  {
    if ids != [] {
      CycleOrderAll(ids[1..], present);
    }
  }

  /**
   * Every cycle sign on the page takes part, once each; with all four signs on
   * the page the cycle is `CYCLE_IDS` itself, in its order.
   */
  lemma AllSignsCycle(present: set<string>)
    ensures NoDuplicates(CycleOrder(CYCLE_IDS, present))
    ensures forall x :: x in CycleOrder(CYCLE_IDS, present) <==> x in CYCLE_IDS && x in present
    ensures (forall x :: x in CYCLE_IDS ==> x in present) ==> CycleOrder(CYCLE_IDS, present) == CYCLE_IDS
  {
    CycleOrderNoDuplicates(CYCLE_IDS, present);
    if forall x :: x in CYCLE_IDS ==> x in present {
      CycleOrderAll(CYCLE_IDS, present);
    }
  }

  /** What a glow timer does when it fires: the callback ends the glow of the sign it was set for. */
  datatype Event = GlowDone(id: string)

  class GlowCycle {
    /** The cycle ids whose base and glow elements are both on the page (`signs`). */
    const signs: set<string>
    const cycleOrder: seq<string>
    /** The signs whose glow is visible (`is-visible` on the glow, `glow-active` on the base). */
    var visible: set<string>
    /** The hit areas currently held by hover, focus or touch. */
    var manualHits: set<nat>
    var cycleIndex: nat
    var cycleTimer: Option<nat>
    var cycleActive: bool
    var autoCycleEnabled: bool
    var now: nat
    var pending: seq<Timer<Event>>
    var nextId: nat

    ghost predicate TimersOk()
      reads this`pending, this`now, this`nextId
    {
      Wf(pending, now, nextId) && 1 <= nextId
    }

    /** The cycle's own state, which also holds between the steps of an operation. */
    ghost predicate CycleOk()
      reads this`visible, this`cycleIndex, this`autoCycleEnabled
    {
      cycleOrder == CycleOrder(CYCLE_IDS, signs) &&
      visible <= signs &&
      (cycleOrder != [] ==> cycleIndex < |cycleOrder|) &&
      (cycleOrder == [] ==> cycleIndex == 0) &&
      (autoCycleEnabled ==> cycleOrder != [])
    }

    /**
     * Between events: a running cycle is enabled, has no manual hit held, shows
     * at most the current sign's glow and has exactly one timer pending, the one
     * `cycleTimer` names, set to end the current sign's glow. A stopped cycle has
     * nothing pending.
     */
    ghost predicate Valid()
      reads this
    {
      TimersOk() && CycleOk() &&
      (cycleActive ==>
        autoCycleEnabled && manualHits == {} && visible <= {cycleOrder[cycleIndex]} &&
        cycleTimer.Some? && |pending| == 1 &&
        pending[0] == Timer(cycleTimer.value, pending[0].due, 0, GlowDone(cycleOrder[cycleIndex]))) &&
      (!cycleActive ==> pending == [])
    }

    /**
     * Setup: the signs on the page are `present`'s cycle ids, every glow is
     * hidden, and the cycle is enabled or disabled when the lights state was
     * already published (`lightsOn`), and left off otherwise.
     */
    constructor (present: set<string>, lightsOn: Option<bool>)
      ensures Valid()
      ensures signs == (set id | id in CYCLE_IDS && id in present)
      ensures manualHits == {} && cycleIndex == 0 && now == 0
      ensures autoCycleEnabled <==> lightsOn == Some(true) && cycleOrder != []
      ensures cycleActive <==> autoCycleEnabled
      ensures cycleActive ==> visible == {cycleOrder[0]} && pending == [Timer(1, CYCLE_DURATION_MS, 0, GlowDone(cycleOrder[0]))]
      ensures !cycleActive ==> visible == {}
    {
      signs := set id | id in CYCLE_IDS && id in present;
      cycleOrder := CycleOrder(CYCLE_IDS, set id | id in CYCLE_IDS && id in present);
      visible := {};
      manualHits := {};
      cycleIndex := 0;
      cycleTimer := None;
      cycleActive := false;
      autoCycleEnabled := false;
      now := 0;
      pending := [];
      nextId := 1;
      new;
      if lightsOn == Some(true) {
        Enable();
      } else if lightsOn == Some(false) {
        Disable();
      }
    }

    /** `hideAllGlows`. */
    method HideAllGlows()
      modifies this`visible
      ensures visible == {}
    {
      visible := {};
    }

    /** `setGlowVisibility`: only the signs on the page can be lit or dimmed. */
    method SetGlowVisibility(id: string, on: bool)
      modifies this`visible
      ensures id in signs && on ==> visible == old(visible) + {id}
      ensures id in signs && !on ==> visible == old(visible) - {id}
      ensures id !in signs ==> visible == old(visible)
    {
      if id !in signs {
        return;
      }
      visible := if on then visible + {id} else visible - {id};
    }

    /** The timer a running cycle holds is the one pending; a stopped cycle holds none. */
    ghost predicate TimerHeld()
      reads this`pending, this`cycleTimer, this`cycleActive
    {
      (cycleActive ==> cycleTimer.Some? && |pending| == 1 && pending[0].id == cycleTimer.value) &&
      (!cycleActive ==> pending == [])
    }

    /** `stopCycle`: the pending glow timer, if any, is cancelled and the cycle is marked stopped. */
    method StopCycle()
      requires TimersOk() && TimerHeld()
      modifies this`pending, this`cycleTimer, this`cycleActive
      ensures TimersOk() && !cycleActive && cycleTimer == None && pending == []
    {
      if cycleTimer.Some? {
        if cycleActive {
          assert pending == [pending[0]];
        }
        pending := Cancel(pending, {cycleTimer.value});
        cycleTimer := None;
      }
      cycleActive := false;
    }

    /** The `setTimeout` of `stepCycle`, stored in `cycleTimer`. */
    method SetCycleTimer(id: string)
      requires TimersOk() && pending == []
      modifies this`pending, this`cycleTimer, this`nextId
      ensures TimersOk()
      ensures pending == [Timer(old(nextId), now + CYCLE_DURATION_MS, 0, GlowDone(id))]
      ensures cycleTimer == Some(old(nextId)) && nextId == old(nextId) + 1
    {
      var t := Timer(nextId, now + CYCLE_DURATION_MS, 0, GlowDone(id));
      WfAppend(pending, now, nextId, t);
      pending := [t];
      cycleTimer := Some(nextId);
      nextId := nextId + 1;
    }

    /**
     * `stepCycle`: a glow step happens exactly when the cycle is enabled, no
     * manual hit is held and some sign is on the page; it lights only the
     * current sign and sets the timer that ends its glow. Otherwise the cycle is
     * only marked stopped.
     */
    method StepCycle()
      requires TimersOk() && CycleOk() && pending == []
      modifies this`cycleActive, this`visible, this`pending, this`cycleTimer, this`nextId
      ensures Valid()
      ensures cycleActive <==> autoCycleEnabled && manualHits == {}
      ensures cycleActive ==>
        visible == {cycleOrder[cycleIndex]} && cycleTimer == Some(old(nextId)) &&
        pending == [Timer(old(nextId), now + CYCLE_DURATION_MS, 0, GlowDone(cycleOrder[cycleIndex]))]
      ensures !cycleActive ==>
        visible == old(visible) && cycleTimer == old(cycleTimer) && pending == [] && nextId == old(nextId)
    {
      if !autoCycleEnabled || manualHits != {} || |cycleOrder| == 0 {
        cycleActive := false;
        return;
      }
      var id := cycleOrder[cycleIndex];
      HideAllGlows();
      SetGlowVisibility(id, true);
      SetCycleTimer(id);
      cycleActive := true;
    }

    /** `startCycle`: a running cycle is left alone; otherwise it steps when it may. */
    method StartCycle()
      requires Valid()
      modifies this`cycleActive, this`visible, this`pending, this`cycleTimer, this`nextId
      ensures Valid()
      ensures cycleActive <==> autoCycleEnabled && manualHits == {}
      ensures old(cycleActive) ==>
        visible == old(visible) && pending == old(pending) && cycleTimer == old(cycleTimer) && nextId == old(nextId)
      ensures !old(cycleActive) && cycleActive ==>
        visible == {cycleOrder[cycleIndex]} && cycleTimer == Some(old(nextId)) &&
        pending == [Timer(old(nextId), now + CYCLE_DURATION_MS, 0, GlowDone(cycleOrder[cycleIndex]))]
      ensures !cycleActive ==> visible == old(visible) && pending == []
    {
      if !autoCycleEnabled || cycleActive || manualHits != {} || |cycleOrder| == 0 {
        return;
      }
      StepCycle();
    }

    /** `pauseForManual`: the hit is held and the cycle stops. */
    method PauseForManual(hit: nat)
      requires Valid()
      modifies this`manualHits, this`pending, this`cycleTimer, this`cycleActive
      ensures Valid()
      ensures manualHits == old(manualHits) + {hit}
      ensures !cycleActive && cycleTimer == None && pending == []
    {
      StopCycle();
      manualHits := manualHits + {hit};
    }

    /**
     * `resumeFromManual`: the hit is let go; when no hit is held any more every
     * glow is hidden and the cycle starts again, if it is enabled.
     */
    method ResumeFromManual(hit: nat)
      requires Valid()
      modifies this`manualHits, this`cycleActive, this`visible, this`pending, this`cycleTimer, this`nextId
      ensures Valid()
      ensures manualHits == old(manualHits) - {hit}
      ensures cycleActive <==> old(cycleActive) || (autoCycleEnabled && manualHits == {})
      ensures manualHits != {} ==> visible == old(visible) && pending == old(pending)
      ensures manualHits == {} && !old(cycleActive) && cycleActive ==>
        visible == {cycleOrder[cycleIndex]} &&
        pending == [Timer(old(nextId), now + CYCLE_DURATION_MS, 0, GlowDone(cycleOrder[cycleIndex]))]
      ensures manualHits == {} && !cycleActive ==> visible == {}
    {
      manualHits := manualHits - {hit};
      if manualHits == {} {
        HideAllGlows();
        StartCycle();
      }
    }

    /**
     * `showManual` on a hit area aimed at `target` (mouse enter, focus, touch
     * start): the cycle pauses and only the target sign glows. A hit aimed at a
     * sign that is not on the page has no listeners.
     */
    method ShowManual(hit: nat, target: string)
      requires Valid()
      modifies this`manualHits, this`pending, this`cycleTimer, this`cycleActive, this`visible
      ensures Valid()
      ensures target !in signs ==>
        manualHits == old(manualHits) && visible == old(visible) && cycleActive == old(cycleActive) && pending == old(pending)
      ensures target in signs ==>
        manualHits == old(manualHits) + {hit} && visible == {target} && !cycleActive && pending == []
    {
      if target !in signs {
        return;
      }
      PauseForManual(hit);
      HideAllGlows();
      SetGlowVisibility(target, true);
    }

    /**
     * `hideManual` (mouse leave, blur, touch end or cancel, click): the target
     * sign stops glowing and the hit is let go, which restarts the cycle when it
     * was the last one held.
     */
    method HideManual(hit: nat, target: string)
      requires Valid()
      modifies this`manualHits, this`cycleActive, this`visible, this`pending, this`cycleTimer, this`nextId
      ensures Valid()
      ensures target !in signs ==>
        manualHits == old(manualHits) && visible == old(visible) && cycleActive == old(cycleActive) && pending == old(pending)
      ensures target in signs ==> manualHits == old(manualHits) - {hit}
      ensures target in signs ==> (cycleActive <==> old(cycleActive) || (autoCycleEnabled && manualHits == {}))
      ensures target in signs && manualHits != {} ==> visible == old(visible) - {target} && pending == old(pending)
      ensures target in signs && manualHits == {} && !cycleActive ==> visible == {}
    {
      if target !in signs {
        return;
      }
      SetGlowVisibility(target, false);
      ResumeFromManual(hit);
    }

    /** `enableAutoCycle`: with some sign on the page, the cycle is enabled and started. */
    method Enable()
      requires Valid()
      modifies this`autoCycleEnabled, this`cycleActive, this`visible, this`pending, this`cycleTimer, this`nextId
      ensures Valid()
      ensures autoCycleEnabled <==> old(autoCycleEnabled) || cycleOrder != []
      ensures cycleActive <==> autoCycleEnabled && manualHits == {}
      ensures !old(cycleActive) && cycleActive ==>
        visible == {cycleOrder[cycleIndex]} &&
        pending == [Timer(old(nextId), now + CYCLE_DURATION_MS, 0, GlowDone(cycleOrder[cycleIndex]))]
      ensures !cycleActive ==> visible == old(visible) && pending == []
    {
      if |cycleOrder| == 0 {
        return;
      }
      autoCycleEnabled := true;
      StartCycle();
    }

    /** `disableAutoCycle`: the cycle is disabled and stopped and every glow is hidden. */
    method Disable()
      requires Valid()
      modifies this`autoCycleEnabled, this`pending, this`cycleTimer, this`cycleActive, this`visible
      ensures Valid()
      ensures !autoCycleEnabled && !cycleActive && cycleTimer == None && pending == [] && visible == {}
    {
      autoCycleEnabled := false;
      StopCycle();
      HideAllGlows();
    }

    /** Time passes with nothing due before `t`. */
    method AdvanceTo(t: nat)
      requires Valid() && now <= t
      requires forall i :: 0 <= i < |pending| ==> t <= pending[i].due
      modifies this`now
      ensures Valid() && now == t
    {
      now := t;
    }

    /** Removes the glow timer as the browser does when it fires, and moves the clock to it. */
    method TakeEarliest() returns (t: Timer<Event>)
      requires Valid() && pending != []
      modifies this`pending, this`now
      ensures TimersOk() && CycleOk() && pending == []
      ensures t == old(pending[0]) && now == t.due
    {
      assert Earliest(pending) == 0;
      t := pending[0];
      WfFire(pending, now, nextId);
      assert AfterFire(pending, 0) == [];
      now := t.due;
      pending := [];
    }

    /**
     * The `stepCycle` timeout for sign `id`: when a hit is held or the cycle was
     * disabled it only marks the cycle stopped; otherwise the sign stops glowing,
     * the index moves to the next sign and the cycle steps again.
     */
    method OnCycleTimeout(id: string)
      requires TimersOk() && CycleOk() && pending == []
      modifies this`cycleTimer, this`cycleActive, this`visible, this`cycleIndex, this`pending, this`nextId
      ensures Valid()
      ensures manualHits != {} || !autoCycleEnabled ==>
        !cycleActive && cycleTimer == None && visible == old(visible) && cycleIndex == old(cycleIndex) && pending == []
      ensures manualHits == {} && autoCycleEnabled ==>
        cycleActive && cycleIndex == Ring.Next(old(cycleIndex), |cycleOrder|) &&
        visible == {cycleOrder[cycleIndex]} &&
        pending == [Timer(old(nextId), now + CYCLE_DURATION_MS, 0, GlowDone(cycleOrder[cycleIndex]))]
    {
      if manualHits != {} || !autoCycleEnabled {
        cycleTimer := None;
        cycleActive := false;
        return;
      }
      SetGlowVisibility(id, false);
      cycleIndex := Ring.Next(cycleIndex, |cycleOrder|);
      StepCycle();
    }

    /**
     * The browser fires the pending glow timer: the cycle moves on to the next
     * sign, one second later, and keeps running.
     */
    method Fire()
      requires Valid() && pending != []
      modifies this`pending, this`now, this`cycleTimer, this`cycleActive, this`visible, this`cycleIndex, this`nextId
      ensures Valid() && cycleActive
      ensures now == old(pending[0].due)
      ensures cycleIndex == Ring.Next(old(cycleIndex), |cycleOrder|)
      ensures visible == {cycleOrder[cycleIndex]}
      ensures pending == [Timer(old(nextId), now + CYCLE_DURATION_MS, 0, GlowDone(cycleOrder[cycleIndex]))]
    {
      var t := TakeEarliest();
      OnCycleTimeout(t.event.id);
    }
  }

  /**
   * Left alone, the cycle visits the signs in order, one per second: after `k`
   * firings it is `k` steps further round and `k` seconds later.
   */
  method RunCycle(g: GlowCycle, k: nat)
    requires g.Valid() && g.cycleActive
    modifies g`pending, g`now, g`cycleTimer, g`cycleActive, g`visible, g`cycleIndex, g`nextId
    ensures g.Valid() && g.cycleActive
    ensures g.cycleIndex == Ring.Advance(old(g.cycleIndex), k, |g.cycleOrder|)
    ensures g.visible <= {g.cycleOrder[g.cycleIndex]}
    ensures |g.pending| == 1 && g.pending[0].due == old(g.pending[0].due) + CYCLE_DURATION_MS * k
  {
    var i := 0;
    while i < k
      invariant i <= k
      invariant g.Valid() && g.cycleActive
      invariant g.cycleIndex == Ring.Advance(old(g.cycleIndex), i, |g.cycleOrder|)
      invariant g.visible <= {g.cycleOrder[g.cycleIndex]}
      invariant |g.pending| == 1 && g.pending[0].due == old(g.pending[0].due) + CYCLE_DURATION_MS * i
    {
      g.Fire();
      i := i + 1;
    }
  }

  /** After one firing per sign the cycle is back on the sign it started from. */
  method FullCycle(g: GlowCycle)
    requires g.Valid() && g.cycleActive
    modifies g`pending, g`now, g`cycleTimer, g`cycleActive, g`visible, g`cycleIndex, g`nextId
    ensures g.Valid() && g.cycleActive
    ensures g.cycleIndex == old(g.cycleIndex)
    ensures g.visible == {g.cycleOrder[g.cycleIndex]}
    ensures g.pending[0].due == old(g.pending[0].due) + CYCLE_DURATION_MS * |g.cycleOrder|
  {
    var n := |g.cycleOrder|;
    RunCycle(g, n - 1);
    g.Fire();
    Ring.FullTurn(old(g.cycleIndex), n);
  }
}

=== FILE: heart.dfy ===
/**
 * The heart "mwah": a click plays eight frames, each shown `max(1, repeat)`
 * times in a row for its duration, then the heart returns to its base image.
 * While the door is shown open, the run also puts the kiss on the door and
 * asks for the open door to come back at the end.
 */
module Heart {
  import opened Timers

  const BASE_SRC := "assets/heart.png"
  const MWAH_SRCS := [
    "assets/mwah-one.png", "assets/mwah-two.png", "assets/mwah-three.png", "assets/mwah-four.png",
    "assets/mwah-five.png", "assets/mwah-six.png", "assets/mwah-seven.png", "assets/mwah-eight.png"
  ]

  /** A picture the heart shows: its base image or mwah picture `index`. */
  datatype Image = Base | Mwah(index: nat)

  /**
   * The file a heart picture is loaded from. Only the base picture loads `BASE_SRC`; an
   * index past the table, which no caller uses, falls back to it.
   */
  function Src(img: Image): (src: string)
    ensures img.Mwah? && img.index < |MWAH_SRCS| ==> src == MWAH_SRCS[img.index]
    ensures src == BASE_SRC <==> !(img.Mwah? && img.index < |MWAH_SRCS|)
  {
    match img
    case Base => BASE_SRC
    case Mwah(i) => if i < |MWAH_SRCS| then MWAH_SRCS[i] else BASE_SRC
  }

  /** The pictures the widget uses: the base picture and the frames of its table. */
  predicate InRange(img: Image)
  {
    img.Base? || img.index < |MWAH_SRCS|
  }

  /** Distinct pictures in use load distinct files, so the file on the page tells which picture shows. */
  lemma SrcInjective(a: Image, b: Image)
    requires InRange(a) && InRange(b)
    ensures Src(a) == Src(b) <==> a == b
  {
  }

  /** What a heart timer does when it fires. */
  datatype Event =
    | Show(img: Image)  // a frame callback
    | Reset             // `resetHeart`

  /** One authored frame: a picture, how many times in a row it is shown, and for how long each time. */
  datatype MwahFrame = MwahFrame(image: Image, repeat: int, duration: nat)

  const FRAMES: seq<MwahFrame> := [
    MwahFrame(Mwah(0), 2, 180),
    MwahFrame(Mwah(1), 2, 180),
    MwahFrame(Mwah(2), 2, 180),
    MwahFrame(Mwah(3), 2, 180),
    MwahFrame(Mwah(4), 2, 180),
    MwahFrame(Mwah(5), 2, 180),
    MwahFrame(Mwah(6), 2, 180),
    MwahFrame(Mwah(7), 1, 2000)
  ]

  /** `Math.max(1, repeat)`: every frame is shown at least once. */
  function Loops(f: MwahFrame): (n: nat)
    ensures n >= 1 && n >= f.repeat
    ensures n == f.repeat || (n == 1 && f.repeat < 1)
  {
    if f.repeat < 1 then 1 else f.repeat
  }

  /** `n` consecutive showings of one frame. */
  function Copies(f: MwahFrame, n: nat): seq<Frame<Event>>
  {
    seq(n, _ => Frame(Show(f.image), f.duration))
  }

  /** The flat list of showings the click schedules. */
  function Expand(frames: seq<MwahFrame>): seq<Frame<Event>>
  {
    if frames == [] then [] else Copies(frames[0], Loops(frames[0])) + Expand(frames[1..])
  }

  /** Total number of showings. */
  function Showings(frames: seq<MwahFrame>): nat
  {
    if frames == [] then 0 else Loops(frames[0]) + Showings(frames[1..])
  }

  /** Total run time: each frame held `max(1, repeat) * duration`. */
  function RunTime(frames: seq<MwahFrame>): nat
  {
    if frames == [] then 0 else Loops(frames[0]) * frames[0].duration + RunTime(frames[1..])
  }

  lemma {:induction false} CopiesDuration(f: MwahFrame, n: nat)
    ensures Duration(Copies(f, n)) == n * f.duration
  {
    if n > 0 {
      assert Copies(f, n) == Copies(f, n - 1) + [Frame(Show(f.image), f.duration)];
      DurationSnoc(Copies(f, n - 1), Frame(Show(f.image), f.duration));
      CopiesDuration(f, n - 1);
    }
  }

  /** The expanded list has one entry per showing and lasts exactly the sum of `max(1, repeat) * duration`. */
  lemma {:induction false} ExpandShape(frames: seq<MwahFrame>)
    ensures |Expand(frames)| == Showings(frames)
    ensures Duration(Expand(frames)) == RunTime(frames)
  {
    if frames != [] {
      ExpandShape(frames[1..]);
      CopiesDuration(frames[0], Loops(frames[0]));
      DurationAppend(Copies(frames[0], Loops(frames[0])), Expand(frames[1..]));
    }
  }

  lemma {:induction false} ExpandSnoc(frames: seq<MwahFrame>, f: MwahFrame)
    ensures Expand(frames + [f]) == Expand(frames) + Copies(f, Loops(f))
  {
    if frames == [] {
      assert Expand([f]) == Copies(f, Loops(f)) + Expand([]);
    } else {
      assert (frames + [f])[1..] == frames[1..] + [f];
      ExpandSnoc(frames[1..], f);
    }
  }

  /** The authored run: 15 showings, the reset at 7 * 2 * 180 + 2000 = 4520 ms. */
  lemma MwahRun()
    ensures Showings(FRAMES) == 15 && RunTime(FRAMES) == 4520
    ensures |Expand(FRAMES)| == 15 && Duration(Expand(FRAMES)) == 4520
  {
    ExpandShape(FRAMES);
  }

  /** In the scheduled run the sixteenth and last timer is the reset, 4520 ms after the click. */
  lemma MwahResetAt(firstId: nat, start: nat)
    ensures |Timeline(firstId, start, Expand(FRAMES), Reset)| == 16
    ensures Timeline(firstId, start, Expand(FRAMES), Reset)[15] == Timer(firstId + 15, start + 4520, 0, Reset)
  {
    MwahRun();
    TimelineAt(firstId, start, Expand(FRAMES), Reset);
  }

  /** One more showing of frame `f` after `done` and `i` earlier showings of it. */
  lemma RepeatStep(nextId: nat, start: nat, done: seq<Frame<Event>>, f: MwahFrame, i: nat)
    ensures var before := done + Copies(f, i);
      var t := Timer(nextId + |before|, start + Duration(before), 0, Show(f.image));
      Scheduled(nextId, start, done + Copies(f, i + 1)) == Scheduled(nextId, start, before) + [t] &&
      Duration(done + Copies(f, i + 1)) == Duration(before) + f.duration &&
      IdList(Scheduled(nextId, start, before) + [t]) == IdList(Scheduled(nextId, start, before)) + [t.id]
  {
    var shown := Frame(Show(f.image), f.duration);
    var before := done + Copies(f, i);
    assert Copies(f, i + 1) == Copies(f, i) + [shown];
    assert done + Copies(f, i + 1) == before + [shown];
    ScheduledSnoc(nextId, start, before, shown);
    DurationSnoc(before, shown);
    ScheduledLength(nextId, start, before);
    IdListSnoc(Scheduled(nextId, start, before), Timer(nextId + |before|, start + Duration(before), 0, Show(f.image)));
  }

  /**
   * The click's nested scheduling loop: for each frame, `max(1, repeat)` timeouts,
   * each at the running `elapsed`, which grows by the frame's duration after each.
   */
  method ScheduleMwah(q: seq<Timer<Event>>, nextId: nat, start: nat, frames: seq<MwahFrame>)
    returns (q': seq<Timer<Event>>, nextId': nat, ids: seq<nat>)
    ensures q' == q + Timeline(nextId, start, Expand(frames), Reset)
    ensures nextId' == nextId + |Expand(frames)| + 1
    ensures ids == IdList(Timeline(nextId, start, Expand(frames), Reset))
  {
    var s: seq<Timer<Event>> := [];
    nextId', ids := nextId, [];
    var elapsed := start;
    for f := 0 to |frames|
      invariant s == Scheduled(nextId, start, Expand(frames[..f]))
      invariant elapsed == start + Duration(Expand(frames[..f]))
      invariant nextId' == nextId + |Expand(frames[..f])|
      invariant ids == IdList(s)
    {
      s, nextId', ids, elapsed := ScheduleRepeats(s, nextId, start, Expand(frames[..f]), frames[f], nextId', ids, elapsed);
      assert frames[..f + 1] == frames[..f] + [frames[f]];
      ExpandSnoc(frames[..f], frames[f]);
    }
    assert frames[..|frames|] == frames;
    IdListSnoc(Scheduled(nextId, start, Expand(frames)), Timer(nextId', elapsed, 0, Reset));
    s := s + [Timer(nextId', elapsed, 0, Reset)];
    ids := ids + [nextId'];
    nextId' := nextId' + 1;
    q' := q + s;
  }

  /** One frame's inner loop: `max(1, repeat)` timeouts for its image, `duration` apart, after the showings `done`. */
  method ScheduleRepeats(s: seq<Timer<Event>>, nextId: nat, start: nat, done: seq<Frame<Event>>, f: MwahFrame,
                         id: nat, ids: seq<nat>, elapsed: nat)
    returns (s': seq<Timer<Event>>, id': nat, ids': seq<nat>, elapsed': nat)
    requires s == Scheduled(nextId, start, done) && ids == IdList(s)
    requires id == nextId + |done| && elapsed == start + Duration(done)
    ensures s' == Scheduled(nextId, start, done + Copies(f, Loops(f)))
    ensures ids' == IdList(s')
    ensures id' == nextId + |done + Copies(f, Loops(f))|
    ensures elapsed' == start + Duration(done + Copies(f, Loops(f)))
  {
    s', id', ids', elapsed' := s, id, ids, elapsed;
    assert done + Copies(f, 0) == done;
    var loops := Loops(f);
    for i := 0 to loops
      invariant s' == Scheduled(nextId, start, done + Copies(f, i))
      invariant elapsed' == start + Duration(done + Copies(f, i))
      invariant id' == nextId + |done + Copies(f, i)|
      invariant ids' == IdList(s')
    {
      RepeatStep(nextId, start, done, f, i);
      s' := s' + [Timer(id', elapsed', 0, Show(f.image))];
      ids' := ids' + [id'];
      id' := id' + 1;
      elapsed' := elapsed' + f.duration;
    }
  }

  class MwahHeart {
    var image: Image
    var active: bool
    var timers: seq<nat>
    var restoreDoorAfterSequence: bool
    var now: nat
    var pending: seq<Timer<Event>>
    var nextId: nat

    /** The timer bookkeeping: every pending timer is a timeout the heart tracks in `timers`. */
    ghost predicate TimersOk()
      reads this`pending, this`now, this`nextId, this`timers
    {
      Wf(pending, now, nextId) && 1 <= nextId &&
      (forall i :: 0 <= i < |pending| ==> pending[i].period == 0 && pending[i].id in timers)
    }

    /** Between events: an inactive heart has nothing pending and owes the door nothing. */
    ghost predicate Valid()
      reads this
    {
      TimersOk() && (!active ==> pending == [] && !restoreDoorAfterSequence)
    }

    constructor ()
      ensures Valid()
      ensures image == Base && !active && timers == [] && pending == [] && now == 0
    {
      image, active, timers, restoreDoorAfterSequence := Base, false, [], false;
      now, pending, nextId := 0, [], 1;
    }

    /** Time passes with nothing due before `t`. */
    method AdvanceTo(t: nat)
      requires Valid() && now <= t
      requires forall i :: 0 <= i < |pending| ==> t <= pending[i].due
      modifies this`now
      ensures Valid() && now == t
    {
      now := t;
    }

    /** `clearTimers`: every timer the heart set is cancelled and the list emptied. */
    method ClearTimers()
      requires TimersOk()
      modifies this`pending, this`timers
      ensures TimersOk() && pending == [] && timers == []
    {
      assert Ids(pending) <= set k | k in timers;
      CancelAll(pending, set k | k in timers);
      pending := Cancel(pending, set k | k in timers);
      timers := [];
    }

    /**
     * A click while active does nothing. Otherwise the heart becomes active at
     * once, every earlier timer is gone, and the pending list is the mwah
     * timeline: showing i at `now` plus the durations of the showings before it,
     * the reset at `now + 4520`. When the door is shown open, the door element is
     * to show the mwah door (`swapDoor`) and its restore is requested.
     */
    method Click(doorShowsOpen: bool) returns (swapDoor: bool)
      requires Valid()
      modifies this`active, this`pending, this`timers, this`restoreDoorAfterSequence, this`nextId
      ensures Valid() && active
      ensures swapDoor <==> !old(active) && doorShowsOpen
      ensures old(active) ==>
        pending == old(pending) && timers == old(timers) &&
        restoreDoorAfterSequence == old(restoreDoorAfterSequence) && nextId == old(nextId)
      ensures !old(active) ==>
        pending == Timeline(old(nextId), now, Expand(FRAMES), Reset) &&
        timers == IdList(pending) && restoreDoorAfterSequence == doorShowsOpen
    {
      swapDoor := false;
      if active {
        return;
      }
      swapDoor := doorShowsOpen;
      Begin(doorShowsOpen, FRAMES);
    }

    /** The accepted click: active at once, earlier timers gone, the run of `frames` scheduled. */
    method Begin(doorShowsOpen: bool, frames: seq<MwahFrame>)
      requires Valid() && !active
      modifies this`active, this`pending, this`timers, this`restoreDoorAfterSequence, this`nextId
      ensures Valid() && active
      ensures pending == Timeline(old(nextId), now, Expand(frames), Reset)
      ensures timers == IdList(pending) && restoreDoorAfterSequence == doorShowsOpen
    {
      active := true;
      ClearTimers();
      if doorShowsOpen {
        restoreDoorAfterSequence := true;
      }
      StartRun(frames);
    }

    /** Schedules a run of `frames` on an empty pending list and tracks every id it sets. */
    method StartRun(frames: seq<MwahFrame>)
      requires TimersOk() && pending == [] && timers == []
      modifies this`pending, this`timers, this`nextId
      ensures TimersOk()
      ensures pending == Timeline(old(nextId), now, Expand(frames), Reset)
      ensures timers == IdList(pending)
    {
      WfTimeline(pending, now, nextId, now, Expand(frames), Reset);
      TimelineOneShots(nextId, now, Expand(frames), Reset);
      pending, nextId, timers := ScheduleMwah(pending, nextId, now, frames);
      assert forall i :: 0 <= i < |pending| ==> timers[i] == pending[i].id;
    }

    /**
     * `resetHeart`: base image, nothing pending, inactive. Returns whether the
     * open door picture is put back, which the click decided; the request is consumed.
     */
    method ResetHeart() returns (restoreDoor: bool)
      requires TimersOk()
      modifies this`image, this`pending, this`timers, this`active, this`restoreDoorAfterSequence
      ensures Valid()
      ensures image == Base && !active && pending == [] && timers == [] && !restoreDoorAfterSequence
      ensures restoreDoor == old(restoreDoorAfterSequence)
    {
      image := Base;
      ClearTimers();
      active := false;
      restoreDoor := false;
      if restoreDoorAfterSequence {
        restoreDoor := true;
        restoreDoorAfterSequence := false;
      }
    }

    /** Removes the earliest pending timer as the browser does when it fires, and moves the clock to it. */
    method TakeEarliest() returns (t: Timer<Event>)
      requires Valid() && pending != []
      modifies this`pending, this`now
      ensures TimersOk() && (!active ==> !restoreDoorAfterSequence)
      ensures t == old(pending[Earliest(pending)]) && now == t.due
      ensures pending == AfterFire(old(pending), Earliest(old(pending)))
    {
      var k := Earliest(pending);
      t := pending[k];
      WfFire(pending, now, nextId);
      AfterFireFrom(pending, k);
      now := t.due;
      pending := AfterFire(pending, k);
    }

    /**
     * The browser fires the earliest pending heart timer: a showing changes the
     * picture, the reset ends the run. `restoreDoor` says whether the open door
     * picture is put back.
     */
    method Fire() returns (fired: Timer<Event>, restoreDoor: bool)
      requires Valid() && pending != []
      modifies this`image, this`pending, this`timers, this`active, this`restoreDoorAfterSequence, this`now
      ensures Valid()
      ensures fired == old(pending[Earliest(pending)]) && now == fired.due
      ensures fired.event.Show? ==>
        image == fired.event.img && active && !restoreDoor &&
        pending == AfterFire(old(pending), Earliest(old(pending)))
      ensures fired.event.Reset? ==>
        image == Base && !active && pending == [] && restoreDoor == old(restoreDoorAfterSequence)
    {
      fired := TakeEarliest();
      match fired.event
      case Show(img) =>
        image := img;
        restoreDoor := false;
      case Reset =>
        restoreDoor := ResetHeart();
    }
  }
}

=== FILE: hotdog.dfy ===
/**
 * The hot dog dance: an overlay cycles seven frames. While music plays the
 * overlay loops on an interval, each frame coloured by its own filter. A click
 * plays the seven frames twice, 500 ms apart, and at the end resumes the loop
 * exactly when music was playing at the moment of the click.
 */
module HotDog {
  import opened Timers
  import opened Filters

  const BASE_SRC := "assets/hot-dog-sign.png"
  const FRAMES: seq<string> := [
    "assets/hot-dog-dance-one.png",
    "assets/hot-dog-dance-two.png",
    "assets/hot-dog-dance-three.png",
    "assets/hot-dog-dance-four.png",
    "assets/hot-dog-dance-five.png",
    "assets/hot-dog-dance-six.png",
    "assets/hot-dog-dance-seven.png"
  ]
  /** `FRAMES.length`, which is also `FILTERS.length`. */
  const FRAME_COUNT := 7
  const FRAME_DURATION := 500
  const REPEAT_COUNT := 2
  const FILTERS: seq<string> := [
    "hue-rotate(0deg) saturate(130%)",
    "hue-rotate(45deg) saturate(150%)",
    "hue-rotate(90deg) saturate(170%)",
    "hue-rotate(135deg) saturate(200%)",
    "hue-rotate(180deg) saturate(170%)",
    "hue-rotate(225deg) saturate(150%)",
    "hue-rotate(270deg) saturate(140%)"
  ]

  /** An image the overlay can show: the sign or dance frame `index`. */
  datatype Image = Base | Dance(index: nat)

  /**
   * The file a image is loaded from. Only the sign loads `BASE_SRC`; an
   * index past the table, which no caller uses, falls back to it.
   */
  function Src(img: Image): (src: string)
    ensures img.Dance? && img.index < |FRAMES| ==> src == FRAMES[img.index]
    ensures src == BASE_SRC <==> !(img.Dance? && img.index < |FRAMES|)
  {
    match img
    case Base => BASE_SRC
    case Dance(i) => if i < |FRAMES| then FRAMES[i] else BASE_SRC
  }

  /** The pictures the widget uses: the sign and the frames of its table. */
  predicate InRange(img: Image)
  {
    img.Base? || img.index < |FRAMES|
  }

  /** Distinct pictures in use load distinct files, so the file on the page tells which picture shows. */
  lemma SrcInjective(a: Image, b: Image)
    requires InRange(a) && InRange(b)
    ensures Src(a) == Src(b) <==> a == b
  {
  }

  /** What a hot dog timer does when it fires. */
  datatype Event =
    | Tick                   // the music loop's interval callback
    | ClickFrame(index: nat) // a click's frame callback
    | Finish(resume: bool)   // `finishManual(resumeLoop)`, with the decision taken at the click

  /** The frames of a click: the seven frames, twice. */
  function ClickEvents(): (events: seq<Event>)
    ensures |events| == FRAME_COUNT * REPEAT_COUNT
  {
    seq(FRAME_COUNT * REPEAT_COUNT, k => ClickFrame(k % 7))
  }

  /** The click's frames, each held one frame duration. */
  function ClickRun(): seq<Frame<Event>>
  {
    Even(ClickEvents(), FRAME_DURATION)
  }

  /**
   * The click's timeline: frame `k % 7` at `500 * k` ms for the fourteen
   * showings, the first at once, and `finishManual` at 7000 ms.
   */
  lemma ClickTimelineAt(firstId: nat, start: nat, resume: bool)
    ensures |Timeline(firstId, start, ClickRun(), Finish(resume))| == 15
    ensures forall k :: 0 <= k < 14 ==>
      Timeline(firstId, start, ClickRun(), Finish(resume))[k]
        == Timer(firstId + k, start + FRAME_DURATION * k, 0, ClickFrame(k % 7))
    ensures Timeline(firstId, start, ClickRun(), Finish(resume))[14] == Timer(firstId + 14, start + 7000, 0, Finish(resume))
  {
    TimelineAt(firstId, start, ClickRun(), Finish(resume));
    forall k | 0 <= k <= 14 ensures Duration(ClickRun()[..k]) == FRAME_DURATION * k {
      EvenDuration(ClickEvents(), FRAME_DURATION, k);
    }
    assert ClickRun()[..14] == ClickRun();
  }

  /** Frame `index` of pass `pass` is showing number `7 * pass + index`, at `500` ms per showing before it. */
  lemma ClickStep(nextId: nat, start: nat, pass: nat, index: nat)
    requires pass < REPEAT_COUNT && index < FRAME_COUNT
    ensures var n := pass * FRAME_COUNT + index;
      var run := ClickRun();
      var t := Timer(nextId + n, start + FRAME_DURATION * n, 0, ClickFrame(index));
      n < |run| &&
      Scheduled(nextId, start, run[..n + 1]) == Scheduled(nextId, start, run[..n]) + [t] &&
      IdList(Scheduled(nextId, start, run[..n]) + [t]) == IdList(Scheduled(nextId, start, run[..n])) + [t.id]
  {
    var n := pass * FRAME_COUNT + index;
    var run := ClickRun();
    assert n % 7 == index;
    ScheduledStep(nextId, start, run, n);
    EvenDuration(ClickEvents(), FRAME_DURATION, n);
    IdListSnoc(Scheduled(nextId, start, run[..n]), Timer(nextId + n, start + FRAME_DURATION * n, 0, ClickFrame(index)));
  }

  /** After the fourteen showings, `finishManual` at the accumulated `elapsed` completes the click timeline. */
  lemma ClickFinal(nextId: nat, start: nat, resume: bool)
    ensures var run := ClickRun();
      var t := Timer(nextId + 14, start + FRAME_DURATION * 14, 0, Finish(resume));
      |run| == 14 &&
      Scheduled(nextId, start, run[..14]) + [t] == Timeline(nextId, start, run, Finish(resume)) &&
      IdList(Scheduled(nextId, start, run[..14])) + [t.id] == IdList(Timeline(nextId, start, run, Finish(resume)))
  {
    var run := ClickRun();
    EvenDuration(ClickEvents(), FRAME_DURATION, 14);
    assert run[..14] == run;
    IdListSnoc(Scheduled(nextId, start, run), Timer(nextId + 14, start + FRAME_DURATION * 14, 0, Finish(resume)));
  }

  /**
   * The click's scheduling loops: for each of the two passes and each frame a
   * timeout at the running `elapsed`, which grows by the frame duration; then
   * `finishManual(resume)` at the final `elapsed`.
   */
  method ScheduleClick(q: seq<Timer<Event>>, nextId: nat, start: nat, resume: bool)
    returns (q': seq<Timer<Event>>, nextId': nat, ids: seq<nat>)
    ensures q' == q + Timeline(nextId, start, ClickRun(), Finish(resume))
    ensures nextId' == nextId + |ClickRun()| + 1
    ensures ids == IdList(Timeline(nextId, start, ClickRun(), Finish(resume)))
  {
    var run := ClickRun();
    var s: seq<Timer<Event>> := [];
    var elapsed := start;
    nextId', ids := nextId, [];
    for pass := 0 to REPEAT_COUNT
      invariant s == Scheduled(nextId, start, run[..pass * 7])
      invariant nextId' == nextId + pass * 7
      invariant elapsed == start + FRAME_DURATION * (pass * 7)
      invariant ids == IdList(s)
    {
      s, nextId', ids, elapsed := SchedulePass(s, nextId, start, pass, nextId', ids, elapsed);
    }
    ClickFinal(nextId, start, resume);
    s := s + [Timer(nextId', elapsed, 0, Finish(resume))];
    ids := ids + [nextId'];
    nextId' := nextId' + 1;
    q' := q + s;
  }

  /** One pass of the click's scheduling: a timeout for each of the seven frames, `FRAME_DURATION` apart. */
  method SchedulePass(s: seq<Timer<Event>>, nextId: nat, start: nat, pass: nat, id: nat, ids: seq<nat>, elapsed: nat)
    returns (s': seq<Timer<Event>>, id': nat, ids': seq<nat>, elapsed': nat)
    requires pass < REPEAT_COUNT
    requires s == Scheduled(nextId, start, ClickRun()[..pass * 7])
    requires id == nextId + pass * 7 && ids == IdList(s) && elapsed == start + FRAME_DURATION * (pass * 7)
    ensures s' == Scheduled(nextId, start, ClickRun()[..(pass + 1) * 7])
    ensures id' == nextId + (pass + 1) * 7 && ids' == IdList(s')
    ensures elapsed' == start + FRAME_DURATION * ((pass + 1) * 7)
  {
    var run := ClickRun();
    s', id', ids', elapsed' := s, id, ids, elapsed;
    for idx := 0 to FRAME_COUNT
      invariant s' == Scheduled(nextId, start, run[..pass * 7 + idx])
      invariant id' == nextId + pass * 7 + idx
      invariant ids' == IdList(s')
      invariant elapsed' == start + FRAME_DURATION * (pass * 7 + idx)
    {
      ClickStep(nextId, start, pass, idx);
      s' := s' + [Timer(id', elapsed', 0, ClickFrame(idx))];
      ids' := ids' + [id'];
      id' := id' + 1;
      elapsed' := elapsed' + FRAME_DURATION;
    }
  }

  /**
   * How the hot dog's timers relate to its state: the loop interval is the
   * only ticking timer and re-arms every frame duration; every other pending
   * timer is a timeout of the click run, listed in `manual`, which never lists
   * the loop.
   */
  ghost predicate PendingOk(q: seq<Timer<Event>>, loop: Option<nat>, manual: seq<nat>)
  {
    (forall i :: 0 <= i < |q| ==>
       (q[i].event == Tick <==> loop == Some(q[i].id)) &&
       (q[i].event == Tick ==> q[i].period == FRAME_DURATION) &&
       (q[i].event != Tick ==> q[i].period == 0 && q[i].id in manual)) &&
    (loop.Some? ==> loop.value in Ids(q) && loop.value !in manual)
  }

  /** `clearManualTimers` keeps only the loop interval. */
  lemma PendingOkClearManual(q: seq<Timer<Event>>, now: nat, nextId: nat, loop: Option<nat>, manual: seq<nat>)
    requires Wf(q, now, nextId) && PendingOk(q, loop, manual)
    ensures PendingOk(Cancel(q, set k | k in manual), loop, [])
  {
    var ids := set k | k in manual;
    CancelKeeps(q, ids);
    WfCancel(q, now, nextId, ids);
  }

  /** Without the loop, cancelling the listed click timers leaves nothing pending. */
  lemma {:induction false} CancelManualLeavesNothing(q: seq<Timer<Event>>, manual: seq<nat>)
    requires PendingOk(q, None, manual)
    ensures Cancel(q, set k | k in manual) == []
  {
    forall x | x in Ids(q) ensures x in (set k | k in manual) {
      var i :| 0 <= i < |q| && q[i].id == x;
      assert q[i].event != Tick;
    }
    CancelAll(q, set k | k in manual);
  }

  /** With no loop and no listed click timers, nothing is pending. */
  lemma IdleIsEmpty(q: seq<Timer<Event>>)
    requires PendingOk(q, None, [])
    ensures q == []
  {
    var none: seq<nat> := [];
    CancelManualLeavesNothing(q, none);
    CancelMissing(q, {});
    assert (set k | k in none) == {};
  }

  /** Firing the earliest hot dog timer keeps the timers related to the state as before. */
  lemma PendingOkFire(q: seq<Timer<Event>>, now: nat, nextId: nat, loop: Option<nat>, manual: seq<nat>)
    requires Wf(q, now, nextId) && q != [] && PendingOk(q, loop, manual)
    ensures PendingOk(AfterFire(q, Earliest(q)), loop, manual)
  {
    var k := Earliest(q);
    WfFire(q, now, nextId);
    AfterFireFrom(q, k);
    if loop.Some? && q[k].event != Tick {
      assert loop.value != q[k].id;
    }
  }

  /** Setting the loop interval, when none runs, keeps the timers related to the state. */
  lemma PendingOkStartLoop(q: seq<Timer<Event>>, now: nat, nextId: nat, manual: seq<nat>, t: Timer<Event>)
    requires Wf(q, now, nextId) && PendingOk(q, None, manual)
    requires forall i :: 0 <= i < |manual| ==> manual[i] < nextId
    requires t == Timer(nextId, t.due, FRAME_DURATION, Tick)
    ensures PendingOk(q + [t], Some(nextId), manual)
  {
    assert (q + [t])[|q|] == t;
    IdsSingle(t);
    IdsAppend(q, [t]);
  }

  /** Cancelling the loop interval keeps the timers related to the state. */
  lemma PendingOkStopLoop(q: seq<Timer<Event>>, l: nat, manual: seq<nat>)
    requires PendingOk(q, Some(l), manual)
    ensures PendingOk(Cancel(q, {l}), None, manual)
  {
    CancelKeeps(q, {l});
  }

  /** A fresh click timeline is all click timeouts, each listed, with ids below the next one. */
  lemma PendingOkClickRun(firstId: nat, start: nat, resume: bool)
    ensures var t := Timeline(firstId, start, ClickRun(), Finish(resume));
      PendingOk(t, None, IdList(t)) &&
      forall i :: 0 <= i < |IdList(t)| ==> IdList(t)[i] < firstId + 15
  {
    var t := Timeline(firstId, start, ClickRun(), Finish(resume));
    ClickTimelineAt(firstId, start, resume);
    assert forall i :: 0 <= i < |t| ==> t[i].event != Tick && t[i].period == 0 && t[i].id < firstId + 15;
  }

  class HotDogDance {
    var overlayShown: bool
    var overlayImage: Image
    var overlayFilter: Filter
    var hotDogFilter: Filter
    var manualActive: bool
    var manualTimers: seq<nat>
    var loopInterval: Option<nat>
    var frameIndex: nat
    var musicActive: bool
    var now: nat
    var pending: seq<Timer<Event>>
    var nextId: nat

    /** The timer bookkeeping, which also holds between the steps of an operation. */
    ghost predicate TimersOk()
      reads this`pending, this`now, this`nextId, this`frameIndex, this`loopInterval, this`manualTimers
    {
      Wf(pending, now, nextId) && 1 <= nextId && frameIndex < FRAME_COUNT &&
      PendingOk(pending, loopInterval, manualTimers) &&
      (forall i :: 0 <= i < |manualTimers| ==> manualTimers[i] < nextId)
    }

    /**
     * Between events: the loop runs exactly while music plays; click timers are
     * listed only during a click run, which keeps the overlay shown; a hidden
     * overlay carries no filter.
     */
    ghost predicate Valid()
      reads this
    {
      TimersOk() &&
      (musicActive <==> loopInterval.Some?) &&
      (!manualActive ==> manualTimers == []) &&
      (manualActive ==> overlayShown) &&
      (!overlayShown ==> overlayFilter == NO_FILTER)
    }

    /** Load: nothing dancing, the overlay hidden on the sign image, no filter set yet. */
    constructor ()
      ensures Valid()
      ensures !overlayShown && overlayImage == Base && overlayFilter == NO_FILTER && hotDogFilter == NO_FILTER
      ensures !manualActive && !musicActive && loopInterval == None && frameIndex == 0 && pending == []
    {
      overlayShown, overlayImage, overlayFilter, hotDogFilter := false, Base, NO_FILTER, NO_FILTER;
      manualActive, manualTimers, loopInterval, frameIndex, musicActive := false, [], None, 0, false;
      now, pending, nextId := 0, [], 1;
    }

    /** Time passes with nothing due before `t`. */
    method AdvanceTo(t: nat)
      requires Valid() && now <= t
      requires forall i :: 0 <= i < |pending| ==> t <= pending[i].due
      modifies this`now
      ensures Valid() && now == t
    {
      now := t;
    }

    /** `applyBaseFilter`: the hot dog itself is dimmed exactly while the lights are off. */
    method ApplyBaseFilter(lightsOff: bool)
      modifies this`hotDogFilter
      ensures hotDogFilter == Filter(lightsOff, Plain)
    {
      hotDogFilter := Filter(lightsOff, Plain);
    }

    /** `hideOverlay`: hidden, back to the sign image, unfiltered; the hot dog gets the lights filter. */
    method HideOverlay(lightsOff: bool)
      modifies this`overlayShown, this`overlayImage, this`overlayFilter, this`hotDogFilter
      ensures !overlayShown && overlayImage == Base && overlayFilter == NO_FILTER
      ensures hotDogFilter == Filter(lightsOff, Plain)
    {
      overlayShown := false;
      overlayImage := Base;
      overlayFilter := NO_FILTER;
      ApplyBaseFilter(lightsOff);
    }

    /**
     * `applyFrame`: frame `index % 7` is shown; while music plays it carries its
     * own colour behind the lights filter, otherwise just the lights filter.
     */
    method ApplyFrame(index: nat, lightsOff: bool)
      modifies this`frameIndex, this`overlayShown, this`overlayImage, this`overlayFilter, this`hotDogFilter
      ensures frameIndex == index % 7 && overlayShown && overlayImage == Dance(frameIndex)
      ensures index < FRAME_COUNT ==> frameIndex == index
      ensures hotDogFilter == Filter(lightsOff, Plain)
      ensures overlayFilter == Filter(lightsOff, if musicActive then Tinted(frameIndex) else Plain)
    {
      frameIndex := index % 7;
      overlayShown := true;
      overlayImage := Dance(frameIndex);
      ApplyBaseFilter(lightsOff);
      if musicActive {
        overlayFilter := Filter(lightsOff, Tinted(frameIndex % 7));
      } else if lightsOff {
        overlayFilter := Filter(true, Plain);
      } else {
        overlayFilter := NO_FILTER;
      }
    }

    /**
     * `startLoop`: when no loop runs, music is on, the current frame is shown and
     * an interval of one frame duration is set; a running loop is left alone.
     */
    method StartLoop(lightsOff: bool)
      requires TimersOk() && (musicActive <==> loopInterval.Some?)
      modifies this`frameIndex, this`overlayShown, this`overlayImage, this`overlayFilter, this`hotDogFilter
      modifies this`pending, this`loopInterval, this`nextId, this`musicActive
      ensures TimersOk() && musicActive && loopInterval.Some?
      ensures old(loopInterval).Some? ==>
        loopInterval == old(loopInterval) && pending == old(pending) && nextId == old(nextId) &&
        frameIndex == old(frameIndex) && overlayShown == old(overlayShown) && overlayImage == old(overlayImage) &&
        overlayFilter == old(overlayFilter) && hotDogFilter == old(hotDogFilter)
      ensures old(loopInterval).None? ==>
        loopInterval == Some(old(nextId)) && pending == old(pending) + [Timer(old(nextId), now + FRAME_DURATION, FRAME_DURATION, Tick)] &&
        frameIndex == old(frameIndex) && overlayShown && overlayImage == Dance(frameIndex) &&
        hotDogFilter == Filter(lightsOff, Plain) && overlayFilter == Filter(lightsOff, Tinted(frameIndex))
    {
      if loopInterval.Some? {
        return;
      }
      musicActive := true;
      ApplyFrame(frameIndex, lightsOff);
      SetLoop();
    }

    /** `setInterval` for the loop: a ticking timer one frame duration from now. */
    method SetLoop()
      requires TimersOk() && loopInterval.None?
      modifies this`pending, this`loopInterval, this`nextId
      ensures TimersOk()
      ensures loopInterval == Some(old(nextId)) && nextId == old(nextId) + 1
      ensures pending == old(pending) + [Timer(old(nextId), now + FRAME_DURATION, FRAME_DURATION, Tick)]
    {
      var t := Timer(nextId, now + FRAME_DURATION, FRAME_DURATION, Tick);
      WfAppend(pending, now, nextId, t);
      PendingOkStartLoop(pending, now, nextId, manualTimers, t);
      pending := pending + [t];
      loopInterval := Some(nextId);
      nextId := nextId + 1;
    }

    /**
     * `stopLoop`: music is off; a running loop is cancelled and, outside a click
     * run, the overlay is hidden.
     */
    method StopLoop(lightsOff: bool)
      requires TimersOk()
      modifies this`pending, this`loopInterval, this`musicActive
      modifies this`overlayShown, this`overlayImage, this`overlayFilter, this`hotDogFilter
      ensures TimersOk() && !musicActive && loopInterval == None
      ensures pending == if old(loopInterval).Some? then Cancel(old(pending), {old(loopInterval).value}) else old(pending)
      ensures old(loopInterval).Some? && !manualActive ==>
        !overlayShown && overlayImage == Base && overlayFilter == NO_FILTER && hotDogFilter == Filter(lightsOff, Plain)
      ensures old(loopInterval).None? || manualActive ==>
        overlayShown == old(overlayShown) && overlayImage == old(overlayImage) &&
        overlayFilter == old(overlayFilter) && hotDogFilter == old(hotDogFilter)
    {
      musicActive := false;
      if loopInterval.None? {
        return;
      }
      CancelLoop();
      if !manualActive {
        HideOverlay(lightsOff);
      }
    }

    /** `clearInterval` for the loop. */
    method CancelLoop()
      requires TimersOk() && loopInterval.Some?
      modifies this`pending, this`loopInterval
      ensures TimersOk() && loopInterval == None
      ensures pending == Cancel(old(pending), {old(loopInterval).value})
    {
      var l := loopInterval.value;
      WfCancel(pending, now, nextId, {l});
      PendingOkStopLoop(pending, l, manualTimers);
      pending := Cancel(pending, {l});
      loopInterval := None;
    }

    /** `clearManualTimers`: every listed click timer is cancelled; only the loop can stay pending. */
    method ClearManualTimers()
      requires TimersOk()
      modifies this`pending, this`manualTimers
      ensures TimersOk() && manualTimers == []
      ensures pending == Cancel(old(pending), set k | k in old(manualTimers))
    {
      PendingOkClearManual(pending, now, nextId, loopInterval, manualTimers);
      WfCancel(pending, now, nextId, set k | k in manualTimers);
      pending := Cancel(pending, set k | k in manualTimers);
      manualTimers := [];
    }

    /**
     * `finishManual(shouldResume)`: the click run ends and its timers are
     * cancelled; the loop (re)starts when `shouldResume`, otherwise the overlay
     * is hidden, even if a loop started during the run keeps ticking.
     */
    method FinishManual(shouldResume: bool, lightsOff: bool)
      requires Valid() && manualActive
      modifies this
      ensures Valid() && !manualActive && manualTimers == [] && now == old(now)
      ensures shouldResume ==> musicActive && loopInterval.Some?
      ensures shouldResume && old(loopInterval).None? ==>
        loopInterval == Some(old(nextId)) && overlayShown && overlayImage == Dance(frameIndex) &&
        frameIndex == old(frameIndex) && overlayFilter == Filter(lightsOff, Tinted(frameIndex))
      ensures !shouldResume ==>
        musicActive == old(musicActive) && loopInterval == old(loopInterval) &&
        !overlayShown && overlayImage == Base && overlayFilter == NO_FILTER
      ensures hotDogFilter == Filter(lightsOff, Plain) || (shouldResume && old(loopInterval).Some? && hotDogFilter == old(hotDogFilter))
    {
      manualActive := false;
      ClearManualTimers();
      if shouldResume {
        StartLoop(lightsOff);
      } else {
        HideOverlay(lightsOff);
      }
    }

    /**
     * The click handler. During a click run it does nothing. Otherwise the run
     * begins: a playing loop is stopped, the overlay shown, and the pending list
     * becomes the click timeline, ending in `finishManual` with the resume
     * decision taken now: whether music was playing.
     */
    method HandleClick(lightsOff: bool)
      requires Valid()
      modifies this
      ensures Valid()
      ensures old(manualActive) ==> unchanged(this)
      ensures !old(manualActive) ==>
        manualActive && !musicActive && loopInterval == None && overlayShown &&
        pending == Timeline(old(nextId), now, ClickRun(), Finish(old(musicActive))) &&
        manualTimers == IdList(pending) &&
        frameIndex == old(frameIndex) && overlayImage == old(overlayImage) &&
        overlayFilter == old(overlayFilter) && hotDogFilter == old(hotDogFilter)
      ensures now == old(now)
    {
      if manualActive {
        return;
      }
      StartClick(lightsOff);
    }

    /** The accepted click. */
    method StartClick(lightsOff: bool)
      requires Valid() && !manualActive
      modifies this
      ensures Valid()
      ensures manualActive && !musicActive && loopInterval == None && overlayShown
      ensures pending == Timeline(old(nextId), now, ClickRun(), Finish(old(musicActive)))
      ensures manualTimers == IdList(pending)
      ensures frameIndex == old(frameIndex) && overlayImage == old(overlayImage) && now == old(now)
      ensures overlayFilter == old(overlayFilter) && hotDogFilter == old(hotDogFilter)
    {
      var resumeLoop := BeginClick(lightsOff);
      StartRun(resumeLoop);
    }

    /**
     * The click run begins: `manualActive` is set, a playing loop stopped
     * (the overlay stays, as a click run is on), the old click timers cleared
     * and the overlay shown. Returns whether music was playing.
     */
    method BeginClick(lightsOff: bool) returns (resumeLoop: bool)
      requires Valid() && !manualActive
      modifies this`manualActive, this`musicActive, this`pending, this`loopInterval, this`manualTimers
      modifies this`overlayShown, this`overlayImage, this`overlayFilter, this`hotDogFilter
      ensures TimersOk() && manualActive && !musicActive && loopInterval == None && overlayShown
      ensures pending == [] && manualTimers == [] && resumeLoop == old(musicActive)
      ensures overlayImage == old(overlayImage)
      ensures overlayFilter == old(overlayFilter) && hotDogFilter == old(hotDogFilter)
    {
      manualActive := true;
      resumeLoop := musicActive;
      if resumeLoop {
        StopLoop(lightsOff);
      }
      ClearManualTimers();
      overlayShown := true;
      IdleIsEmpty(pending);
    }

    /** Sets the click timeline on an empty pending list and lists its ids. */
    method StartRun(resume: bool)
      requires TimersOk() && pending == [] && manualTimers == [] && loopInterval == None
      modifies this`pending, this`manualTimers, this`nextId
      ensures TimersOk()
      ensures pending == Timeline(old(nextId), now, ClickRun(), Finish(resume))
      ensures manualTimers == IdList(pending)
    {
      WfTimeline(pending, now, nextId, now, ClickRun(), Finish(resume));
      PendingOkClickRun(nextId, now, resume);
      pending, nextId, manualTimers := ScheduleClick(pending, nextId, now, resume);
    }

    /**
     * `updateLights`: the hot dog gets the lights filter; a shown overlay carries
     * the current frame's colour while music or a click run is on, otherwise
     * just the lights filter.
     */
    method UpdateLights(lightsOff: bool)
      requires Valid()
      modifies this`overlayFilter, this`hotDogFilter
      ensures Valid()
      ensures hotDogFilter == Filter(lightsOff, Plain)
      ensures overlayShown ==>
        overlayFilter == Filter(lightsOff, if musicActive || manualActive then Tinted(frameIndex) else Plain)
      ensures !overlayShown ==> overlayFilter == old(overlayFilter)
    {
      ApplyBaseFilter(lightsOff);
      if overlayShown {
        if musicActive || manualActive {
          overlayFilter := Filter(lightsOff, Tinted(frameIndex % 7));
        } else if lightsOff {
          overlayFilter := Filter(true, Plain);
        } else {
          overlayFilter := NO_FILTER;
        }
      }
    }

    /** Removes the earliest pending timer as the browser does when it fires, and moves the clock to it. */
    method TakeEarliest() returns (t: Timer<Event>)
      requires Valid() && pending != []
      modifies this`pending, this`now
      ensures Valid()
      ensures t == old(pending[Earliest(pending)]) && now == t.due
      ensures t.event == Tick ==> loopInterval == Some(t.id)
      ensures t.event != Tick ==> manualActive
      ensures pending == AfterFire(old(pending), Earliest(old(pending)))
    {
      var k := Earliest(pending);
      t := pending[k];
      WfFire(pending, now, nextId);
      PendingOkFire(pending, now, nextId, loopInterval, manualTimers);
      now := t.due;
      pending := AfterFire(pending, k);
    }

    /** The loop's tick: the next frame, wrapping after the seventh, in its colour. */
    method OnTick(lightsOff: bool)
      requires Valid() && loopInterval.Some?
      modifies this`frameIndex, this`overlayShown, this`overlayImage, this`overlayFilter, this`hotDogFilter
      ensures Valid()
      ensures frameIndex == (old(frameIndex) + 1) % 7 && overlayShown && overlayImage == Dance(frameIndex)
      ensures overlayFilter == Filter(lightsOff, Tinted(frameIndex)) && hotDogFilter == Filter(lightsOff, Plain)
    {
      ApplyFrame((frameIndex + 1) % 7, lightsOff);
    }

    /**
     * A click frame's timeout: frame `idx % 7` is shown, coloured while music
     * plays and otherwise with no overlay filter at all, whatever the lights.
     */
    method OnClickFrame(idx: nat, lightsOff: bool)
      requires Valid() && manualActive
      modifies this`frameIndex, this`overlayShown, this`overlayImage, this`overlayFilter, this`hotDogFilter
      ensures Valid()
      ensures frameIndex == idx % 7 && overlayShown && overlayImage == Dance(frameIndex)
      ensures hotDogFilter == Filter(lightsOff, Plain)
      ensures overlayFilter == if musicActive then Filter(lightsOff, Tinted(frameIndex)) else NO_FILTER
    {
      frameIndex := idx % 7;
      overlayShown := true;
      overlayImage := Dance(frameIndex);
      ApplyBaseFilter(lightsOff);
      if musicActive {
        overlayFilter := Filter(lightsOff, Tinted(frameIndex % 7));
      } else {
        overlayFilter := NO_FILTER;
      }
    }

    /**
     * The browser fires the earliest pending hot dog timer: a tick advances the
     * loop, a click frame shows its frame, and the completion ends the click run,
     * resuming the loop exactly when music was playing at the click.
     */
    method Fire(lightsOff: bool) returns (fired: Timer<Event>)
      requires Valid() && pending != []
      modifies this
      ensures Valid()
      ensures fired == old(pending[Earliest(pending)]) && now == fired.due
      ensures !fired.event.Finish? ==> pending == AfterFire(old(pending), Earliest(old(pending)))
      ensures fired.event == Tick ==>
        musicActive == old(musicActive) &&
        frameIndex == (old(frameIndex) + 1) % 7 && overlayShown && overlayImage == Dance(frameIndex) &&
        overlayFilter == Filter(lightsOff, Tinted(frameIndex)) && hotDogFilter == Filter(lightsOff, Plain)
      ensures fired.event.ClickFrame? ==>
        manualActive && musicActive == old(musicActive) &&
        frameIndex == fired.event.index % 7 && overlayShown && overlayImage == Dance(frameIndex) &&
        hotDogFilter == Filter(lightsOff, Plain) &&
        overlayFilter == if musicActive then Filter(lightsOff, Tinted(frameIndex)) else NO_FILTER
      ensures fired.event.Finish? ==>
        !manualActive && manualTimers == [] && (fired.event.resume ==> musicActive && loopInterval.Some?) &&
        (fired.event.resume && old(loopInterval).None? ==>
          loopInterval == Some(old(nextId)) && overlayShown && overlayImage == Dance(frameIndex) &&
          frameIndex == old(frameIndex) && overlayFilter == Filter(lightsOff, Tinted(frameIndex))) &&
        (!fired.event.resume ==>
          musicActive == old(musicActive) && loopInterval == old(loopInterval) &&
          !overlayShown && overlayImage == Base && overlayFilter == NO_FILTER) &&
        (hotDogFilter == Filter(lightsOff, Plain) ||
          (fired.event.resume && old(loopInterval).Some? && hotDogFilter == old(hotDogFilter)))
    {
      fired := TakeEarliest();
      match fired.event
      case Tick =>
        OnTick(lightsOff);
      case ClickFrame(i) =>
        OnClickFrame(i, lightsOff);
      case Finish(resume) =>
        FinishManual(resume, lightsOff);
    }
  }
}

=== FILE: magpies.dfy ===
/**
 * The magpies on the credits page: each click plays the next of six speech
 * sequences and the sixth, longer one ends with the magpies back at the first.
 * Clicks during a sequence are ignored. The sixth sequence also drives the
 * overlay picture, the scene dimmer and a one-second earthquake.
 */
module Magpies {
  import opened Timers
  import Ring

  /** The pictures the magpies and their overlay can show. */
  datatype Pic =
    | Base | One | OnePointFive | Two | Three | ThreePointFive | Four | Five
    | FivePointFive | Mum | StopSign | Drongo | Six | Seven | Eight

  const BASE_SRC := "assets/magpies.png"

  /** The file a picture is loaded from. */
  function Src(p: Pic): (src: string)
    ensures p == Base <==> src == BASE_SRC
  {
    match p
    case Base => BASE_SRC
    case One => "assets/magpie-speech-one.png"
    case OnePointFive => "assets/magpie-speech-onepointfive.png"
    case Two => "assets/magpie-speech-two.png"
    case Three => "assets/magpie-speech-three.png"
    case ThreePointFive => "assets/magpie-speech-threepointfive.png"
    case Four => "assets/magpie-speech-four.png"
    case Five => "assets/magpie-speech-five.png"
    case FivePointFive => "assets/magpie-speech-fivepointfive.png"
    case Mum => "assets/magpie-mum.png"
    case StopSign => "assets/magpie-stop.png"
    case Drongo => "assets/magpie-drongo.png"
    case Six => "assets/magpie-speech-six.png"
    case Seven => "assets/magpie-speech-seven.png"
    case Eight => "assets/magpie-speech-eight.png"
  }

  /** What a magpie timer does when it fires. */
  datatype Event =
    | Show(pic: Pic)    // a step: effects reset, the magpies show `pic`
    | Pause             // an empty callback of the sixth sequence, only spacing it out
    | BaseHideOverlay   // the magpies back to base, the overlay hidden
    | Quake             // the earthquake starts and its end is set one second later
    | QuakeOff          // the earthquake ends
    | MumLands          // the mum picture, on the overlay when there is one
    | StopGrows         // the stop picture, on the overlay when there is one; the scene dims
    | StopShakes        // the stop picture starts shaking
    | DrongoCuts        // the scene undims and the drongo picture replaces the stop
    | BaseAll           // the magpies back to base, overlay and dimmer hidden
    | Done              // the sequence ends: base picture, not busy, next stage

  /** Number of click sequences (`seq.length`). */
  const STAGE_COUNT := 6
  /** How long the earthquake lasts. */
  const QUAKE_MS := 1000

  /** The frames of the five `chain` sequences, one per click stage 0..4. */
  const CHAINS: seq<seq<Frame<Event>>> := [
    [Frame(Show(One), 2000), Frame(Show(Base), 1000), Frame(Show(OnePointFive), 1000)],
    [Frame(Show(Two), 2000)],
    [Frame(Show(Three), 2000), Frame(Show(ThreePointFive), 2000)],
    [Frame(Show(Four), 1000)],
    [Frame(Show(Five), 2000)]
  ]

  /** A speech of the sixth sequence: the picture now, the next callback two seconds later. */
  function Speech(p: Pic): (frames: seq<Frame<Event>>)
  {
    [Frame(Show(p), 0), Frame(Pause, 2000)]
  }

  /**
   * The sixth sequence as its `add(callback, delay)` calls, group by group: each
   * callback is set at the running offset and the offset then grows by the delay.
   */
  const FIVE_POINT_FIVE: seq<Frame<Event>> := [Frame(Show(FivePointFive), 0), Frame(Pause, 3000)]
  const QUAKE_STEPS: seq<Frame<Event>> := [Frame(BaseHideOverlay, 0), Frame(Quake, 0), Frame(Pause, 1000)]
  const MUM_STEPS: seq<Frame<Event>> := [Frame(MumLands, 0), Frame(Pause, 2000)]
  const STOP_STEPS: seq<Frame<Event>> :=
    [Frame(StopGrows, 0), Frame(StopShakes, 2000), Frame(DrongoCuts, 2000), Frame(Pause, 2000)]
  const BACK_STEPS: seq<Frame<Event>> := [Frame(BaseAll, 0), Frame(Pause, 0)]
  const SPECIAL: seq<Frame<Event>> :=
    FIVE_POINT_FIVE + QUAKE_STEPS + MUM_STEPS + STOP_STEPS + BACK_STEPS + Speech(Six) + Speech(Seven) + Speech(Eight)

  /** The frames a click plays at `stage`: `seq[stage]`. */
  function StageFrames(stage: nat): seq<Frame<Event>>
    requires stage < STAGE_COUNT
  {
    if stage < 5 then CHAINS[stage] else SPECIAL
  }

  /**
   * Frame lists a click may play: nonempty, the last frame held for some time
   * (so every frame falls due before the end), the end and the earthquake's end
   * set only by the sequencer, and every earthquake over before the end.
   */
  ghost predicate FramesOk(frames: seq<Frame<Event>>)
  {
    frames != [] && frames[|frames| - 1].hold > 0 &&
    forall i :: 0 <= i < |frames| ==>
      frames[i].event != Done && frames[i].event != QuakeOff &&
      (frames[i].event == Quake ==> Duration(frames[..i]) + QUAKE_MS < Duration(frames))
  }

  lemma DurationOne(f: Frame<Event>)
    ensures Duration([f]) == f.hold
  {
    assert [f][1..] == [];
  }

  lemma DurationCons(f: Frame<Event>, rest: seq<Frame<Event>>)
    ensures Duration([f] + rest) == f.hold + Duration(rest)
  {
    assert ([f] + rest)[1..] == rest;
  }

  /** The hold of each group of `add` calls of the sixth sequence. */
  lemma GroupDurations(p: Pic)
    ensures Duration(FIVE_POINT_FIVE) == 3000 && Duration(QUAKE_STEPS) == 1000
    ensures Duration(MUM_STEPS) == 2000 && Duration(STOP_STEPS) == 6000
    ensures Duration(BACK_STEPS) == 0 && Duration(Speech(p)) == 2000
  {
    var x := Frame(Pause, 2000);
    DurationOne(x);
    DurationCons(Frame(Show(p), 0), [x]);
    assert Speech(p) == [Frame(Show(p), 0)] + [x];
    DurationCons(Frame(Show(FivePointFive), 0), [Frame(Pause, 3000)]);
    DurationOne(Frame(Pause, 3000));
    assert FIVE_POINT_FIVE == [Frame(Show(FivePointFive), 0)] + [Frame(Pause, 3000)];
    DurationOne(Frame(Pause, 1000));
    DurationCons(Frame(Quake, 0), [Frame(Pause, 1000)]);
    DurationCons(Frame(BaseHideOverlay, 0), [Frame(Quake, 0), Frame(Pause, 1000)]);
    assert QUAKE_STEPS == [Frame(BaseHideOverlay, 0)] + ([Frame(Quake, 0)] + [Frame(Pause, 1000)]);
    DurationCons(Frame(MumLands, 0), [x]);
    assert MUM_STEPS == [Frame(MumLands, 0)] + [x];
    DurationCons(Frame(DrongoCuts, 2000), [x]);
    DurationCons(Frame(StopShakes, 2000), [Frame(DrongoCuts, 2000), x]);
    DurationCons(Frame(StopGrows, 0), [Frame(StopShakes, 2000), Frame(DrongoCuts, 2000), x]);
    assert STOP_STEPS == [Frame(StopGrows, 0)] + ([Frame(StopShakes, 2000)] + ([Frame(DrongoCuts, 2000)] + [x]));
    DurationOne(Frame(Pause, 0));
    DurationCons(Frame(BaseAll, 0), [Frame(Pause, 0)]);
    assert BACK_STEPS == [Frame(BaseAll, 0)] + [Frame(Pause, 0)];
  }

  /** The sixth sequence ends 18 s after the click. */
  lemma SpecialDuration()
    ensures Duration(SPECIAL) == 18000
  {
    GroupDurations(Six);
    GroupDurations(Seven);
    GroupDurations(Eight);
    var a := FIVE_POINT_FIVE + QUAKE_STEPS;
    var b := a + MUM_STEPS;
    var c := b + STOP_STEPS;
    var d := c + BACK_STEPS;
    var e := d + Speech(Six);
    var f := e + Speech(Seven);
    DurationAppend(FIVE_POINT_FIVE, QUAKE_STEPS);
    DurationAppend(a, MUM_STEPS);
    DurationAppend(b, STOP_STEPS);
    DurationAppend(c, BACK_STEPS);
    DurationAppend(d, Speech(Six));
    DurationAppend(e, Speech(Seven));
    DurationAppend(f, Speech(Eight));
  }

  /** The sixth sequence sets neither the end nor the earthquake's end itself, and starts the earthquake once, fourth. */
  lemma SpecialEvents()
    ensures forall i :: 0 <= i < |SPECIAL| ==>
      SPECIAL[i].event != Done && SPECIAL[i].event != QuakeOff && (SPECIAL[i].event == Quake ==> i == 3)
  {
  }

  /** The earthquake starts 3 s into the sixth sequence. */
  lemma SpecialQuakeAt()
    ensures Duration(SPECIAL[..3]) == 3000
  {
    GroupDurations(Six);
    var rest := MUM_STEPS + STOP_STEPS + BACK_STEPS + Speech(Six) + Speech(Seven) + Speech(Eight);
    assert SPECIAL == FIVE_POINT_FIVE + QUAKE_STEPS + rest;
    assert SPECIAL[..3] == FIVE_POINT_FIVE + [Frame(BaseHideOverlay, 0)];
    DurationAppend(FIVE_POINT_FIVE, [Frame(BaseHideOverlay, 0)]);
    DurationOne(Frame(BaseHideOverlay, 0));
  }

  /** Every frame of the sixth sequence falls due before its end, and the earthquake is over by then. */
  lemma SpecialFramesOk()
    ensures FramesOk(SPECIAL)
  {
    SpecialDuration();
    SpecialEvents();
    SpecialQuakeAt();
  }

  /** Every click sequence can be played: its frames end before its `Done` and its earthquake ends in time. */
  lemma StagesOk(stage: nat)
    requires stage < STAGE_COUNT
    ensures FramesOk(StageFrames(stage))
  {
    if stage == 5 {
      SpecialFramesOk();
    }
  }

  /**
   * What the page shows: the magpies' picture, the overlay's picture and
   * whether it is displayed, and whether the scene dimmer is displayed.
   */
  datatype Scene = Scene(image: Pic, overlayPic: Pic, overlayShown: bool, dimShown: bool)

  /**
   * How a callback changes the scene. Pictures meant for the overlay go to the
   * magpies when the page has no overlay; the dimmer only shows when the page has one.
   */
  function Render(s: Scene, e: Event, hasOverlay: bool, hasDim: bool): (r: Scene)
    ensures !hasOverlay && !s.overlayShown ==> !r.overlayShown
    ensures !hasDim && !s.dimShown ==> !r.dimShown
    ensures e.Show? ==> r == s.(image := e.pic)
    ensures e == BaseAll ==> r.image == Base && (hasOverlay ==> !r.overlayShown) && (hasDim ==> !r.dimShown)
    ensures e == Done ==> r == s.(image := Base)
  {
    match e
    case Show(p) => s.(image := p)
    case BaseHideOverlay => s.(image := Base, overlayShown := s.overlayShown && !hasOverlay)
    case MumLands =>
      if hasOverlay then s.(overlayPic := Mum, overlayShown := true) else s.(image := Mum)
    case StopGrows =>
      var t := if hasOverlay then s.(overlayPic := StopSign, overlayShown := true) else s.(image := StopSign);
      t.(dimShown := t.dimShown || hasDim)
    case DrongoCuts =>
      var t := s.(dimShown := s.dimShown && !hasDim);
      if hasOverlay then t.(overlayPic := Drongo, overlayShown := true) else t.(image := Drongo)
    case BaseAll =>
      s.(image := Base, overlayShown := s.overlayShown && !hasOverlay, dimShown := s.dimShown && !hasDim)
    case Done => s.(image := Base)
    case _ => s
  }

  /** The scene after the callbacks of `frames` run in their order. */
  function SceneAfter(s: Scene, frames: seq<Frame<Event>>, hasOverlay: bool, hasDim: bool): Scene
    decreases |frames|
  {
    if frames == [] then s else SceneAfter(Render(s, frames[0].event, hasOverlay, hasDim), frames[1..], hasOverlay, hasDim)
  }

  lemma {:induction false} SceneAfterAppend(s: Scene, a: seq<Frame<Event>>, b: seq<Frame<Event>>, hasOverlay: bool, hasDim: bool)
    ensures SceneAfter(s, a + b, hasOverlay, hasDim) == SceneAfter(SceneAfter(s, a, hasOverlay, hasDim), b, hasOverlay, hasDim)
    decreases |a|
  {
    if a == [] {
      assert a + b == b;
    } else {
      assert (a + b)[1..] == a[1..] + b;
      SceneAfterAppend(Render(s, a[0].event, hasOverlay, hasDim), a[1..], b, hasOverlay, hasDim);
    }
  }

  lemma SceneAfterTwo(s: Scene, f: Frame<Event>, g: Frame<Event>, hasOverlay: bool, hasDim: bool)
    ensures SceneAfter(s, [f, g], hasOverlay, hasDim)
         == Render(Render(s, f.event, hasOverlay, hasDim), g.event, hasOverlay, hasDim)
  {
    var r1 := Render(s, f.event, hasOverlay, hasDim);
    assert [f, g][1..] == [g];
    assert SceneAfter(s, [f, g], hasOverlay, hasDim) == SceneAfter(r1, [g], hasOverlay, hasDim);
    assert [g][1..] == [];
    assert SceneAfter(r1, [g], hasOverlay, hasDim) == SceneAfter(Render(r1, g.event, hasOverlay, hasDim), [], hasOverlay, hasDim);
  }

  /** A page without an overlay never displays it, and one without a dimmer never dims. */
  lemma {:induction false} AbsentStaysHidden(s: Scene, frames: seq<Frame<Event>>, hasOverlay: bool, hasDim: bool)
    ensures !hasOverlay ==> SceneAfter(s, frames, hasOverlay, hasDim).overlayShown == s.overlayShown
    ensures !hasDim ==> SceneAfter(s, frames, hasOverlay, hasDim).dimShown == s.dimShown
    decreases |frames|
  {
    if frames != [] {
      AbsentStaysHidden(Render(s, frames[0].event, hasOverlay, hasDim), frames[1..], hasOverlay, hasDim);
    }
  }

  /** The last groups of the sixth sequence: everything back to base, then the three speeches. */
  lemma TailScene(m: Scene, hasOverlay: bool, hasDim: bool)
    ensures SceneAfter(m, BACK_STEPS + Speech(Six) + Speech(Seven) + Speech(Eight), hasOverlay, hasDim)
         == m.(image := Eight, overlayShown := m.overlayShown && !hasOverlay, dimShown := m.dimShown && !hasDim)
  {
    var b := SceneAfter(m, BACK_STEPS, hasOverlay, hasDim);
    SceneAfterTwo(m, Frame(BaseAll, 0), Frame(Pause, 0), hasOverlay, hasDim);
    SceneAfterAppend(m, BACK_STEPS + Speech(Six) + Speech(Seven), Speech(Eight), hasOverlay, hasDim);
    SceneAfterAppend(m, BACK_STEPS + Speech(Six), Speech(Seven), hasOverlay, hasDim);
    SceneAfterAppend(m, BACK_STEPS, Speech(Six), hasOverlay, hasDim);
    var c := SceneAfter(b, Speech(Six), hasOverlay, hasDim);
    SceneAfterTwo(b, Frame(Show(Six), 0), Frame(Pause, 2000), hasOverlay, hasDim);
    var d := SceneAfter(c, Speech(Seven), hasOverlay, hasDim);
    SceneAfterTwo(c, Frame(Show(Seven), 0), Frame(Pause, 2000), hasOverlay, hasDim);
    SceneAfterTwo(d, Frame(Show(Eight), 0), Frame(Pause, 2000), hasOverlay, hasDim);
  }

  /**
   * Whatever the scene before it, the sixth sequence's callbacks, in timeline
   * order, leave the overlay hidden, the scene undimmed and the last speech on
   * the magpies (the end then puts the base picture back); on a page without an
   * overlay or a dimmer, those stay as they were.
   */
  lemma SpecialLeavesSceneClean(s: Scene, hasOverlay: bool, hasDim: bool)
    ensures var r := SceneAfter(s, SPECIAL, hasOverlay, hasDim);
      r.image == Eight && r.overlayShown == (s.overlayShown && !hasOverlay) && r.dimShown == (s.dimShown && !hasDim)
  {
    var head := FIVE_POINT_FIVE + QUAKE_STEPS + MUM_STEPS + STOP_STEPS;
    var tail := BACK_STEPS + Speech(Six) + Speech(Seven) + Speech(Eight);
    assert SPECIAL == head + tail;
    SceneAfterAppend(s, head, tail, hasOverlay, hasDim);
    AbsentStaysHidden(s, head, hasOverlay, hasDim);
    TailScene(SceneAfter(s, head, hasOverlay, hasDim), hasOverlay, hasDim);
  }

  /**
   * One pending magpie timer: a listed timeout; the end is the timer `doneId`,
   * due at `doneDue`; every other timer is due strictly before the end, and an
   * earthquake start early enough for its end to come before it too.
   */
  ghost predicate TimerOk(t: Timer<Event>, timers: seq<nat>, doneId: nat, doneDue: nat)
  {
    t.period == 0 && t.id in timers &&
    (t.event == Done ==> t.id == doneId && t.due == doneDue) &&
    (t.event != Done ==> t.due < doneDue) &&
    (t.event == Quake ==> t.due + QUAKE_MS < doneDue)
  }

  ghost predicate PendingOk(q: seq<Timer<Event>>, timers: seq<nat>, doneId: nat, doneDue: nat)
  {
    forall i :: 0 <= i < |q| ==> TimerOk(q[i], timers, doneId, doneDue)
  }

  lemma PrefixHold(frames: seq<Frame<Event>>, k: nat)
    requires k < |frames|
    ensures Duration(frames[..k + 1]) == Duration(frames[..k]) + frames[k].hold
  {
    assert frames[..k + 1] == frames[..k] + [frames[k]];
    DurationSnoc(frames[..k], frames[k]);
  }

  /** A played frame list, as the click schedules it, relates to its end as required. */
  lemma PendingOkTimeline(firstId: nat, start: nat, frames: seq<Frame<Event>>)
    requires FramesOk(frames)
    ensures PendingOk(Timeline(firstId, start, frames, Done), IdList(Timeline(firstId, start, frames, Done)),
                      firstId + |frames|, start + Duration(frames))
  {
    var t := Timeline(firstId, start, frames, Done);
    TimelineAt(firstId, start, frames, Done);
    var n := |frames| - 1;
    assert frames[..n + 1] == frames;
    PrefixHold(frames, n);
    forall i | 0 <= i < |t| ensures TimerOk(t[i], IdList(t), firstId + |frames|, start + Duration(frames)) {
      assert t[i].id == IdList(t)[i];
      if i < |frames| {
        DurationPrefixMono(frames, i, n);
      }
    }
  }

  /**
   * Firing the earliest magpie timer keeps the relation; the timer that fires
   * is related too, and when the end fires nothing else is left pending.
   */
  lemma PendingOkFire(q: seq<Timer<Event>>, now: nat, nextId: nat, timers: seq<nat>, doneId: nat, doneDue: nat)
    requires Wf(q, now, nextId) && q != [] && PendingOk(q, timers, doneId, doneDue)
    ensures TimerOk(q[Earliest(q)], timers, doneId, doneDue)
    ensures PendingOk(AfterFire(q, Earliest(q)), timers, doneId, doneDue)
    ensures q[Earliest(q)].event == Done ==> AfterFire(q, Earliest(q)) == []
  {
    var k := Earliest(q);
    AfterFireFrom(q, k);
    var r := AfterFire(q, k);
    forall i | 0 <= i < |r| ensures TimerOk(r[i], timers, doneId, doneDue) {
      var j :| 0 <= j < |q| && q[j] == r[i];
    }
  }

  /** Adding an earthquake's end in time, listed, keeps the relation. */
  lemma PendingOkQuakeOff(q: seq<Timer<Event>>, timers: seq<nat>, doneId: nat, doneDue: nat, t: Timer<Event>)
    requires PendingOk(q, timers, doneId, doneDue)
    requires t.event == QuakeOff && t.period == 0 && t.due < doneDue
    ensures PendingOk(q + [t], timers + [t.id], doneId, doneDue)
  {
    forall i | 0 <= i < |q| + 1 ensures TimerOk((q + [t])[i], timers + [t.id], doneId, doneDue) {
      if i < |q| {
        assert TimerOk(q[i], timers, doneId, doneDue);
      }
    }
  }

  class MagpieStages {
    const hasOverlay: bool
    const hasDim: bool
    var scene: Scene
    /** The `earthquake` class on the page body. */
    var earthquake: bool
    var stage: nat
    var busy: bool
    /** The ids the current sequence pushed; fired ones stay listed until the next clear. */
    var timers: seq<nat>
    var now: nat
    var pending: seq<Timer<Event>>
    var nextId: nat
    /** The end of the current sequence: its timer's id and due time. */
    ghost var doneId: nat
    ghost var doneDue: nat

    ghost predicate TimersOk()
      reads this`pending, this`now, this`nextId, this`timers, this`doneId, this`doneDue
    {
      Wf(pending, now, nextId) && 1 <= nextId && PendingOk(pending, timers, doneId, doneDue)
    }

    /**
     * Between events: the stage names one of the six sequences, a page without
     * an overlay or a dimmer never shows it, and when no sequence is playing
     * nothing is pending.
     */
    ghost predicate Valid()
      reads this
    {
      TimersOk() && SceneOk() && (!busy ==> pending == [])
    }

    ghost predicate SceneOk()
      reads this`scene, this`stage
    {
      stage < STAGE_COUNT && (!hasOverlay ==> !scene.overlayShown) && (!hasDim ==> !scene.dimShown)
    }

    constructor (hasOverlay: bool, hasDim: bool)
      ensures Valid()
      ensures this.hasOverlay == hasOverlay && this.hasDim == hasDim
      ensures scene == Scene(Base, Base, false, false) && !earthquake
      ensures stage == 0 && !busy && timers == [] && pending == [] && now == 0 && nextId == 1
    {
      this.hasOverlay, this.hasDim := hasOverlay, hasDim;
      scene, earthquake := Scene(Base, Base, false, false), false;
      stage, busy, timers := 0, false, [];
      now, pending, nextId := 0, [], 1;
      doneId, doneDue := 0, 0;
    }

    /** Time passes with nothing due before `t`. */
    method AdvanceTo(t: nat)
      requires Valid() && now <= t
      requires forall i :: 0 <= i < |pending| ==> t <= pending[i].due
      modifies this`now
      ensures Valid() && now == t
    {
      now := t;
    }

    /** `clearTimers`: every listed id is cancelled, the list emptied and the earthquake ended. */
    method ClearTimers()
      requires TimersOk()
      modifies this`pending, this`timers, this`earthquake
      ensures Wf(pending, now, nextId) && pending == [] && timers == [] && !earthquake
    {
      var ids := set k | k in timers;
      assert Ids(pending) <= ids by {
        forall x | x in Ids(pending) ensures x in ids {
          var i :| 0 <= i < |pending| && pending[i].id == x;
          assert TimerOk(pending[i], timers, doneId, doneDue);
        }
      }
      CancelAll(pending, ids);
      WfCancel(pending, now, nextId, ids);
      pending := Cancel(pending, ids);
      timers := [];
      earthquake := false;
    }

    /**
     * `chain(steps)` and `specialSequence()`: busy at once, earlier timers
     * cleared, then one timeout per frame at its cumulative offset and the end
     * at the total, every id listed.
     */
    method Play(frames: seq<Frame<Event>>)
      requires Valid() && FramesOk(frames)
      modifies this`busy, this`pending, this`timers, this`earthquake, this`nextId, this`doneId, this`doneDue
      ensures Valid() && busy && !earthquake
      ensures pending == Timeline(old(nextId), now, frames, Done) && timers == IdList(pending)
      ensures nextId == old(nextId) + |frames| + 1
    {
      busy := true;
      ClearTimers();
      ScheduleRun(frames);
    }

    /** The scheduling loop of `chain` and `add`: the frames' timeline, every id listed. */
    method ScheduleRun(frames: seq<Frame<Event>>)
      requires Wf(pending, now, nextId) && 1 <= nextId && pending == [] && timers == [] && FramesOk(frames)
      modifies this`pending, this`timers, this`nextId, this`doneId, this`doneDue
      ensures TimersOk()
      ensures pending == Timeline(old(nextId), now, frames, Done) && timers == IdList(pending)
      ensures nextId == old(nextId) + |frames| + 1
    {
      WfTimeline(pending, now, nextId, now, frames, Done);
      PendingOkTimeline(nextId, now, frames);
      doneId, doneDue := nextId + |frames|, now + Duration(frames);
      var q, next, ids := ScheduleSequence(pending, nextId, now, frames, Done);
      pending, nextId, timers := q, next, ids;
    }

    /**
     * A click while a sequence plays does nothing; otherwise it plays the
     * sequence of the current stage.
     */
    method Click()
      requires Valid()
      modifies this`busy, this`pending, this`timers, this`earthquake, this`nextId, this`doneId, this`doneDue
      ensures Valid() && busy && stage == old(stage)
      ensures old(busy) ==>
        pending == old(pending) && timers == old(timers) && earthquake == old(earthquake) && nextId == old(nextId)
      ensures !old(busy) ==>
        pending == Timeline(old(nextId), now, StageFrames(stage), Done) && timers == IdList(pending) && !earthquake
    {
      if busy {
        return;
      }
      StagesOk(stage);
      Play(StageFrames(stage));
    }

    /** Removes the earliest pending timer as the browser does when it fires, and moves the clock to it. */
    method TakeEarliest() returns (t: Timer<Event>)
      requires Valid() && pending != []
      modifies this`pending, this`now
      ensures TimersOk()
      ensures t == old(pending[Earliest(pending)]) && now == t.due
      ensures pending == AfterFire(old(pending), Earliest(old(pending)))
      ensures TimerOk(t, timers, doneId, doneDue)
      ensures t.event == Done ==> pending == []
    {
      var k := Earliest(pending);
      t := pending[k];
      WfFire(pending, now, nextId);
      PendingOkFire(pending, now, nextId, timers, doneId, doneDue);
      now := t.due;
      pending := AfterFire(pending, k);
    }

    /** The earthquake callback: the class goes on and its removal is set, and listed, a second later. */
    method StartQuake()
      requires Valid() && busy && now + QUAKE_MS < doneDue
      modifies this`earthquake, this`pending, this`timers, this`nextId
      ensures Valid() && busy && earthquake
      ensures pending == old(pending) + [Timer(old(nextId), now + QUAKE_MS, 0, QuakeOff)]
      ensures timers == old(timers) + [old(nextId)] && nextId == old(nextId) + 1
    {
      var t := Timer(nextId, now + QUAKE_MS, 0, QuakeOff);
      WfAppend(pending, now, nextId, t);
      PendingOkQuakeOff(pending, timers, doneId, doneDue, t);
      pending, timers, nextId := pending + [t], timers + [nextId], nextId + 1;
      earthquake := true;
    }

    /**
     * The `Done` callback: the base picture is back, the magpies accept clicks
     * again and the stage moves to the next sequence, after the sixth back to the first.
     */
    method Finish()
      requires Valid() && pending == []
      modifies this`scene, this`busy, this`stage
      ensures Valid() && !busy
      ensures scene == old(scene).(image := Base)
      ensures stage == Ring.Next(old(stage), STAGE_COUNT)
    {
      scene := scene.(image := Base);
      busy := false;
      stage := Ring.Next(stage, STAGE_COUNT);
    }

    /**
     * The browser fires the earliest pending magpie timer. Its callback renders
     * the scene; the earthquake's start and end switch the body class; the end
     * of a sequence leaves nothing pending, ends the busy state and advances the stage.
     */
    method Fire() returns (t: Timer<Event>)
      requires Valid() && pending != []
      modifies this`scene, this`earthquake, this`busy, this`stage, this`timers, this`now, this`pending, this`nextId
      ensures Valid()
      ensures t == old(pending[Earliest(pending)]) && now == t.due
      ensures scene == Render(old(scene), t.event, hasOverlay, hasDim)
      ensures busy == (t.event != Done)
      ensures stage == if t.event == Done then Ring.Next(old(stage), STAGE_COUNT) else old(stage)
      ensures earthquake == if t.event == Quake then true else if t.event == QuakeOff then false else old(earthquake)
      ensures pending == AfterFire(old(pending), Earliest(old(pending))) +
        (if t.event == Quake then [Timer(old(nextId), now + QUAKE_MS, 0, QuakeOff)] else [])
      ensures t.event == Done ==> pending == []
    {
      t := TakeEarliest();
      if t.event == Done {
        Finish();
      } else if t.event == Quake {
        StartQuake();
      } else if t.event == QuakeOff {
        EndQuake();
      } else {
        Display(t.event);
      }
    }

    /** The earthquake's end: the body class goes off. */
    method EndQuake()
      requires Valid()
      modifies this`earthquake
      ensures Valid() && !earthquake
    {
      earthquake := false;
    }

    /** A callback that only changes what the page shows. */
    method Display(e: Event)
      requires Valid()
      modifies this`scene
      ensures Valid() && scene == Render(old(scene), e, hasOverlay, hasDim)
    {
      scene := Render(scene, e, hasOverlay, hasDim);
    }
  }

  /** Six completed sequences bring the magpies back to the stage they started from. */
  lemma SixSequencesComeBack(stage: nat)
    requires stage < STAGE_COUNT
    ensures Ring.Advance(stage, STAGE_COUNT, STAGE_COUNT) == stage
  {
    Ring.FullTurn(stage, STAGE_COUNT);
  }
}

=== FILE: meleaning.dfy ===
/**
 * The leaning figure on the credits page: a click shows two speech bubbles,
 * two seconds each, then the plain figure again. Clicks during the speech are
 * ignored.
 */
module MeLeaning {
  import opened Timers

  const BASE_SRC := "assets/me-leaning.png"
  const SPEECH_SRCS := ["assets/me-leaning-speech-one.png", "assets/me-leaning-speech-two.png"]

  /** A picture the figure shows: the plain figure, or speech frame `index`. */
  datatype Image = Base | Speech(index: nat)

  /**
   * The file a picture is loaded from. Only the plain figure loads `BASE_SRC`; an
   * index past the table, which no caller uses, falls back to it.
   */
  function Src(img: Image): (src: string)
    ensures img.Speech? && img.index < |SPEECH_SRCS| ==> src == SPEECH_SRCS[img.index]
    ensures src == BASE_SRC <==> !(img.Speech? && img.index < |SPEECH_SRCS|)
  {
    match img
    case Base => BASE_SRC
    case Speech(i) => if i < |SPEECH_SRCS| then SPEECH_SRCS[i] else BASE_SRC
  }

  /** The pictures the widget uses: the plain figure and the frames of its table. */
  predicate InRange(img: Image)
  {
    img.Base? || img.index < |SPEECH_SRCS|
  }

  /** Distinct pictures in use load distinct files, so the file on the page tells which picture shows. */
  lemma SrcInjective(a: Image, b: Image)
    requires InRange(a) && InRange(b)
    ensures Src(a) == Src(b) <==> a == b
  {
  }

  /** What a timer does when it fires. */
  datatype Event =
    | Show(img: Image)  // a frame callback
    | Reset             // the final callback, `reset`

  /** The speech frames and how long each is held. */
  const FRAMES: seq<Frame<Event>> := [
    Frame(Show(Speech(0)), 2000),
    Frame(Show(Speech(1)), 2000)
  ]

  /** The speech timeline: the first bubble at once, the second at 2000 ms, the plain figure at 4000 ms. */
  lemma SpeechTimeline(firstId: nat, start: nat)
    ensures Timeline(firstId, start, FRAMES, Reset) == [
      Timer(firstId, start, 0, Show(Speech(0))),
      Timer(firstId + 1, start + 2000, 0, Show(Speech(1))),
      Timer(firstId + 2, start + 4000, 0, Reset)
    ]
  {
    assert FRAMES[1..][1..] == [];
  }

  class Figure {
    var image: Image
    var active: bool
    /** The ids the click pushed; fired ones stay listed until the next clear. */
    var timers: seq<nat>
    var now: nat
    var pending: seq<Timer<Event>>
    var nextId: nat

    /** The timer bookkeeping: every pending timer is a timeout listed in `timers`. */
    ghost predicate TimersOk()
      reads this`pending, this`now, this`nextId, this`timers
    {
      Wf(pending, now, nextId) && 1 <= nextId &&
      forall i :: 0 <= i < |pending| ==> pending[i].period == 0 && pending[i].id in timers
    }

    /** Between events: an idle figure has nothing pending and nothing listed. */
    ghost predicate Valid()
      reads this
    {
      TimersOk() && (!active ==> pending == [] && timers == [])
    }

    constructor ()
      ensures Valid()
      ensures image == Base && !active && timers == [] && pending == [] && now == 0 && nextId == 1
    {
      image, active, timers := Base, false, [];
      now, pending, nextId := 0, [], 1;
    }

    /** Time passes with nothing due before `t`. */
    method AdvanceTo(t: nat)
      requires Valid() && now <= t
      requires forall i :: 0 <= i < |pending| ==> t <= pending[i].due
      modifies this`now
      ensures Valid() && now == t
    {
      now := t;
    }

    /** `clearTimers`: every listed id is cancelled, so nothing stays pending, and the list is emptied. */
    method ClearTimers()
      requires TimersOk()
      modifies this`pending, this`timers
      ensures TimersOk()
      ensures pending == [] && timers == []
    {
      var ids := set k | k in timers;
      assert Ids(pending) <= ids by {
        forall x | x in Ids(pending) ensures x in ids {
          var i :| 0 <= i < |pending| && pending[i].id == x;
        }
      }
      CancelAll(pending, ids);
      WfCancel(pending, now, nextId, ids);
      pending := Cancel(pending, ids);
      timers := [];
    }

    /** `reset`: the plain figure is back, nothing stays scheduled and clicks are accepted again. */
    method ResetFigure()
      requires TimersOk()
      modifies this`pending, this`timers, this`image, this`active
      ensures Valid()
      ensures image == Base && !active && pending == [] && timers == []
    {
      image := Base;
      ClearTimers();
      active := false;
    }

    /**
     * A click while the speech runs schedules nothing. Otherwise the figure is
     * busy at once and the whole speech timeline is pending and listed: frame i
     * at `now` plus the holds before it, the reset at `now + 4000`.
     */
    method Click()
      requires Valid()
      modifies this`active, this`pending, this`nextId, this`timers
      ensures Valid() && active
      ensures old(active) ==>
        pending == old(pending) && timers == old(timers) && nextId == old(nextId)
      ensures !old(active) ==>
        pending == Timeline(old(nextId), now, FRAMES, Reset) &&
        timers == IdList(pending) &&
        nextId == old(nextId) + |FRAMES| + 1
    {
      if active {
        return;
      }
      active := true;
      ClearTimers();
      ScheduleSpeech();
    }

    /** The click's scheduling loop: the speech timeline, every id pushed to `timers`. */
    method ScheduleSpeech()
      requires TimersOk() && pending == [] && timers == []
      modifies this`pending, this`nextId, this`timers
      ensures TimersOk()
      ensures pending == Timeline(old(nextId), now, FRAMES, Reset) && nextId == old(nextId) + |FRAMES| + 1
      ensures timers == IdList(pending)
    {
      WfTimeline(pending, now, nextId, now, FRAMES, Reset);
      TimelineAt(nextId, now, FRAMES, Reset);
      var ids;
      pending, nextId, ids := ScheduleSequence(pending, nextId, now, FRAMES, Reset);
      timers := ids;
    }

    /**
     * The browser fires the earliest pending timeout. A frame shows its bubble
     * and its id stays listed; the reset returns the plain figure and cancels the rest.
     */
    method Fire()
      requires Valid() && pending != []
      modifies this`now, this`pending, this`timers, this`image, this`active
      ensures Valid()
      ensures var t := old(pending[Earliest(pending)]);
        now == t.due &&
        (t.event.Show? ==> image == t.event.img && active == old(active) && timers == old(timers) &&
                           pending == AfterFire(old(pending), old(Earliest(pending)))) &&
        (t.event.Reset? ==> image == Base && !active && pending == [] && timers == [])
    {
      var k := Earliest(pending);
      var t := pending[k];
      WfFire(pending, now, nextId);
      AfterFireFrom(pending, k);
      now := t.due;
      pending := AfterFire(pending, k);
      match t.event
      case Show(img) =>
        image := img;
      case Reset =>
        ResetFigure();
    }
  }

  /** The browser fires the timeout at the head of the pending list, the one due first. */
  method FireHead(f: Figure) returns (seen: (nat, Image))
    requires f.Valid() && f.pending != [] && f.pending[0].period == 0
    requires forall j :: 0 <= j < |f.pending| ==> f.pending[0].due <= f.pending[j].due
    modifies f
    ensures f.Valid() && f.now == old(f.pending[0].due) && seen == (f.now, f.image)
    ensures old(f.pending[0].event).Show? ==>
      f.image == old(f.pending[0].event.img) && f.pending == old(f.pending[1..]) && f.active == old(f.active)
    ensures old(f.pending[0].event).Reset? ==>
      f.image == Base && !f.active && f.pending == [] && f.timers == []
  {
    EarliestFirst(f.pending);
    assert f.pending[..0] + f.pending[1..] == f.pending[1..];
    f.Fire();
    seen := (f.now, f.image);
  }

  /**
   * A click on an idle figure followed by the three firings: the bubbles at
   * `now` and `now + 2000`, and the plain figure back, idle, at `now + 4000`.
   */
  method ClickAndWait(f: Figure) returns (shown: seq<(nat, Image)>)
    requires f.Valid() && !f.active
    modifies f
    ensures f.Valid() && !f.active && f.pending == [] && f.timers == [] && f.image == Base
    ensures shown == [(old(f.now), Speech(0)), (old(f.now) + 2000, Speech(1)), (old(f.now) + 4000, Base)]
  {
    var start := f.now;
    var first := f.nextId;
    f.Click();
    SpeechTimeline(first, start);
    var a := FireHead(f);
    var b := FireHead(f);
    var c := FireHead(f);
    shown := [a, b, c];
  }
}

=== FILE: plant.dfy ===
/**
 * The plant: a click plays the bloom sequence once and returns to the plain
 * plant; while music plays it cycles four dance pictures on a beat interval
 * and ignores clicks. Its mode is `idle`, `bloom` or `music`.
 */
module Plant {
  import opened Timers

  /** A picture the plant shows. */
  datatype Image = Default | MidFlower | Flowered | DanceOne | DanceTwo

  /** The file a plant picture is loaded from. */
  function Src(img: Image): (src: string)
    ensures img == Default <==> src == "assets/plant.png"
  {
    match img
    case Default => "assets/plant.png"
    case MidFlower => "assets/plant-mid-flower.png"
    case Flowered => "assets/plant-flowered.png"
    case DanceOne => "assets/plant-dance-one.png"
    case DanceTwo => "assets/plant-dance-two.png"
  }

  /** One step of the bloom: a picture and how long it stays. */
  datatype BloomStep = BloomStep(image: Image, duration: nat)

  const BLOOM_SEQUENCE: seq<BloomStep> := [
    BloomStep(MidFlower, 1000),
    BloomStep(Flowered, 2000),
    BloomStep(DanceOne, 500),
    BloomStep(DanceTwo, 500),
    BloomStep(DanceOne, 500),
    BloomStep(Flowered, 500),
    BloomStep(DanceOne, 500),
    BloomStep(DanceTwo, 500),
    BloomStep(DanceOne, 500),
    BloomStep(Flowered, 500),
    BloomStep(MidFlower, 500)
  ]

  const MUSIC_FRAMES: seq<Image> := [Flowered, DanceOne, DanceTwo, DanceOne]

  /** The shortest beat interval, in ms. */
  const MIN_INTERVAL := 200

  datatype Mode = Idle | Bloom | Music

  /** What a plant timer does when it fires. */
  datatype Event =
    | Beat               // the music interval callback
    | Show(image: Image) // a bloom frame callback
    | BloomDone          // the bloom's final callback

  /**
   * The timeouts a click schedules: every bloom step after the first, which is
   * shown at once, each held its own duration.
   */
  function BloomRun(steps: seq<BloomStep>): (run: seq<Frame<Event>>)
    requires steps != []
    ensures |run| == |steps| - 1
    ensures forall i :: 0 <= i < |run| ==> run[i] == Frame(Show(steps[i + 1].image), steps[i + 1].duration)
  {
    seq(|steps| - 1, i requires 0 <= i < |steps| - 1 => Frame(Show(steps[i + 1].image), steps[i + 1].duration))
  }

  /** The bloom timeline for the actual sequence: its fixed offsets and the return to idle at 7500 ms. */
  lemma BloomTimelineAt(firstId: nat, now: nat)
    ensures var tl := Timeline(firstId, now + 1000, BloomRun(BLOOM_SEQUENCE), BloomDone);
      |tl| == 11 &&
      tl[0] == Timer(firstId, now + 1000, 0, Show(Flowered)) &&
      tl[1] == Timer(firstId + 1, now + 3000, 0, Show(DanceOne)) &&
      tl[9] == Timer(firstId + 9, now + 7000, 0, Show(MidFlower)) &&
      tl[10] == Timer(firstId + 10, now + 7500, 0, BloomDone)
  {
    var run := BloomRun(BLOOM_SEQUENCE);
    TimelineAt(firstId, now + 1000, run, BloomDone);
    assert run[..0] == [];
    assert run[..1] == [run[0]] && [run[0]][1..] == [];
    DurationAppend(run[..9], [run[9]]);
    assert run[..9] + [run[9]] == run;
    BloomRunDuration9();
  }

  /** The holds of the first nine scheduled steps add up to 6000 ms. */
  lemma BloomRunDuration9()
    ensures Duration(BloomRun(BLOOM_SEQUENCE)[..9]) == 6000
  {
    var run := BloomRun(BLOOM_SEQUENCE);
    var h := run[..9];
    assert h[0].hold == 2000;
    assert forall i :: 1 <= i < 9 ==> h[i].hold == 500;
    EvenSuffix(h[1..]);
  }

  /** A list whose frames all hold 500 ms lasts 500 ms per frame. */
  lemma {:induction false} EvenSuffix(h: seq<Frame<Event>>)
    requires forall i :: 0 <= i < |h| ==> h[i].hold == 500
    ensures Duration(h) == 500 * |h|
    decreases |h|
  {
    if h != [] {
      EvenSuffix(h[1..]);
    }
  }

  /**
   * How the plant's timers relate to its state: the music interval is the only
   * beating timer, never faster than the minimum; every other pending timer is
   * a bloom timeout listed in `bloom`.
   */
  ghost predicate PendingOk(q: seq<Timer<Event>>, music: Option<nat>, bloom: seq<nat>)
  {
    (forall i :: 0 <= i < |q| ==>
       (q[i].event == Beat <==> music == Some(q[i].id)) &&
       (q[i].event == Beat ==> q[i].period >= MIN_INTERVAL) &&
       (q[i].event != Beat ==> q[i].period == 0 && q[i].id in bloom)) &&
    (music.Some? ==> music.value in Ids(q) && music.value !in bloom)
  }

  /** `bloomTimers.filter(timerId => timerId !== id)`. */
  function Without(ids: seq<nat>, id: nat): (r: seq<nat>)
    ensures |r| <= |ids|
  {
    if ids == [] then []
    else if ids[0] == id then Without(ids[1..], id)
    else [ids[0]] + Without(ids[1..], id)
  }

  /** The filter keeps every other id and drops exactly `id`. */
  lemma {:induction false} WithoutKeeps(ids: seq<nat>, id: nat)
    ensures forall k :: k in Without(ids, id) <==> k in ids && k != id
  {
    if ids != [] {
      WithoutKeeps(ids[1..], id);
      assert forall k :: k in ids <==> k == ids[0] || k in ids[1..];
    }
  }

  /**
   * The filter works piece by piece: filtering a concatenation concatenates the
   * filtered pieces, so the remaining ids keep their order.
   */
  lemma {:induction false} WithoutAppend(a: seq<nat>, b: seq<nat>, id: nat)
    ensures Without(a + b, id) == Without(a, id) + Without(b, id)
  {
    if a != [] {
      assert (a + b)[0] == a[0] && (a + b)[1..] == a[1..] + b;
      WithoutAppend(a[1..], b, id);
    } else {
      assert a + b == b;
    }
  }

  /** Clearing the bloom timers keeps only the music interval. */
  lemma PendingOkClearBloom(q: seq<Timer<Event>>, now: nat, nextId: nat, music: Option<nat>, bloom: seq<nat>)
    requires Wf(q, now, nextId) && PendingOk(q, music, bloom)
    ensures PendingOk(Cancel(q, set k | k in bloom), music, [])
  {
    var ids := set k | k in bloom;
    CancelKeeps(q, ids);
    WfCancel(q, now, nextId, ids);
  }

  /** Without the music interval, cancelling the listed bloom timers leaves nothing pending. */
  lemma {:induction false} CancelBloomLeavesNothing(q: seq<Timer<Event>>, bloom: seq<nat>)
    requires PendingOk(q, None, bloom)
    ensures Cancel(q, set k | k in bloom) == []
  {
    forall x | x in Ids(q) ensures x in (set k | k in bloom) {
      var i :| 0 <= i < |q| && q[i].id == x;
      assert q[i].event != Beat;
    }
    CancelAll(q, set k | k in bloom);
  }

  /** Firing the earliest plant timer keeps the timers related to the state, with a fired bloom id dropped from the list. */
  lemma PendingOkFire(q: seq<Timer<Event>>, now: nat, nextId: nat, music: Option<nat>, bloom: seq<nat>)
    requires Wf(q, now, nextId) && q != [] && PendingOk(q, music, bloom)
    ensures var t := q[Earliest(q)];
      PendingOk(AfterFire(q, Earliest(q)), music, if t.event == Beat then bloom else Without(bloom, t.id))
  {
    var k := Earliest(q);
    var t := q[k];
    WfFire(q, now, nextId);
    AfterFireFrom(q, k);
    WithoutKeeps(bloom, t.id);
    if music.Some? && t.event != Beat {
      assert music.value != t.id;
    }
  }

  /** Setting the music interval, with no bloom timers listed, keeps the timers related to the state. */
  lemma PendingOkStartMusic(q: seq<Timer<Event>>, now: nat, nextId: nat, t: Timer<Event>)
    requires Wf(q, now, nextId) && PendingOk(q, None, [])
    requires t.id == nextId && t.event == Beat && t.period >= MIN_INTERVAL
    ensures PendingOk(q + [t], Some(nextId), [])
  {
    assert (q + [t])[|q|] == t;
    IdsSingle(t);
    IdsAppend(q, [t]);
  }

  /** Cancelling the music interval keeps the timers related to the state. */
  lemma PendingOkStopMusic(q: seq<Timer<Event>>, m: nat, bloom: seq<nat>)
    requires PendingOk(q, Some(m), bloom)
    ensures PendingOk(Cancel(q, {m}), None, bloom)
  {
    CancelKeeps(q, {m});
  }

  /** A fresh bloom timeline is all bloom timeouts, each listed. */
  lemma PendingOkBloomRun(firstId: nat, start: nat, steps: seq<BloomStep>)
    requires steps != []
    ensures var t := Timeline(firstId, start, BloomRun(steps), BloomDone);
      PendingOk(t, None, IdList(t))
  {
    var t := Timeline(firstId, start, BloomRun(steps), BloomDone);
    TimelineAt(firstId, start, BloomRun(steps), BloomDone);
    assert forall i :: 0 <= i < |t| ==> t[i].event != Beat && t[i].period == 0;
  }

  class PlantWidget {
    var image: Image
    var dancing: bool
    var mode: Mode
    var bloomTimers: seq<nat>
    var musicIntervalId: Option<nat>
    var musicFrameIndex: nat
    var now: nat
    var pending: seq<Timer<Event>>
    var nextId: nat

    /** The timer bookkeeping, which also holds between the steps of an operation. */
    ghost predicate TimersOk()
      reads this`pending, this`now, this`nextId, this`musicIntervalId, this`bloomTimers
    {
      Wf(pending, now, nextId) && 1 <= nextId && PendingOk(pending, musicIntervalId, bloomTimers)
    }

    /**
     * Between events: the music interval runs exactly in `music` mode, which
     * lists no bloom timers; the music frame index stays inside the ring.
     */
    ghost predicate Valid()
      reads this
    {
      TimersOk() &&
      (musicIntervalId.Some? <==> mode == Music) &&
      (mode == Music ==> bloomTimers == []) &&
      musicFrameIndex < |MUSIC_FRAMES|
    }

    /** Load: the plain plant, idle. */
    constructor ()
      ensures Valid()
      ensures image == Default && mode == Idle && !dancing && pending == []
    {
      image, dancing, mode := Default, false, Idle;
      bloomTimers, musicIntervalId, musicFrameIndex := [], None, 0;
      now, pending, nextId := 0, [], 1;
    }

    /** Time passes with nothing due before `t`. */
    method AdvanceTo(t: nat)
      requires Valid() && now <= t
      requires forall i :: 0 <= i < |pending| ==> t <= pending[i].due
      modifies this`now
      ensures Valid() && now == t
    {
      now := t;
    }

    /**
     * `clearBloomTimers(reset)`: every listed bloom timer is cancelled; a bloom
     * in progress ends, back to the plain plant when `reset`.
     */
    method ClearBloomTimers(reset: bool)
      requires TimersOk()
      modifies this`pending, this`bloomTimers, this`mode, this`image
      ensures TimersOk() && bloomTimers == []
      ensures pending == Cancel(old(pending), set k | k in old(bloomTimers))
      ensures mode == if old(mode) == Bloom then Idle else old(mode)
      ensures image == if old(mode) == Bloom && reset then Default else old(image)
    {
      PendingOkClearBloom(pending, now, nextId, musicIntervalId, bloomTimers);
      WfCancel(pending, now, nextId, set k | k in bloomTimers);
      pending := Cancel(pending, set k | k in bloomTimers);
      bloomTimers := [];
      if mode == Bloom {
        if reset {
          image := Default;
        }
        mode := Idle;
      }
    }

    /** `stopMusicLoop`: a running music interval is cancelled. */
    method StopMusicLoop()
      requires TimersOk()
      modifies this`pending, this`musicIntervalId
      ensures TimersOk() && musicIntervalId == None
      ensures pending == if old(musicIntervalId).Some? then Cancel(old(pending), {old(musicIntervalId).value}) else old(pending)
    {
      if musicIntervalId.Some? {
        var m := musicIntervalId.value;
        WfCancel(pending, now, nextId, {m});
        PendingOkStopMusic(pending, m, bloomTimers);
        pending := Cancel(pending, {m});
        musicIntervalId := None;
      }
    }

    /**
     * `startMusicCycle`: any bloom stops where it is, the music cycle starts
     * over from its first picture, and the only pending timer is the beat
     * interval of `max(200, scaledBeatMs)` ms. `scaledBeatMs` is the rounded
     * beat length, already slowed by the speed factor.
     */
    method StartMusicCycle(scaledBeatMs: nat)
      requires Valid()
      modifies this
      ensures Valid()
      ensures mode == Music && musicFrameIndex == 0 && image == MUSIC_FRAMES[0] && dancing
      ensures musicIntervalId == Some(old(nextId)) && now == old(now)
      ensures pending == [Timer(old(nextId), now + Max(MIN_INTERVAL, scaledBeatMs), Max(MIN_INTERVAL, scaledBeatMs), Beat)]
    {
      var interval := Max(MIN_INTERVAL, scaledBeatMs);
      ClearAll();
      musicFrameIndex := 0;
      mode := Music;
      image := MUSIC_FRAMES[musicFrameIndex];
      dancing := true;
      SetMusicInterval(interval);
    }

    /** Bloom timers and the music interval are both cleared, which leaves nothing pending. */
    method ClearAll()
      requires TimersOk()
      modifies this`pending, this`bloomTimers, this`mode, this`image, this`musicIntervalId
      ensures TimersOk() && pending == [] && bloomTimers == [] && musicIntervalId == None
    {
      ClearBloomTimers(false);
      StopMusicLoop();
      NothingLeft();
    }

    /** With neither the music interval nor bloom timers listed, nothing is pending. */
    lemma NothingLeft()
      requires TimersOk() && musicIntervalId == None && bloomTimers == []
      ensures pending == []
    {
      var none: seq<nat> := [];
      CancelBloomLeavesNothing(pending, none);
      CancelMissing(pending, {});
      assert (set k | k in none) == {};
    }

    /** `setInterval` for the music cycle, on an empty pending list. */
    method SetMusicInterval(interval: nat)
      requires TimersOk() && pending == [] && musicIntervalId == None && bloomTimers == [] && interval >= MIN_INTERVAL
      modifies this`pending, this`musicIntervalId, this`nextId
      ensures TimersOk() && musicIntervalId == Some(old(nextId))
      ensures pending == [Timer(old(nextId), now + interval, interval, Beat)]
    {
      var t := Timer(nextId, now + interval, interval, Beat);
      WfAppend(pending, now, nextId, t);
      PendingOkStartMusic(pending, now, nextId, t);
      pending := pending + [t];
      musicIntervalId := Some(nextId);
      nextId := nextId + 1;
    }

    /**
     * `stopMusicCycle`: the music interval stops; only in `music` mode does the
     * plant stop dancing and go back to the plain picture and `idle`.
     */
    method StopMusicCycle()
      requires Valid()
      modifies this`pending, this`musicIntervalId, this`dancing, this`mode, this`image
      ensures Valid() && musicIntervalId == None
      ensures old(mode) == Music ==> mode == Idle && image == Default && !dancing && pending == []
      ensures old(mode) != Music ==>
        mode == old(mode) && image == old(image) && dancing == old(dancing) && pending == old(pending)
    {
      if mode == Music {
        CancelLoneMusic();
      }
      StopMusicLoop();
      if mode == Music {
        dancing := false;
        mode := Idle;
        image := Default;
      }
    }

    /** In `music` mode the interval is all that is pending, so cancelling it leaves nothing. */
    lemma CancelLoneMusic()
      requires Valid() && mode == Music
      ensures Cancel(pending, {musicIntervalId.value}) == []
    {
      var m := musicIntervalId.value;
      forall x | x in Ids(pending) ensures x in {m} {
        var i :| 0 <= i < |pending| && pending[i].id == x;
        assert pending[i].event == Beat;
      }
      CancelAll(pending, {m});
    }

    /**
     * `triggerBloom`: ignored in `music` mode. Otherwise an earlier bloom is
     * cleared, the first step shows at once and the rest are scheduled at
     * their cumulative offsets after it, then the return to idle.
     */
    method TriggerBloom()
      requires Valid()
      modifies this`pending, this`bloomTimers, this`mode, this`image, this`nextId
      ensures Valid()
      ensures old(mode) == Music ==> unchanged(this)
      ensures old(mode) != Music ==>
        mode == Bloom && image == BLOOM_SEQUENCE[0].image &&
        pending == Timeline(old(nextId), now + BLOOM_SEQUENCE[0].duration, BloomRun(BLOOM_SEQUENCE), BloomDone) &&
        bloomTimers == IdList(pending)
    {
      if mode == Music {
        return;
      }
      ClearBloomTimers(true);
      CancelBloomLeavesNothing(old(pending), old(bloomTimers));
      StartBloom(BLOOM_SEQUENCE);
    }

    /** Shows the first step and schedules the others on an empty pending list. */
    method StartBloom(steps: seq<BloomStep>)
      requires TimersOk() && pending == [] && bloomTimers == [] && musicIntervalId == None && steps != []
      modifies this`pending, this`bloomTimers, this`mode, this`image, this`nextId
      ensures TimersOk() && mode == Bloom && image == steps[0].image
      ensures pending == Timeline(old(nextId), now + steps[0].duration, BloomRun(steps), BloomDone)
      ensures bloomTimers == IdList(pending)
    {
      mode := Bloom;
      image := steps[0].image;
      var elapsed := now + steps[0].duration;
      WfTimeline(pending, now, nextId, elapsed, BloomRun(steps), BloomDone);
      PendingOkBloomRun(nextId, elapsed, steps);
      pending, nextId, bloomTimers := ScheduleSequence(pending, nextId, elapsed, BloomRun(steps), BloomDone);
    }

    /** Removes the earliest pending timer as the browser does when it fires, and moves the clock to it. */
    method TakeEarliest() returns (t: Timer<Event>)
      requires Valid() && pending != []
      modifies this`pending, this`now
      ensures TimersOk() && (musicIntervalId.Some? <==> mode == Music) && musicFrameIndex < |MUSIC_FRAMES|
      ensures mode == Music ==> bloomTimers == []
      ensures t == old(pending[Earliest(pending)]) && now == t.due
      ensures t.event == Beat ==> musicIntervalId == Some(t.id) && PendingOk(pending, musicIntervalId, bloomTimers)
      ensures t.event != Beat ==> t.id in bloomTimers && PendingOk(pending, musicIntervalId, Without(bloomTimers, t.id))
      ensures pending == AfterFire(old(pending), Earliest(old(pending)))
    {
      var k := Earliest(pending);
      t := pending[k];
      WfFire(pending, now, nextId);
      PendingOkFire(pending, now, nextId, musicIntervalId, bloomTimers);
      now := t.due;
      pending := AfterFire(pending, k);
    }

    /**
     * A bloom timeout: outside `bloom` mode it does nothing; otherwise it shows
     * its picture (or, for the last one, the plain plant and `idle`) and drops
     * its own id from the bloom timers.
     */
    method OnBloomTimer(id: nat, e: Event)
      requires e != Beat
      requires TimersOk() && (musicIntervalId.Some? <==> mode == Music) && musicFrameIndex < |MUSIC_FRAMES|
      requires mode == Music ==> bloomTimers == []
      requires id in bloomTimers && PendingOk(pending, musicIntervalId, Without(bloomTimers, id))
      modifies this`bloomTimers, this`mode, this`image
      ensures Valid()
      ensures old(mode) != Bloom ==> mode == old(mode) && image == old(image) && bloomTimers == old(bloomTimers)
      ensures old(mode) == Bloom ==> bloomTimers == Without(old(bloomTimers), id)
      ensures old(mode) == Bloom && e.Show? ==> mode == Bloom && image == e.image
      ensures old(mode) == Bloom && e == BloomDone ==> mode == Idle && image == Default
    {
      if mode != Bloom {
        return;
      }
      if e.Show? {
        image := e.image;
      } else {
        image := Default;
        mode := Idle;
      }
      bloomTimers := Without(bloomTimers, id);
    }

    /**
     * The browser fires the earliest pending plant timer: a beat advances the
     * music picture round the ring of four, a bloom timeout acts only in
     * `bloom` mode.
     */
    method Fire() returns (fired: Timer<Event>)
      requires Valid() && pending != []
      modifies this`pending, this`now, this`bloomTimers, this`mode, this`image, this`musicFrameIndex
      ensures Valid()
      ensures fired == old(pending[Earliest(pending)]) && now == fired.due
      ensures pending == AfterFire(old(pending), Earliest(old(pending)))
      ensures fired.event == Beat ==>
        mode == Music && musicFrameIndex == (old(musicFrameIndex) + 1) % 4 && image == MUSIC_FRAMES[musicFrameIndex]
      ensures fired.event != Beat && old(mode) != Bloom ==> mode == old(mode) && image == old(image)
      ensures fired.event.Show? && old(mode) == Bloom ==> mode == Bloom && image == fired.event.image
      ensures fired.event == BloomDone && old(mode) == Bloom ==> mode == Idle && image == Default
    {
      fired := TakeEarliest();
      if fired.event == Beat {
        musicFrameIndex := (musicFrameIndex + 1) % |MUSIC_FRAMES|;
        image := MUSIC_FRAMES[musicFrameIndex];
      } else {
        OnBloomTimer(fired.id, fired.event);
      }
    }
  }

  function Max(a: nat, b: nat): (m: nat)
    ensures m >= a && m >= b && (m == a || m == b)
  {
    if a >= b then a else b
  }
}

=== FILE: ring.dfy ===
/**
 * Index arithmetic on rings of frames, slides and stages, with JavaScript's
 * remainder operator written out: it truncates towards zero, so its result
 * takes the sign of the dividend.
 */
module Ring {

  function Abs(x: int): nat
  {
    if x < 0 then -x else x
  }

  /** JavaScript's `a % b` on integers. */
  function JsRem(a: int, b: int): (r: int)
    requires b != 0
    ensures Abs(r) < Abs(b)
    ensures a >= 0 ==> r >= 0
    ensures a < 0 ==> r <= 0
  {
    if a >= 0 then a % Abs(b) else -((-a) % Abs(b))
  }

  /** On a non-negative dividend and a positive divisor JavaScript's remainder is the usual one. */
  lemma JsRemNonNegative(a: int, b: int)
    requires a >= 0 && b > 0
    ensures JsRem(a, b) == a % b
  {
  }

  /** A negative dividend gives the negated remainder of its magnitude, never a wrapped index. */
  lemma JsRemNegative(a: int, b: int)
    requires a < 0 && b > 0
    ensures JsRem(a, b) == -((-a) % b)
    ensures JsRem(a, b) <= 0
  {
  }

  lemma MulAtLeast(d: int, n: int)
    requires d >= 1 && n > 0
    ensures d * n >= n
  {
  }

  /** The remainder is the only value in `[0, n)` that differs from `x` by a multiple of `n`. */
  lemma ModUnique(x: int, n: int, q: int, s: int)
    requires n > 0 && 0 <= s < n && x == q * n + s
    ensures x % n == s
  {
    var q', s' := x / n, x % n;
    assert x == q' * n + s';
    assert (q - q') * n == s' - s;
    if q > q' {
      MulAtLeast(q - q', n);
    } else if q < q' {
      MulAtLeast(q' - q, n);
    }
  }

  /**
   * `(i + n) % n` for a position one step either side of a ring of `n`: stepping
   * back from 0 lands on `n - 1`, stepping forward from `n - 1` lands on 0, and
   * every other step moves by one.
   */
  lemma ShiftWrap(i: int, n: int)
    requires n > 0 && -n <= i <= n
    ensures 0 <= JsRem(i + n, n) < n
    ensures i < 0 ==> JsRem(i + n, n) == i + n
    ensures 0 <= i < n ==> JsRem(i + n, n) == i
    ensures i == n ==> JsRem(i + n, n) == 0
  {
    if 0 <= i < n {
      ModUnique(i + n, n, 1, i);
    } else if i == n {
      ModUnique(i + n, n, 2, 0);
    }
  }

  /** `(index + 1) % length`: the next position on a ring of `n`. */
  function Next(i: nat, n: nat): (j: nat)
    requires n > 0
    ensures j < n
    ensures i + 1 < n ==> j == i + 1
    ensures i + 1 == n ==> j == 0
  {
    (i + 1) % n
  }

  /** The position after `k` steps from `i`. */
  function Advance(i: nat, k: nat, n: nat): (j: nat)
    requires n > 0
    ensures j < n || (k == 0 && j == i)
  {
    if k == 0 then i else Next(Advance(i, k - 1, n), n)
  }

  lemma ModSucc(a: nat, n: nat)
    requires n > 0
    ensures ((a % n) + 1) % n == (a + 1) % n
  {
    var q, r := a / n, a % n;
    assert a == q * n + r;
    if r + 1 < n {
      ModUnique(a + 1, n, q, r + 1);
    } else {
      assert a + 1 == (q + 1) * n + 0;
      ModUnique(a + 1, n, q + 1, 0);
    }
  }

  /** Stepping one at a time is the same as adding: `k` steps from `i` reach `(i + k) % n`. */
  lemma {:induction false} AdvanceIsSum(i: nat, k: nat, n: nat)
    requires n > 0 && i < n
    ensures Advance(i, k, n) == (i + k) % n
  {
    if k > 0 {
      AdvanceIsSum(i, k - 1, n);
      ModSucc(i + k - 1, n);
    }
  }

  /** A full turn: `n` steps from any position on a ring of `n` come back to it. */
  lemma FullTurn(i: nat, n: nat)
    requires n > 0 && i < n
    ensures Advance(i, n, n) == i
  {
    AdvanceIsSum(i, n, n);
    ModUnique(i + n, n, 1, i);
  }
}

=== FILE: skull.dfy ===
/**
 * The skull and its fire. A click turns the skull into the demon for four
 * seconds; while the demon shows or music plays, a fire animation loops over
 * eight frames every 120 ms and tints the skull with the frame's colour.
 */
module Skull {
  import opened Timers
  import opened Filters

  const BASE_SRC := "assets/skull.png"
  const DEMON_SRC := "assets/skull-demon.png"
  const FIRE_FRAMES: seq<string> := [
    "assets/fire-one.png",
    "assets/fire-two.png",
    "assets/fire-three.png",
    "assets/fire-four.png",
    "assets/fire-five.png",
    "assets/fire-six.png",
    "assets/fire-seven.png",
    "assets/fire-eight.png"
  ]
  const SKULL_FILTERS: seq<string> := [
    "hue-rotate(0deg) saturate(110%)",
    "hue-rotate(60deg) saturate(140%)",
    "hue-rotate(120deg) saturate(170%)",
    "hue-rotate(180deg) saturate(200%)",
    "hue-rotate(240deg) saturate(170%)",
    "hue-rotate(300deg) saturate(150%)",
    "hue-rotate(360deg) saturate(120%)",
    "hue-rotate(420deg) saturate(150%)"
  ]
  /** `FIRE_FRAMES.length`, which is also `SKULL_FILTERS.length`. */
  const FIRE_COUNT := 8
  const DISPLAY_DURATION := 4000
  const FRAME_DURATION := 120

  /** The first three characters of each filter's angle, which tell the filters apart. */
  const ANGLES: seq<string> := ["0de", "60d", "120", "180", "240", "300", "360", "420"]

  /**
   * The eight skull colours are distinct, non-empty and never start with the
   * dimming filter, so the skull's filter text tells apart every lights state
   * and fire frame.
   */
  lemma FiltersDistinct()
    ensures GoodPalette(SKULL_FILTERS)
  {
    AnglesTellApart(SKULL_FILTERS, ANGLES);
  }


  /** The skull's picture. */
  datatype Image = Base | Demon

  /** The file an image is loaded from. */
  function Src(img: Image): (src: string)
    ensures src == DEMON_SRC <==> img == Demon
    ensures src == BASE_SRC <==> img == Base
  {
    match img
    case Base => BASE_SRC
    case Demon => DEMON_SRC
  }

  /** What a skull timer does when it fires. */
  datatype Event =
    | EndDemon   // the click's `stopManual` timeout
    | FireFrame  // the fire interval's callback

  /**
   * How the skull's timers relate to its state: the fire interval is the only
   * ticking timer, every 120 ms; the only timeout is the click's, whose id is
   * `manual`; a running fire interval is pending and differs from `manual`.
   */
  ghost predicate PendingOk(q: seq<Timer<Event>>, manual: Option<nat>, fire: Option<nat>)
  {
    (forall i :: 0 <= i < |q| ==> TimerOk(q[i], manual, fire)) &&
    (fire.Some? ==> fire.value in Ids(q)) &&
    (manual.Some? && fire.Some? ==> manual.value != fire.value)
  }

  /** One pending skull timer: the fire interval, or the click's timeout. */
  ghost predicate TimerOk(t: Timer<Event>, manual: Option<nat>, fire: Option<nat>)
  {
    match t.event
    case FireFrame => fire == Some(t.id) && t.period == FRAME_DURATION
    case EndDemon => manual == Some(t.id) && t.period == 0 && fire != Some(t.id)
  }

  /** Setting the fire interval, when none runs, keeps the timers related to the state. */
  lemma PendingOkStartFire(q: seq<Timer<Event>>, now: nat, nextId: nat, manual: Option<nat>, t: Timer<Event>)
    requires Wf(q, now, nextId) && PendingOk(q, manual, None)
    requires manual.Some? ==> manual.value < nextId
    requires t == Timer(nextId, t.due, FRAME_DURATION, FireFrame)
    ensures PendingOk(q + [t], manual, Some(nextId))
  {
    assert (q + [t])[|q|] == t;
    IdsSingle(t);
    IdsAppend(q, [t]);
  }

  /** Cancelling the fire interval keeps the timers related to the state. */
  lemma PendingOkStopFire(q: seq<Timer<Event>>, f: nat, manual: Option<nat>)
    requires PendingOk(q, manual, Some(f))
    ensures PendingOk(Cancel(q, {f}), manual, None)
  {
    CancelKeeps(q, {f});
  }

  /** Cancelling the click timeout leaves no timeout pending and keeps the fire interval. */
  lemma PendingOkStopManual(q: seq<Timer<Event>>, now: nat, nextId: nat, m: nat, fire: Option<nat>)
    requires Wf(q, now, nextId) && PendingOk(q, Some(m), fire)
    ensures PendingOk(Cancel(q, {m}), None, fire)
  {
    CancelKeeps(q, {m});
    WfCancel(q, now, nextId, {m});
  }

  /** Setting the click timeout, when none is listed, keeps the timers related to the state. */
  lemma PendingOkSetManual(q: seq<Timer<Event>>, now: nat, nextId: nat, fire: Option<nat>, t: Timer<Event>)
    requires Wf(q, now, nextId) && PendingOk(q, None, fire)
    requires t == Timer(nextId, t.due, 0, EndDemon)
    ensures PendingOk(q + [t], Some(nextId), fire)
  {
    assert (q + [t])[|q|] == t;
    IdsSingle(t);
    IdsAppend(q, [t]);
  }

  /** Firing the earliest skull timer keeps the timers related to the state as before. */
  lemma PendingOkFire(q: seq<Timer<Event>>, now: nat, nextId: nat, manual: Option<nat>, fire: Option<nat>)
    requires Wf(q, now, nextId) && q != [] && PendingOk(q, manual, fire)
    ensures PendingOk(AfterFire(q, Earliest(q)), manual, fire)
    ensures q[Earliest(q)].event == FireFrame ==> fire == Some(q[Earliest(q)].id) && Ids(AfterFire(q, Earliest(q))) == Ids(q)
    ensures q[Earliest(q)].event == EndDemon ==> manual == Some(q[Earliest(q)].id)
  {
    var k := Earliest(q);
    WfFire(q, now, nextId);
    AfterFireFrom(q, k);
    if fire.Some? && q[k].event != FireFrame {
      assert fire.value != q[k].id;
    }
  }

  class SkullFire {
    /** Whether the page has the fire image at all; without it `updateFire` does nothing. */
    const hasFire: bool
    var image: Image
    var musicClass: bool
    var skullFilter: Filter
    var fireShown: bool
    var fireImage: nat
    var manualTimer: Option<nat>
    var fireInterval: Option<nat>
    var frameIndex: nat
    var manualActive: bool
    var musicActive: bool
    var now: nat
    var pending: seq<Timer<Event>>
    var nextId: nat

    /** The timer bookkeeping, which also holds between the steps of an operation. */
    ghost predicate TimersOk()
      reads this`pending, this`now, this`nextId, this`manualTimer, this`fireInterval
    {
      Wf(pending, now, nextId) && 1 <= nextId &&
      PendingOk(pending, manualTimer, fireInterval) &&
      (manualTimer.Some? ==> manualTimer.value < nextId)
    }

    /**
     * The fire's display follows its interval: shown on the current frame with
     * the skull tinted in that frame's colour while it runs, hidden with an
     * untinted skull otherwise; without the fire image no interval runs.
     */
    ghost predicate FireOk()
      reads this`fireInterval, this`fireShown, this`fireImage, this`frameIndex, this`skullFilter
    {
      frameIndex < FIRE_COUNT &&
      (!hasFire ==> fireInterval == None) &&
      (hasFire ==> (fireShown <==> fireInterval.Some?)) &&
      (fireInterval.Some? ==> fireImage == frameIndex && skullFilter.tint == Tinted(frameIndex)) &&
      (hasFire && fireInterval.None? ==> skullFilter.tint == Plain)
    }

    /**
     * The demon shows exactly while a click's timeout is listed; the
     * `music-active` class follows the music.
     */
    ghost predicate DemonOk()
      reads this`manualActive, this`manualTimer, this`image, this`musicClass, this`musicActive
    {
      (manualActive <==> manualTimer.Some?) &&
      image == (if manualActive then Demon else Base) &&
      (musicClass <==> musicActive)
    }

    /** Between events: the above, and the fire runs exactly while the demon shows or music plays. */
    ghost predicate Valid()
      reads this
    {
      TimersOk() && FireOk() && DemonOk() &&
      (hasFire ==> (fireInterval.Some? <==> manualActive || musicActive))
    }

    /** Load: the plain skull, fire hidden, the skull filter applied with no effect. */
    constructor (hasFire: bool, lightsOff: bool)
      ensures Valid() && this.hasFire == hasFire
      ensures image == Base && skullFilter == Filter(lightsOff, Plain) && !fireShown
      ensures !manualActive && !musicActive && frameIndex == 0 && pending == []
    {
      this.hasFire := hasFire;
      image, musicClass, skullFilter := Base, false, Filter(lightsOff, Plain);
      fireShown, fireImage := false, 0;
      manualTimer, fireInterval, frameIndex, manualActive, musicActive := None, None, 0, false, false;
      now, pending, nextId := 0, [], 1;
    }

    /** Time passes with nothing due before `t`. */
    method AdvanceTo(t: nat)
      requires Valid() && now <= t
      requires forall i :: 0 <= i < |pending| ==> t <= pending[i].due
      modifies this`now
      ensures Valid() && now == t
    {
      now := t;
    }

    /**
     * `updateFire`: with the fire image present, the fire runs exactly when the
     * demon shows or music plays. Starting it shows frame 0 in frame 0's colour
     * and sets the interval; a fire already running is left as it is, so its
     * frame index is not reset. Stopping it cancels the interval, hides the
     * fire and removes the skull's colour.
     */
    method UpdateFire(lightsOff: bool)
      requires TimersOk() && FireOk()
      modifies this`fireShown, this`fireImage, this`frameIndex, this`skullFilter
      modifies this`pending, this`fireInterval, this`nextId
      ensures TimersOk() && FireOk()
      ensures hasFire ==> (fireInterval.Some? <==> manualActive || musicActive)
      ensures !hasFire || ((manualActive || musicActive) && old(fireInterval).Some?) ==>
        fireInterval == old(fireInterval) && pending == old(pending) && nextId == old(nextId) &&
        frameIndex == old(frameIndex) && fireShown == old(fireShown) && fireImage == old(fireImage) &&
        skullFilter == old(skullFilter)
      ensures hasFire && (manualActive || musicActive) && old(fireInterval).None? ==>
        fireInterval == Some(old(nextId)) && frameIndex == 0 && fireImage == 0 && fireShown && skullFilter == Filter(lightsOff, Tinted(0))
      ensures hasFire && !(manualActive || musicActive) ==>
        fireInterval == None && !fireShown && skullFilter == Filter(lightsOff, Plain) && nextId == old(nextId) &&
        frameIndex == old(frameIndex)
    {
      if !hasFire {
        return;
      }
      if manualActive || musicActive {
        if fireInterval.None? {
          StartFire(lightsOff);
        }
      } else {
        StopFire(lightsOff);
      }
    }

    /** Starts the fire from frame 0 and sets its interval. */
    method StartFire(lightsOff: bool)
      requires TimersOk() && FireOk() && hasFire && fireInterval.None?
      modifies this`fireShown, this`fireImage, this`frameIndex, this`skullFilter
      modifies this`pending, this`fireInterval, this`nextId
      ensures TimersOk() && FireOk()
      ensures fireInterval == Some(old(nextId)) && nextId == old(nextId) + 1
      ensures pending == old(pending) + [Timer(old(nextId), now + FRAME_DURATION, FRAME_DURATION, FireFrame)]
      ensures frameIndex == 0 && fireImage == 0 && fireShown && skullFilter == Filter(lightsOff, Tinted(0))
    {
      frameIndex := 0;
      fireImage := frameIndex;
      fireShown := true;
      skullFilter := Filter(lightsOff, Tinted(frameIndex % FIRE_COUNT));
      SetFire();
    }

    /** `setInterval` for the fire: a ticking timer one frame duration from now. */
    method SetFire()
      requires TimersOk() && fireInterval.None?
      modifies this`pending, this`fireInterval, this`nextId
      ensures TimersOk()
      ensures fireInterval == Some(old(nextId)) && nextId == old(nextId) + 1
      ensures pending == old(pending) + [Timer(old(nextId), now + FRAME_DURATION, FRAME_DURATION, FireFrame)]
    {
      var t := Timer(nextId, now + FRAME_DURATION, FRAME_DURATION, FireFrame);
      WfAppend(pending, now, nextId, t);
      PendingOkStartFire(pending, now, nextId, manualTimer, t);
      pending := pending + [t];
      fireInterval := Some(nextId);
      nextId := nextId + 1;
    }

    /** Cancels a running fire interval, hides the fire and removes the skull's colour. */
    method StopFire(lightsOff: bool)
      requires TimersOk() && FireOk() && hasFire
      modifies this`fireShown, this`skullFilter, this`pending, this`fireInterval
      ensures TimersOk() && FireOk()
      ensures fireInterval == None && !fireShown && skullFilter == Filter(lightsOff, Plain)
      ensures pending == if old(fireInterval).Some? then Cancel(old(pending), {old(fireInterval).value}) else old(pending)
    {
      if fireInterval.Some? {
        var f := fireInterval.value;
        WfCancel(pending, now, nextId, {f});
        PendingOkStopFire(pending, f, manualTimer);
        pending := Cancel(pending, {f});
        fireInterval := None;
      }
      fireShown := false;
      skullFilter := Filter(lightsOff, Plain);
    }

    /** `clearTimeout` for the click's timeout, if one is listed. */
    method CancelManual()
      requires TimersOk()
      modifies this`pending, this`manualTimer
      ensures TimersOk() && manualTimer == None
      ensures pending == if old(manualTimer).Some? then Cancel(old(pending), {old(manualTimer).value}) else old(pending)
      ensures forall i :: 0 <= i < |pending| ==> pending[i].event == FireFrame
    {
      if manualTimer.Some? {
        var m := manualTimer.value;
        WfCancel(pending, now, nextId, {m});
        PendingOkStopManual(pending, now, nextId, m, fireInterval);
        pending := Cancel(pending, {m});
        manualTimer := None;
      }
    }

    /**
     * `stopManual`: the demon ends, its timeout (pending or just fired) is
     * cancelled, the plain skull returns and the fire keeps running only for
     * the music, without restarting.
     */
    method StopManual(lightsOff: bool)
      requires TimersOk() && FireOk() && (musicClass <==> musicActive)
      modifies this`manualActive, this`pending, this`manualTimer, this`image
      modifies this`fireShown, this`fireImage, this`frameIndex, this`skullFilter, this`fireInterval, this`nextId
      ensures Valid()
      ensures !manualActive && image == Base && musicActive == old(musicActive)
      ensures hasFire ==> (fireInterval.Some? <==> musicActive)
      ensures musicActive && old(fireInterval).Some? ==> frameIndex == old(frameIndex) && fireInterval == old(fireInterval)
      ensures hasFire && musicActive && old(fireInterval).None? ==>
        frameIndex == 0 && fireShown && skullFilter == Filter(lightsOff, Tinted(0))
      ensures !hasFire || (musicActive && old(fireInterval).Some?) ==>
        frameIndex == old(frameIndex) && fireShown == old(fireShown) && skullFilter == old(skullFilter)
      ensures hasFire && !musicActive ==>
        frameIndex == old(frameIndex) && !fireShown && skullFilter == Filter(lightsOff, Plain)
    {
      HideDemon();
      UpdateFire(lightsOff);
    }

    /** The demon's part of `stopManual`: flag cleared, timeout cancelled, plain skull shown. */
    method HideDemon()
      requires TimersOk()
      modifies this`manualActive, this`pending, this`manualTimer, this`image
      ensures TimersOk() && !manualActive && manualTimer == None && image == Base
    {
      manualActive := false;
      CancelManual();
      image := Base;
    }

    /**
     * The click handler: the demon shows, the fire runs (continuing if it
     * already did), and the demon's end is set four seconds from now,
     * replacing any earlier end: afterwards the only pending timeout is that one.
     */
    method HandleClick(lightsOff: bool)
      requires Valid()
      modifies this`manualActive, this`pending, this`manualTimer, this`image
      modifies this`fireShown, this`fireImage, this`frameIndex, this`skullFilter, this`fireInterval, this`nextId
      ensures Valid()
      ensures manualActive && image == Demon && musicActive == old(musicActive) && now == old(now)
      ensures hasFire ==> fireInterval.Some?
      ensures old(fireInterval).Some? ==> frameIndex == old(frameIndex) && fireInterval == old(fireInterval)
      ensures hasFire && old(fireInterval).None? ==>
        frameIndex == 0 && fireShown && skullFilter == Filter(lightsOff, Tinted(0))
      ensures !hasFire || old(fireInterval).Some? ==>
        frameIndex == old(frameIndex) && fireShown == old(fireShown) && skullFilter == old(skullFilter)
      ensures manualTimer.Some? && Timer(manualTimer.value, now + DISPLAY_DURATION, 0, EndDemon) in pending
      ensures forall i :: 0 <= i < |pending| && pending[i].event == EndDemon ==>
        pending[i] == Timer(manualTimer.value, now + DISPLAY_DURATION, 0, EndDemon)
    {
      ShowDemon();
      UpdateFire(lightsOff);
      RestartManual();
    }

    /** The click's first step: the demon flag is set and the demon image shown. */
    method ShowDemon()
      modifies this`manualActive, this`image
      ensures manualActive && image == Demon
    {
      manualActive := true;
      image := Demon;
    }

    /** Any listed click timeout is cancelled and a new one set four seconds from now. */
    method RestartManual()
      requires TimersOk()
      modifies this`pending, this`manualTimer, this`nextId
      ensures TimersOk() && manualTimer == Some(old(nextId)) && manualTimer.value in Ids(pending)
      ensures Timer(manualTimer.value, now + DISPLAY_DURATION, 0, EndDemon) in pending
      ensures forall i :: 0 <= i < |pending| && pending[i].event == EndDemon ==>
        pending[i] == Timer(manualTimer.value, now + DISPLAY_DURATION, 0, EndDemon)
      ensures fireInterval.Some? ==> fireInterval.value in Ids(pending)
    {
      CancelManual();
      SetManual();
    }

    /** `setTimeout(stopManual, DISPLAY_DURATION)`, with no click timeout listed. */
    method SetManual()
      requires TimersOk() && manualTimer == None
      requires forall i :: 0 <= i < |pending| ==> pending[i].event == FireFrame
      modifies this`pending, this`manualTimer, this`nextId
      ensures TimersOk() && manualTimer == Some(old(nextId)) && manualTimer.value in Ids(pending)
      ensures pending == old(pending) + [Timer(old(nextId), now + DISPLAY_DURATION, 0, EndDemon)]
      ensures forall i :: 0 <= i < |pending| && pending[i].event == EndDemon ==>
        pending[i] == Timer(old(nextId), now + DISPLAY_DURATION, 0, EndDemon)
    {
      var t := Timer(nextId, now + DISPLAY_DURATION, 0, EndDemon);
      WfAppend(pending, now, nextId, t);
      PendingOkSetManual(pending, now, nextId, fireInterval, t);
      IdsSingle(t);
      IdsAppend(pending, [t]);
      pending := pending + [t];
      manualTimer := Some(nextId);
      nextId := nextId + 1;
    }

    /** `startMusic`: music is on, so the fire runs, continuing if it already did. */
    method StartMusic(lightsOff: bool)
      requires Valid()
      modifies this`musicActive, this`musicClass
      modifies this`fireShown, this`fireImage, this`frameIndex, this`skullFilter, this`pending, this`fireInterval, this`nextId
      ensures Valid() && musicActive && manualActive == old(manualActive) && image == old(image)
      ensures hasFire ==> fireInterval.Some?
      ensures old(fireInterval).Some? ==> frameIndex == old(frameIndex) && pending == old(pending)
      ensures hasFire && old(fireInterval).None? ==>
        frameIndex == 0 && fireShown && skullFilter == Filter(lightsOff, Tinted(0))
      ensures !hasFire || old(fireInterval).Some? ==>
        frameIndex == old(frameIndex) && fireShown == old(fireShown) && skullFilter == old(skullFilter)
    {
      SetMusic(true);
      UpdateFire(lightsOff);
    }

    /** The music flag and the `music-active` class, set together. */
    method SetMusic(on: bool)
      modifies this`musicActive, this`musicClass
      ensures musicActive == on && musicClass == on
    {
      musicActive := on;
      musicClass := on;
    }

    /**
     * `stopMusic`: music is off; the fire keeps running only while the demon
     * shows, and the skull is the plain one unless the demon shows.
     */
    method StopMusic(lightsOff: bool)
      requires Valid()
      modifies this`musicActive, this`musicClass, this`image
      modifies this`fireShown, this`fireImage, this`frameIndex, this`skullFilter, this`pending, this`fireInterval, this`nextId
      ensures Valid() && !musicActive && manualActive == old(manualActive)
      ensures hasFire ==> (fireInterval.Some? <==> manualActive)
      ensures image == if manualActive then Demon else Base
      ensures hasFire && manualActive && old(fireInterval).None? ==>
        frameIndex == 0 && fireShown && skullFilter == Filter(lightsOff, Tinted(0))
      ensures !hasFire || (manualActive && old(fireInterval).Some?) ==>
        frameIndex == old(frameIndex) && fireShown == old(fireShown) && skullFilter == old(skullFilter)
      ensures hasFire && !manualActive ==>
        frameIndex == old(frameIndex) && !fireShown && skullFilter == Filter(lightsOff, Plain)
    {
      SetMusic(false);
      RestoreBase();
      UpdateFire(lightsOff);
    }

    /** Outside the demon's four seconds the plain skull is shown. */
    method RestoreBase()
      modifies this`image
      ensures image == if manualActive then old(image) else Base
    {
      if !manualActive {
        image := Base;
      }
    }

    /**
     * `updateLights`: the skull's filter is recomposed with the new lights
     * state, keeping the current frame's colour while the fire, the demon or
     * the music is on.
     */
    method UpdateLights(lightsOff: bool)
      requires Valid()
      modifies this`skullFilter
      ensures Valid()
      ensures skullFilter == Filter(lightsOff,
        if fireInterval.Some? || manualActive || musicActive then Tinted(frameIndex) else Plain)
    {
      if fireInterval.Some? || manualActive || musicActive {
        skullFilter := Filter(lightsOff, Tinted(frameIndex % FIRE_COUNT));
      } else {
        skullFilter := Filter(lightsOff, Plain);
      }
    }

    /** Removes the earliest pending timer as the browser does when it fires, and moves the clock to it. */
    method TakeEarliest() returns (t: Timer<Event>)
      requires TimersOk() && pending != []
      modifies this`pending, this`now
      ensures TimersOk()
      ensures t == old(pending[Earliest(pending)]) && now == t.due
      ensures pending == AfterFire(old(pending), Earliest(old(pending)))
      ensures t.event == FireFrame ==> fireInterval == Some(t.id)
      ensures t.event == EndDemon ==> manualTimer == Some(t.id)
    {
      var k := Earliest(pending);
      t := pending[k];
      WfFire(pending, now, nextId);
      PendingOkFire(pending, now, nextId, manualTimer, fireInterval);
      now := t.due;
      pending := AfterFire(pending, k);
    }

    /** The fire interval's callback: the next of the eight frames, in its colour. */
    method OnFireFrame(lightsOff: bool)
      requires Valid() && fireInterval.Some?
      modifies this`frameIndex, this`fireImage, this`skullFilter
      ensures Valid()
      ensures frameIndex == (old(frameIndex) + 1) % FIRE_COUNT && fireImage == frameIndex
      ensures skullFilter == Filter(lightsOff, Tinted(frameIndex))
    {
      frameIndex := (frameIndex + 1) % FIRE_COUNT;
      fireImage := frameIndex;
      skullFilter := Filter(lightsOff, Tinted(frameIndex % FIRE_COUNT));
    }

    /**
     * The browser fires the earliest pending skull timer: the fire advances a
     * frame, or the demon's four seconds end.
     */
    method Fire(lightsOff: bool) returns (fired: Timer<Event>)
      requires Valid() && pending != []
      modifies this`pending, this`now, this`manualActive, this`manualTimer, this`image
      modifies this`fireShown, this`fireImage, this`frameIndex, this`skullFilter, this`fireInterval, this`nextId
      ensures Valid()
      ensures fired == old(pending[Earliest(pending)]) && now == fired.due
      ensures fired.event == FireFrame ==>
        pending == AfterFire(old(pending), Earliest(old(pending))) &&
        frameIndex == (old(frameIndex) + 1) % FIRE_COUNT && skullFilter == Filter(lightsOff, Tinted(frameIndex))
      ensures fired.event == EndDemon ==>
        !manualActive && image == Base && (hasFire ==> (fireInterval.Some? <==> musicActive)) &&
        (hasFire && musicActive && old(fireInterval).None? ==>
          frameIndex == 0 && fireShown && skullFilter == Filter(lightsOff, Tinted(0))) &&
        (!hasFire || (musicActive && old(fireInterval).Some?) ==>
          frameIndex == old(frameIndex) && fireShown == old(fireShown) && skullFilter == old(skullFilter)) &&
        (hasFire && !musicActive ==>
          frameIndex == old(frameIndex) && !fireShown && skullFilter == Filter(lightsOff, Plain))
    {
      fired := TakeEarliest();
      match fired.event
      case FireFrame =>
        OnFireFrame(lightsOff);
      case EndDemon =>
        StopManual(lightsOff);
    }
  }
}

=== FILE: slideshow.dfy ===
/**
 * The gallery slideshow modal: a gallery picture opens the modal on its slide,
 * the arrow buttons and keys step through the slides round a ring, and the
 * close button, the backdrop or Escape close it.
 */
module Slideshow {
  import Ring
  import opened Timers

  /** The slides' pictures, in order; all have a source, so none is filtered out. */
  const SLIDES: seq<string> := [
    "assets/sexy-nurse.png", "assets/hhbd.png", "assets/bros.png", "assets/mr-floof.png",
    "assets/bea-and-kate.png", "assets/moderator.png", "assets/misc.png"
  ]

  /** `(i + slides.length) % slides.length`, with JavaScript's truncating remainder. */
  function Wrap(i: int, n: nat): int
    requires n > 0
  {
    Ring.JsRem(i + n, n)
  }

  /**
   * From any slide, one step forward or back stays on the ring: forward from the
   * last slide lands on the first, back from the first lands on the last, and
   * every other step moves by one.
   */
  lemma WrapStep(k: nat, n: nat)
    requires k < n
    ensures 0 <= Wrap(k + 1, n) < n && 0 <= Wrap(k - 1, n) < n
    ensures Wrap(k + 1, n) == if k == n - 1 then 0 else k + 1
    ensures Wrap(k - 1, n) == if k == 0 then n - 1 else k - 1
  {
    Ring.ShiftWrap(k + 1, n);
    Ring.ShiftWrap(k - 1, n);
  }

  /** A step back undoes a step forward, and a step forward undoes a step back. */
  lemma StepsUndo(k: nat, n: nat)
    requires k < n
    ensures Wrap(Wrap(k + 1, n) - 1, n) == k
    ensures Wrap(Wrap(k - 1, n) + 1, n) == k
  {
    WrapStep(k, n);
    WrapStep(Wrap(k + 1, n), n);
    WrapStep(Wrap(k - 1, n), n);
  }

  /** Stepping forward is the ring's `Next`, so `n` steps forward come back to the same slide. */
  lemma ForwardIsNext(k: nat, n: nat)
    requires k < n
    ensures Wrap(k + 1, n) == Ring.Next(k, n)
    ensures Ring.Advance(k, n, n) == k
  {
    WrapStep(k, n);
    Ring.FullTurn(k, n);
  }

  /** The keys the modal listens to. */
  datatype Key = Escape | ArrowRight | ArrowLeft | OtherKey

  class Gallery {
    const slides: seq<string>
    var idx: int
    /** The modal's picture, and its indicator as `(position, count)`, shown as `position / count`. */
    var image: string
    var indicator: (nat, nat)
    /** The modal's `open` class, its `aria-hidden` value and the body's hidden overflow. */
    var open: bool
    var ariaHidden: bool
    var overflowHidden: bool

    /**
     * `idx` always names a slide, and the modal's attributes agree: open,
     * visible to assistive technology and the page scroll locked together.
     */
    ghost predicate Valid()
      reads this
    {
      (|slides| > 0 ==> 0 <= idx < |slides|) && (|slides| == 0 ==> idx == 0) &&
      ariaHidden == !open && overflowHidden == open
    }

    /** The page as loaded: first slide selected, modal closed. */
    constructor (slides: seq<string>, image: string)
      ensures Valid()
      ensures this.slides == slides && idx == 0 && !open && this.image == image
    {
      this.slides := slides;
      idx := 0;
      this.image := image;
      indicator := (0, 0);
      open, ariaHidden, overflowHidden := false, true, false;
    }

    /**
     * `show(i)`: the index wraps round the slides and the picture and indicator
     * follow it. Callers step at most one slide back from a valid index, the
     * lowest index the wrap can bring back onto the ring.
     */
    method Show(i: int)
      requires Valid() && (|slides| > 0 ==> i >= -|slides|)
      modifies this`idx, this`image, this`indicator
      ensures Valid()
      ensures |slides| == 0 ==> idx == old(idx) && image == old(image) && indicator == old(indicator)
      ensures |slides| > 0 ==>
        0 <= idx < |slides| && idx == Wrap(i, |slides|) &&
        image == slides[idx] && indicator == (idx + 1, |slides|)
      ensures |slides| > 0 && 0 <= i < |slides| ==> idx == i
    {
      if |slides| == 0 {
        return;
      }
      var n := |slides|;
      var j := Ring.JsRem(i + n, n);
      if 0 <= i < n {
        Ring.ShiftWrap(i, n);
      }
      idx := j;
      image := slides[idx];
      indicator := (idx + 1, n);
    }

    /**
     * `openModal(startIndex)`: a numeric start index is wrapped into `idx`; the
     * modal opens on that slide. Without slides nothing happens.
     */
    method OpenModal(startIndex: Option<int>)
      requires Valid() && (|slides| > 0 && startIndex.Some? ==> startIndex.value >= -|slides|)
      modifies this`idx, this`image, this`indicator, this`open, this`ariaHidden, this`overflowHidden
      ensures Valid()
      ensures |slides| == 0 ==> idx == old(idx) && open == old(open) && image == old(image)
      ensures |slides| > 0 ==> open && image == slides[idx] && indicator == (idx + 1, |slides|)
      ensures |slides| > 0 && startIndex.Some? ==> idx == Wrap(startIndex.value, |slides|)
      ensures |slides| > 0 && startIndex.None? ==> idx == old(idx)
    {
      if |slides| == 0 {
        return;
      }
      if startIndex.Some? {
        idx := Ring.JsRem(startIndex.value + |slides|, |slides|);
      }
      open, ariaHidden, overflowHidden := true, false, true;
      Show(idx);
    }

    /** `closeModal`: the modal closes and the page scrolls again; the slide is kept. */
    method CloseModal()
      requires Valid()
      modifies this`open, this`ariaHidden, this`overflowHidden
      ensures Valid() && !open
    {
      open, ariaHidden, overflowHidden := false, true, false;
    }

    /** A click on gallery picture `index`: the modal opens on that slide. */
    method ClickTrigger(index: nat)
      requires Valid() && index < |slides|
      modifies this`idx, this`image, this`indicator, this`open, this`ariaHidden, this`overflowHidden
      ensures Valid() && open && idx == index && image == slides[index] && indicator == (index + 1, |slides|)
    {
      OpenModal(Some(index));
      Ring.ShiftWrap(index, |slides|);
    }

    /** The next button: one slide forward, from the last back to the first. */
    method NextSlide()
      requires Valid()
      modifies this`idx, this`image, this`indicator
      ensures Valid()
      ensures |slides| > 0 ==> idx == (if old(idx) == |slides| - 1 then 0 else old(idx) + 1)
      ensures |slides| > 0 ==> image == slides[idx] && indicator == (idx + 1, |slides|)
    {
      if |slides| > 0 {
        WrapStep(idx, |slides|);
      }
      Show(idx + 1);
    }

    /** The previous button: one slide back, from the first to the last. */
    method PrevSlide()
      requires Valid()
      modifies this`idx, this`image, this`indicator
      ensures Valid()
      ensures |slides| > 0 ==> idx == (if old(idx) == 0 then |slides| - 1 else old(idx) - 1)
      ensures |slides| > 0 ==> image == slides[idx] && indicator == (idx + 1, |slides|)
    {
      if |slides| > 0 {
        WrapStep(idx, |slides|);
      }
      Show(idx - 1);
    }

    /** A click on the modal: only a click on the backdrop itself closes it. */
    method ClickModal(onBackdrop: bool)
      requires Valid()
      modifies this`open, this`ariaHidden, this`overflowHidden
      ensures Valid()
      ensures open == (old(open) && !onBackdrop)
    {
      if onBackdrop {
        CloseModal();
      }
    }

    /** A key press: ignored while the modal is closed; Escape closes it and the arrows step. */
    method KeyDown(key: Key)
      requires Valid()
      modifies this`idx, this`image, this`indicator, this`open, this`ariaHidden, this`overflowHidden
      ensures Valid()
      ensures !old(open) ==> open == old(open) && idx == old(idx) && image == old(image)
      ensures old(open) && key == Escape ==> !open && idx == old(idx)
      ensures old(open) && key == ArrowRight && |slides| > 0 ==>
        open && idx == (if old(idx) == |slides| - 1 then 0 else old(idx) + 1) &&
        image == slides[idx] && indicator == (idx + 1, |slides|)
      ensures old(open) && key == ArrowLeft && |slides| > 0 ==>
        open && idx == (if old(idx) == 0 then |slides| - 1 else old(idx) - 1) &&
        image == slides[idx] && indicator == (idx + 1, |slides|)
      ensures old(open) && key == OtherKey ==> open && idx == old(idx) && image == old(image)
    {
      if !open {
        return;
      }
      match key
      case Escape => CloseModal();
      case ArrowRight => NextSlide();
      case ArrowLeft => PrevSlide();
      case OtherKey =>
    }
  }

  /** The gallery's seven slides: from the last, one step forward shows the first picture as slide 1 of 7. */
  method WrapForward() returns (g: Gallery)
    ensures fresh(g) && g.Valid() && g.open
    ensures g.idx == 0 && g.image == SLIDES[0] && g.indicator == (1, 7)
  {
    g := new Gallery(SLIDES, "");
    g.ClickTrigger(6);
    g.KeyDown(ArrowRight);
  }
}

=== FILE: timers.dfy ===
/**
 * The browser timer service as every widget controller sees it, and the
 * frame-sequencing rule they all share.
 *
 * A controller's view of the service is a simulated clock `now` (integer
 * milliseconds) plus the list of its pending timers in the order they were
 * created. `setTimeout(cb, d)` appends a one-shot timer due at `now + d`,
 * `setInterval(cb, p)` appends a repeating one with period `p`, and
 * `clearTimeout`/`clearInterval` drop a timer by id. Firing takes the first
 * pending timer with the smallest due time.
 */
module Timers {

  /** A timer handle variable: `None` is JavaScript's `null` (browsers never hand out id 0). */
  datatype Option<T> = None | Some(value: T)

  /** One pending timer; `period == 0` is a one-shot timeout, otherwise an interval. */
  datatype Timer<E> = Timer(id: nat, due: nat, period: nat, event: E)

  /** One step of a frame list: `event` happens, then the sequence holds for `hold` ms. */
  datatype Frame<E> = Frame(event: E, hold: nat)

  /** The ids of the pending timers. */
  function Ids<E>(q: seq<Timer<E>>): set<nat>
  {
    set i | 0 <= i < |q| :: q[i].id
  }

  /** The ids of `q`, in order. */
  function IdList<E>(q: seq<Timer<E>>): (r: seq<nat>)
    ensures |r| == |q|
    ensures forall i :: 0 <= i < |q| ==> r[i] == q[i].id
  {
    seq(|q|, i requires 0 <= i < |q| => q[i].id)
  }

  /** The ids listed in order are exactly the pending ids. */
  lemma IdListIds<E>(q: seq<Timer<E>>)
    ensures (set k | k in IdList(q)) == Ids(q)
  {
    var r := IdList(q);
    forall x | x in Ids(q) ensures x in r {
      var i :| 0 <= i < |q| && q[i].id == x;
      assert r[i] == x;
    }
  }

  /**
   * Well-formedness of a pending list: nothing is due in the past, every id was
   * handed out before `nextId`, ids are positive and no two timers share an id.
   */
  ghost predicate Wf<E>(q: seq<Timer<E>>, now: nat, nextId: nat)
  {
    (forall i :: 0 <= i < |q| ==> now <= q[i].due && 1 <= q[i].id < nextId) &&
    Distinct(q)
  }

  /** Timers listed in the order they fall due. */
  ghost predicate Sorted<E>(q: seq<Timer<E>>)
  {
    forall i, j :: 0 <= i <= j < |q| ==> q[i].due <= q[j].due
  }

  /** Total hold time of a frame list. */
  function Duration<E>(frames: seq<Frame<E>>): nat
  {
    if frames == [] then 0 else frames[0].hold + Duration(frames[1..])
  }

  lemma {:induction false} DurationSnoc<E>(frames: seq<Frame<E>>, f: Frame<E>)
    ensures Duration(frames + [f]) == Duration(frames) + f.hold
  {
    if frames != [] {
      assert (frames + [f])[1..] == frames[1..] + [f];
      DurationSnoc(frames[1..], f);
    }
  }

  lemma {:induction false} DurationAppend<E>(a: seq<Frame<E>>, b: seq<Frame<E>>)
    ensures Duration(a + b) == Duration(a) + Duration(b)
  {
    if a == [] {
      assert a + b == b;
    } else {
      assert (a + b)[1..] == a[1..] + b;
      DurationAppend(a[1..], b);
    }
  }

  /** Frame `i` of a sequence started at `start` fires at `start` plus the holds of frames `0..i-1`. */
  function Scheduled<E>(firstId: nat, start: nat, frames: seq<Frame<E>>): seq<Timer<E>>
    decreases |frames|
  {
    if frames == [] then []
    else [Timer(firstId, start, 0, frames[0].event)]
         + Scheduled(firstId + 1, start + frames[0].hold, frames[1..])
  }

  /**
   * The frame-sequencer rule: one timeout per frame at its cumulative offset and a
   * final timeout, carrying `final`, at the total duration.
   */
  function Timeline<E>(firstId: nat, start: nat, frames: seq<Frame<E>>, final: E): seq<Timer<E>>
  {
    Scheduled(firstId, start, frames) + [Timer(firstId + |frames|, start + Duration(frames), 0, final)]
  }

  lemma {:induction false} ScheduledAt<E>(firstId: nat, start: nat, frames: seq<Frame<E>>, i: nat)
    requires i < |frames|
    ensures |Scheduled(firstId, start, frames)| == |frames|
    ensures Scheduled(firstId, start, frames)[i]
         == Timer(firstId + i, start + Duration(frames[..i]), 0, frames[i].event)
    decreases |frames|
  {
    ScheduledLength(firstId, start, frames);
    if i > 0 {
      ScheduledAt(firstId + 1, start + frames[0].hold, frames[1..], i - 1);
      assert frames[..i] == [frames[0]] + frames[1..][..i - 1];
      assert frames[..i][1..] == frames[1..][..i - 1];
    }
  }

  lemma {:induction false} ScheduledLength<E>(firstId: nat, start: nat, frames: seq<Frame<E>>)
    ensures |Scheduled(firstId, start, frames)| == |frames|
    decreases |frames|
  {
    if frames != [] {
      ScheduledLength(firstId + 1, start + frames[0].hold, frames[1..]);
    }
  }

  lemma {:induction false} ScheduledSnoc<E>(firstId: nat, start: nat, frames: seq<Frame<E>>, f: Frame<E>)
    ensures Scheduled(firstId, start, frames + [f])
         == Scheduled(firstId, start, frames) + [Timer(firstId + |frames|, start + Duration(frames), 0, f.event)]
    decreases |frames|
  {
    if frames != [] {
      assert (frames + [f])[1..] == frames[1..] + [f];
      ScheduledSnoc(firstId + 1, start + frames[0].hold, frames[1..], f);
    }
  }

  /** A frame list in which every event is held for the same `step`. */
  function Even<E>(events: seq<E>, step: nat): (frames: seq<Frame<E>>)
    ensures |frames| == |events|
    ensures forall i :: 0 <= i < |events| ==> frames[i] == Frame(events[i], step)
  {
    seq(|events|, i requires 0 <= i < |events| => Frame(events[i], step))
  }

  /** In an evenly held list, the first `k` frames last `step * k`: the offset `step * frameNumber` is the cumulative one. */
  lemma {:induction false} EvenDuration<E>(events: seq<E>, step: nat, k: nat)
    requires k <= |events|
    ensures Duration(Even(events, step)[..k]) == step * k
  {
    if k > 0 {
      var frames := Even(events, step);
      assert frames[..k] == frames[..k - 1] + [frames[k - 1]];
      DurationSnoc(frames[..k - 1], frames[k - 1]);
      EvenDuration(events, step, k - 1);
    }
  }

  /** One more step of a sequence: frame `n` is set at `start` plus the holds of the frames before it. */
  lemma ScheduledStep<E>(firstId: nat, start: nat, frames: seq<Frame<E>>, n: nat)
    requires n < |frames|
    ensures Scheduled(firstId, start, frames[..n + 1])
         == Scheduled(firstId, start, frames[..n]) + [Timer(firstId + n, start + Duration(frames[..n]), 0, frames[n].event)]
    ensures Duration(frames[..n + 1]) == Duration(frames[..n]) + frames[n].hold
  {
    assert frames[..n + 1] == frames[..n] + [frames[n]];
    ScheduledSnoc(firstId, start, frames[..n], frames[n]);
    DurationSnoc(frames[..n], frames[n]);
  }

  lemma IdListSnoc<E>(q: seq<Timer<E>>, t: Timer<E>)
    ensures IdList(q + [t]) == IdList(q) + [t.id]
  {
  }

  /**
   * What a whole timeline looks like: frame `i` fires at `start` plus the holds
   * before it, the final event fires at `start` plus the total duration, and the
   * ids are handed out consecutively.
   */
  lemma TimelineAt<E>(firstId: nat, start: nat, frames: seq<Frame<E>>, final: E)
    ensures |Timeline(firstId, start, frames, final)| == |frames| + 1
    ensures forall i :: 0 <= i < |frames| ==>
      Timeline(firstId, start, frames, final)[i]
        == Timer(firstId + i, start + Duration(frames[..i]), 0, frames[i].event)
    ensures Timeline(firstId, start, frames, final)[|frames|]
        == Timer(firstId + |frames|, start + Duration(frames), 0, final)
  {
    ScheduledLength(firstId, start, frames);
    forall i | 0 <= i < |frames|
      ensures Timeline(firstId, start, frames, final)[i]
           == Timer(firstId + i, start + Duration(frames[..i]), 0, frames[i].event)
    {
      ScheduledAt(firstId, start, frames, i);
    }
  }

  /** A timeline is made of one-shot timeouts only. */
  lemma TimelineOneShots<E>(firstId: nat, start: nat, frames: seq<Frame<E>>, final: E)
    ensures forall i :: 0 <= i < |Timeline(firstId, start, frames, final)| ==>
      Timeline(firstId, start, frames, final)[i].period == 0
  {
    TimelineAt(firstId, start, frames, final);
  }

  lemma {:induction false} DurationPrefixMono<E>(frames: seq<Frame<E>>, i: nat, j: nat)
    requires i <= j <= |frames|
    ensures Duration(frames[..i]) <= Duration(frames[..j])
  {
    assert frames[..j] == frames[..i] + frames[i..j];
    DurationAppend(frames[..i], frames[i..j]);
  }

  /**
   * Frames fire in nondecreasing time order, and the final event comes no earlier
   * than any frame.
   */
  lemma TimelineOrdered<E>(firstId: nat, start: nat, frames: seq<Frame<E>>, final: E)
    ensures Sorted(Timeline(firstId, start, frames, final))
    ensures var t := Timeline(firstId, start, frames, final);
      forall i, j :: 0 <= i <= j < |t| ==> start <= t[i].due <= t[j].due
  {
    TimelineAt(firstId, start, frames, final);
    var t := Timeline(firstId, start, frames, final);
    forall i, j | 0 <= i <= j < |t| ensures start <= t[i].due <= t[j].due {
      assert frames[..|frames|] == frames;
      DurationPrefixMono(frames, i, j);
    }
  }

  /** Appending a fresh timeline to a well-formed pending list keeps it well-formed. */
  lemma WfTimeline<E>(q: seq<Timer<E>>, now: nat, nextId: nat, start: nat, frames: seq<Frame<E>>, final: E)
    requires Wf(q, now, nextId) && 1 <= nextId && now <= start
    ensures Wf(q + Timeline(nextId, start, frames, final), now, nextId + |frames| + 1)
    ensures forall k ::
      (k in Ids(q + Timeline(nextId, start, frames, final))) <==> (k in Ids(q) || nextId <= k < nextId + |frames| + 1)
  {
    TimelineAt(nextId, start, frames, final);
    TimelineOrdered(nextId, start, frames, final);
    var t := Timeline(nextId, start, frames, final);
    assert forall i :: 0 <= i < |t| ==> t[i].id == nextId + i;
    forall k | nextId <= k < nextId + |frames| + 1 ensures k in Ids(t) {
      assert t[k - nextId].id == k;
    }
    assert forall k :: k in Ids(t) ==> nextId <= k < nextId + |frames| + 1;
    IdsAppend(q, t);
    DistinctAppend(q, t);
  }

  /**
   * The scheduling loop every widget runs: walk the frames, set one timeout per
   * frame at the running `elapsed`, add the frame's hold to `elapsed`, and finally
   * set the completion timeout at `elapsed`. Returns the new pending list, the next
   * free id and the ids it created (the ones the widget pushes to its timer list).
   */
  method ScheduleSequence<E>(q: seq<Timer<E>>, nextId: nat, start: nat, frames: seq<Frame<E>>, final: E)
    returns (q': seq<Timer<E>>, nextId': nat, ids: seq<nat>)
    ensures q' == q + Timeline(nextId, start, frames, final)
    ensures nextId' == nextId + |frames| + 1
    ensures ids == IdList(Timeline(nextId, start, frames, final))
  {
    q', nextId', ids := q, nextId, [];
    var elapsed := start;
    for i := 0 to |frames|
      invariant q' == q + Scheduled(nextId, start, frames[..i])
      invariant elapsed == start + Duration(frames[..i])
      invariant nextId' == nextId + i
      invariant ids == IdList(Scheduled(nextId, start, frames[..i]))
    {
      ScheduledStep(nextId, start, frames, i);
      IdListSnoc(Scheduled(nextId, start, frames[..i]), Timer(nextId', elapsed, 0, frames[i].event));
      q' := q' + [Timer(nextId', elapsed, 0, frames[i].event)];
      ids := ids + [nextId'];
      nextId' := nextId' + 1;
      elapsed := elapsed + frames[i].hold;
    }
    assert frames[..|frames|] == frames;
    IdListSnoc(Scheduled(nextId, start, frames), Timer(nextId', elapsed, 0, final));
    q' := q' + [Timer(nextId', elapsed, 0, final)];
    ids := ids + [nextId'];
    nextId' := nextId' + 1;
  }

  /** `clearTimeout`/`clearInterval` for every id in `ids`: the timers that remain, in order. */
  function Cancel<E>(q: seq<Timer<E>>, ids: set<nat>): (r: seq<Timer<E>>)
    ensures |r| <= |q|
  {
    if q == [] then []
    else if q[0].id in ids then Cancel(q[1..], ids)
    else [q[0]] + Cancel(q[1..], ids)
  }

  /** `clearTimeout` keeps exactly the pending timers whose ids were not cancelled. */
  lemma {:induction false} CancelKeeps<E>(q: seq<Timer<E>>, ids: set<nat>)
    ensures forall t :: t in Cancel(q, ids) <==> t in q && t.id !in ids
  {
    if q != [] {
      CancelKeeps(q[1..], ids);
      forall t ensures t in q <==> t == q[0] || t in q[1..] {
        if t in q {
          var i :| 0 <= i < |q| && q[i] == t;
          if i > 0 {
            assert q[1..][i - 1] == t;
          }
        }
      }
    }
  }

  lemma IdsAppend<E>(a: seq<Timer<E>>, b: seq<Timer<E>>)
    ensures Ids(a + b) == Ids(a) + Ids(b)
  {
    var ab := a + b;
    forall x | x in Ids(a) ensures x in Ids(ab) {
      var i :| 0 <= i < |a| && a[i].id == x;
      assert ab[i].id == x;
    }
    forall x | x in Ids(b) ensures x in Ids(ab) {
      var i :| 0 <= i < |b| && b[i].id == x;
      assert ab[|a| + i].id == x;
    }
  }

  lemma IdsSingle<E>(t: Timer<E>)
    ensures Ids([t]) == {t.id}
  {
    assert [t][0].id == t.id;
  }

  ghost predicate Distinct<E>(q: seq<Timer<E>>)
  {
    forall i, j :: 0 <= i < j < |q| ==> q[i].id != q[j].id
  }

  lemma DistinctAppend<E>(a: seq<Timer<E>>, b: seq<Timer<E>>)
    ensures Distinct(a + b) <==> Distinct(a) && Distinct(b) && Ids(a) !! Ids(b)
  {
    var ab := a + b;
    if Distinct(ab) {
      assert forall i, j :: 0 <= i < j < |a| ==> a[i] == ab[i] && a[j] == ab[j];
      assert forall i, j :: 0 <= i < j < |b| ==> b[i] == ab[|a| + i] && b[j] == ab[|a| + j];
      forall x | x in Ids(a) ensures x !in Ids(b) {
        var i :| 0 <= i < |a| && a[i].id == x;
        forall j | 0 <= j < |b| ensures b[j].id != x {
          assert ab[i] == a[i] && ab[|a| + j] == b[j];
        }
      }
    }
    if Distinct(a) && Distinct(b) && Ids(a) !! Ids(b) {
      forall i, j | 0 <= i < j < |ab| ensures ab[i].id != ab[j].id {
        if i < |a| && |a| <= j {
          assert ab[i].id in Ids(a) && ab[j].id == b[j - |a|].id;
        } else if |a| <= i {
          assert ab[i] == b[i - |a|] && ab[j] == b[j - |a|];
        }
      }
    }
  }

  lemma {:induction false} WfCancelRec<E>(q: seq<Timer<E>>, now: nat, nextId: nat, ids: set<nat>)
    requires Wf(q, now, nextId)
    ensures Wf(Cancel(q, ids), now, nextId)
    ensures Ids(Cancel(q, ids)) == Ids(q) - ids
  {
    if q != [] {
      assert q == [q[0]] + q[1..];
      IdsAppend([q[0]], q[1..]);
      DistinctAppend([q[0]], q[1..]);
      IdsSingle(q[0]);
      WfCancelRec(q[1..], now, nextId, ids);
      var r' := Cancel(q[1..], ids);
      if q[0].id !in ids {
        IdsAppend([q[0]], r');
        DistinctAppend([q[0]], r');
      }
    }
  }

  /** Cancelling timers keeps a pending list well-formed and removes exactly those ids. */
  lemma WfCancel<E>(q: seq<Timer<E>>, now: nat, nextId: nat, ids: set<nat>)
    requires Wf(q, now, nextId)
    ensures Wf(Cancel(q, ids), now, nextId)
    ensures Ids(Cancel(q, ids)) == Ids(q) - ids
  {
    WfCancelRec(q, now, nextId, ids);
  }

  /** Cancelling every pending id leaves nothing pending. */
  lemma {:induction false} CancelAll<E>(q: seq<Timer<E>>, ids: set<nat>)
    requires Ids(q) <= ids
    ensures Cancel(q, ids) == []
  {
    if q != [] {
      assert q[0].id in Ids(q);
      assert Ids(q[1..]) <= Ids(q) by {
        forall x | x in Ids(q[1..]) ensures x in Ids(q) {
          var i :| 0 <= i < |q[1..]| && q[1..][i].id == x;
          assert q[i + 1].id == x;
        }
      }
      CancelAll(q[1..], ids);
    }
  }

  /** Cancelling ids that no pending timer carries changes nothing: `clearTimeout` of a stale handle. */
  lemma {:induction false} CancelMissing<E>(q: seq<Timer<E>>, ids: set<nat>)
    requires forall i :: 0 <= i < |q| ==> q[i].id !in ids
    ensures Cancel(q, ids) == q
  {
    if q != [] {
      assert forall i :: 0 <= i < |q[1..]| ==> q[1..][i] == q[i + 1];
      CancelMissing(q[1..], ids);
    }
  }

  /** The index of the timer that fires next: the first one with the smallest due time. */
  function Earliest<E>(q: seq<Timer<E>>): (k: nat)
    requires q != []
    ensures k < |q|
    ensures forall j :: 0 <= j < |q| ==> q[k].due <= q[j].due
    ensures forall j :: 0 <= j < k ==> q[j].due > q[k].due
  {
    if |q| == 1 then 0
    else
      var k' := Earliest(q[1..]);
      if q[0].due <= q[1..][k'].due then 0 else k' + 1
  }

  /** When the head of the list is due no later than the rest, it fires first. */
  lemma EarliestFirst<E>(q: seq<Timer<E>>)
    requires q != [] && forall j :: 0 <= j < |q| ==> q[0].due <= q[j].due
    ensures Earliest(q) == 0
  {
  }

  /** The pending list after timer `k` fires: a timeout is gone, an interval is re-armed one period later. */
  function AfterFire<E>(q: seq<Timer<E>>, k: nat): seq<Timer<E>>
    requires k < |q|
  {
    if q[k].period == 0 then q[..k] + q[k + 1..]
    else q[..k] + q[k + 1..] + [q[k].(due := q[k].due + q[k].period)]
  }

  /** Every timer left after a firing was already pending under another id, or is the re-armed interval. */
  lemma AfterFireFrom<E>(q: seq<Timer<E>>, k: nat)
    requires k < |q| && Distinct(q)
    ensures forall i :: 0 <= i < |AfterFire(q, k)| ==>
      (AfterFire(q, k)[i] in q && AfterFire(q, k)[i].id != q[k].id) ||
      (q[k].period > 0 && AfterFire(q, k)[i] == q[k].(due := q[k].due + q[k].period))
  {
    var rest := q[..k] + q[k + 1..];
    forall i | 0 <= i < |rest| ensures rest[i] in q && rest[i].id != q[k].id {
      if i < k { assert rest[i] == q[i]; } else { assert rest[i] == q[i + 1]; }
    }
  }

  /**
   * Firing the earliest timer moves the clock to its due time, keeps the list
   * well-formed, removes a timeout's id and keeps an interval's.
   */
  lemma WfFire<E>(q: seq<Timer<E>>, now: nat, nextId: nat)
    requires Wf(q, now, nextId) && q != []
    ensures now <= q[Earliest(q)].due
    ensures Wf(AfterFire(q, Earliest(q)), q[Earliest(q)].due, nextId)
    ensures q[Earliest(q)].period == 0 ==> Ids(AfterFire(q, Earliest(q))) == Ids(q) - {q[Earliest(q)].id}
    ensures q[Earliest(q)].period > 0 ==> Ids(AfterFire(q, Earliest(q))) == Ids(q)
  {
    WfFireAt(q, now, nextId, Earliest(q));
  }

  lemma WfFireAt<E>(q: seq<Timer<E>>, now: nat, nextId: nat, k: nat)
    requires Wf(q, now, nextId) && k < |q|
    requires forall j :: 0 <= j < |q| ==> q[k].due <= q[j].due
    ensures now <= q[k].due
    ensures Wf(AfterFire(q, k), q[k].due, nextId)
    ensures q[k].period == 0 ==> Ids(AfterFire(q, k)) == Ids(q) - {q[k].id}
    ensures q[k].period > 0 ==> Ids(AfterFire(q, k)) == Ids(q)
  {
    var t := q[k];
    var rest := q[..k] + q[k + 1..];
    WfRemoveAt(q, now, nextId, k);
    if t.period > 0 {
      var t' := t.(due := t.due + t.period);
      assert AfterFire(q, k) == rest + [t'];
      assert t.id in Ids(q);
      WfRearm(rest, t.due, nextId, t');
    } else {
      assert AfterFire(q, k) == rest;
    }
  }

  /** Putting back a timer whose id is in use by no pending timer keeps the list well-formed. */
  lemma WfRearm<E>(q: seq<Timer<E>>, now: nat, nextId: nat, t: Timer<E>)
    requires Wf(q, now, nextId) && t.id !in Ids(q) && 1 <= t.id < nextId && now <= t.due
    ensures Wf(q + [t], now, nextId)
    ensures Ids(q + [t]) == Ids(q) + {t.id}
  {
    IdsSingle(t);
    IdsAppend(q, [t]);
    DistinctAppend(q, [t]);
  }

  /** Removing timer `k`, the earliest one, leaves a list well-formed at its due time. */
  lemma WfRemoveAt<E>(q: seq<Timer<E>>, now: nat, nextId: nat, k: nat)
    requires Wf(q, now, nextId) && k < |q|
    requires forall j :: 0 <= j < |q| ==> q[k].due <= q[j].due
    ensures Wf(q[..k] + q[k + 1..], q[k].due, nextId)
    ensures Ids(q[..k] + q[k + 1..]) == Ids(q) - {q[k].id}
  {
    RemoveAtIds(q, k);
    var rest := q[..k] + q[k + 1..];
    assert forall i :: 0 <= i < |rest| ==> rest[i] == if i < k then q[i] else q[i + 1];
  }

  /** Removing timer `k` from a list with distinct ids removes exactly its id. */
  lemma RemoveAtIds<E>(q: seq<Timer<E>>, k: nat)
    requires Distinct(q) && k < |q|
    ensures Ids(q[..k] + q[k + 1..]) == Ids(q) - {q[k].id}
  {
    var t := q[k];
    var a, b := q[..k], q[k + 1..];
    assert q == a + ([t] + b);
    IdsSingle(t);
    IdsAppend(a, [t] + b);
    IdsAppend([t], b);
    DistinctAppend(a, [t] + b);
    DistinctAppend([t], b);
    IdsAppend(a, b);
  }

  /** Setting one more timer keeps the list well-formed. */
  lemma WfAppend<E>(q: seq<Timer<E>>, now: nat, nextId: nat, t: Timer<E>)
    requires Wf(q, now, nextId) && t.id == nextId >= 1 && now <= t.due
    ensures Wf(q + [t], now, nextId + 1)
    ensures Ids(q + [t]) == Ids(q) + {nextId}
  {
    IdsSingle(t);
    IdsAppend(q, [t]);
    DistinctAppend(q, [t]);
  }
}

=== FILE: tv.dfy ===
/**
 * The TV power-up: a click plays four frames over four seconds and then
 * returns the set to its idle image. Clicks during the run are ignored.
 */
module Tv {
  import opened Timers

  const IDLE_SRC := "assets/tv.png"
  const POWER_ON_SRCS := ["assets/tv-on-one.png", "assets/tv-on-two.png", "assets/tv-on-three.png", "assets/tv-on-four.png"]

  /** A picture the TV shows: idle, or power-up frame `index`. */
  datatype Image = Idle | PowerOn(index: nat)

  /**
   * The file a TV picture is loaded from. Only the idle picture loads `IDLE_SRC`; an
   * index past the table, which no caller uses, falls back to it.
   */
  function Src(img: Image): (src: string)
    ensures img.PowerOn? && img.index < |POWER_ON_SRCS| ==> src == POWER_ON_SRCS[img.index]
    ensures src == IDLE_SRC <==> !(img.PowerOn? && img.index < |POWER_ON_SRCS|)
  {
    match img
    case Idle => IDLE_SRC
    case PowerOn(i) => if i < |POWER_ON_SRCS| then POWER_ON_SRCS[i] else IDLE_SRC
  }

  /** The pictures the widget uses: the idle picture and the frames of its table. */
  predicate InRange(img: Image)
  {
    img.Idle? || img.index < |POWER_ON_SRCS|
  }

  /** Distinct pictures in use load distinct files, so the file on the page tells which picture shows. */
  lemma SrcInjective(a: Image, b: Image)
    requires InRange(a) && InRange(b)
    ensures Src(a) == Src(b) <==> a == b
  {
  }

  /** What a TV timer does when it fires. */
  datatype Event =
    | Show(img: Image)  // a frame callback: show `img`
    | Reset             // the final callback: `resetTv`

  /** The power-up frames and how long each is held. */
  const FRAMES: seq<Frame<Event>> := [
    Frame(Show(PowerOn(0)), 1000),
    Frame(Show(PowerOn(1)), 500),
    Frame(Show(PowerOn(2)), 500),
    Frame(Show(PowerOn(3)), 2000)
  ]

  /** The power-up timeline: frames at 0, 1000, 1500 and 2000 ms, the reset at 4000 ms. */
  lemma PowerUpTimeline(firstId: nat, start: nat)
    ensures Timeline(firstId, start, FRAMES, Reset) == [
      Timer(firstId, start, 0, Show(PowerOn(0))),
      Timer(firstId + 1, start + 1000, 0, Show(PowerOn(1))),
      Timer(firstId + 2, start + 1500, 0, Show(PowerOn(2))),
      Timer(firstId + 3, start + 2000, 0, Show(PowerOn(3))),
      Timer(firstId + 4, start + 4000, 0, Reset)
    ]
  {
    assert FRAMES[1..][1..][1..][1..] == [];
  }

  class TvPowerUp {
    var image: Image
    var running: bool
    var timeouts: set<nat>
    var now: nat
    var pending: seq<Timer<Event>>
    var nextId: nat

    ghost predicate Valid()
      reads this
    {
      Wf(pending, now, nextId) && 1 <= nextId &&
      timeouts == Ids(pending) &&
      (!running ==> pending == []) &&
      (forall i :: 0 <= i < |pending| ==> pending[i].period == 0)
    }

    constructor ()
      ensures Valid()
      ensures image == Idle && !running && pending == [] && now == 0 && nextId == 1
    {
      image, running, timeouts := Idle, false, {};
      now, pending, nextId := 0, [], 1;
    }

    /** Time passes with nothing due before `t`. */
    method AdvanceTo(t: nat)
      requires Valid() && now <= t
      requires forall i :: 0 <= i < |pending| ==> t <= pending[i].due
      modifies this`now
      ensures Valid() && now == t
    {
      now := t;
    }

    /** `clearScheduledFrames`: every tracked timeout is cancelled and the set emptied. */
    method ClearScheduledFrames()
      requires Wf(pending, now, nextId) && timeouts == Ids(pending)
      modifies this`pending, this`timeouts
      ensures Wf(pending, now, nextId)
      ensures pending == [] && timeouts == {}
    {
      CancelAll(pending, timeouts);
      pending := Cancel(pending, timeouts);
      timeouts := {};
    }

    /** `resetTv`: nothing stays scheduled, the idle image is back and the TV accepts clicks again. */
    method ResetTv()
      requires Wf(pending, now, nextId) && timeouts == Ids(pending) && 1 <= nextId
      requires forall i :: 0 <= i < |pending| ==> pending[i].period == 0
      modifies this`pending, this`timeouts, this`image, this`running
      ensures Valid()
      ensures pending == [] && timeouts == {} && image == Idle && !running
    {
      ClearScheduledFrames();
      image := Idle;
      running := false;
    }

    /**
     * A click while running schedules nothing. Otherwise the TV becomes busy at
     * once and the whole power-up timeline is pending: frame i at `now` plus the
     * holds before it, the reset at `now + 4000`.
     */
    method Click()
      requires Valid()
      modifies this`running, this`pending, this`nextId, this`timeouts
      ensures Valid()
      ensures old(running) ==>
        running && pending == old(pending) &&
        timeouts == old(timeouts) && nextId == old(nextId)
      ensures !old(running) ==>
        running && pending == Timeline(old(nextId), now, FRAMES, Reset) &&
        nextId == old(nextId) + |FRAMES| + 1
    {
      if running {
        return;
      }
      running := true;
      SchedulePowerUp();
    }

    /** The click's scheduling loop on an idle TV: the power-up timeline, every id tracked. */
    method SchedulePowerUp()
      requires Wf(pending, now, nextId) && 1 <= nextId && pending == [] && timeouts == {}
      modifies this`pending, this`nextId, this`timeouts
      ensures Wf(pending, now, nextId) && 1 <= nextId && timeouts == Ids(pending)
      ensures forall i :: 0 <= i < |pending| ==> pending[i].period == 0
      ensures pending == Timeline(old(nextId), now, FRAMES, Reset) && nextId == old(nextId) + |FRAMES| + 1
    {
      WfTimeline(pending, now, nextId, now, FRAMES, Reset);
      TimelineAt(nextId, now, FRAMES, Reset);
      var ids;
      pending, nextId, ids := ScheduleSequence(pending, nextId, now, FRAMES, Reset);
      IdListIds(pending);
      timeouts := timeouts + (set k | k in ids);
    }

    /**
     * The browser fires the earliest pending timeout. A frame shows its image and
     * forgets its own id; the reset returns the TV to idle and cancels the rest.
     */
    method Fire()
      requires Valid() && pending != []
      modifies this`now, this`pending, this`timeouts, this`image, this`running
      ensures Valid()
      ensures var t := old(pending[Earliest(pending)]);
        now == t.due &&
        (t.event.Show? ==> image == t.event.img && running == old(running) &&
                           pending == AfterFire(old(pending), old(Earliest(pending)))) &&
        (t.event.Reset? ==> image == Idle && !running && pending == [])
    {
      var k := Earliest(pending);
      var t := pending[k];
      WfFire(pending, now, nextId);
      now := t.due;
      pending := AfterFire(pending, k);
      AfterFireFrom(old(pending), k);
      match t.event
      case Show(img) =>
        image := img;
        timeouts := timeouts - {t.id};
      case Reset =>
        timeouts := timeouts - {t.id};
        ResetTv();
    }
  }

  /** The picture a TV timer leaves on screen when it fires. */
  function Shown(e: Event): Image
  {
    match e
    case Show(img) => img
    case Reset => Idle
  }

  /**
   * Lets every pending TV timer fire, in due order, recording the time and the
   * image after each. With a run's timers pending (frames, then the reset last)
   * the TV ends idle with nothing pending.
   */
  method Watch(tv: TvPowerUp) returns (trace: seq<(nat, Image)>)
    requires tv.Valid() && tv.running && tv.pending != [] && Sorted(tv.pending)
    requires forall j :: 0 <= j < |tv.pending| - 1 ==> tv.pending[j].event.Show?
    requires tv.pending[|tv.pending| - 1].event.Reset?
    modifies tv
    ensures tv.Valid() && !tv.running && tv.pending == [] && tv.image == Idle
    ensures |trace| == |old(tv.pending)|
    ensures forall j :: 0 <= j < |trace| ==>
      trace[j] == (old(tv.pending)[j].due, Shown(old(tv.pending)[j].event))
  {
    var q := tv.pending;
    trace := [];
    for i := 0 to |q|
      invariant tv.Valid() && tv.pending == q[i..]
      invariant i < |q| ==> tv.running
      invariant i == |q| ==> !tv.running && tv.image == Idle
      invariant |trace| == i
      invariant forall j :: 0 <= j < i ==> trace[j] == (q[j].due, Shown(q[j].event))
    {
      var shown := FireHead(tv);
      assert q[i..][1..] == q[i + 1..];
      trace := trace + [shown];
    }
  }

  /** In a due-ordered list the head fires next; returns the time and the image after it. */
  method FireHead(tv: TvPowerUp) returns (shown: (nat, Image))
    requires tv.Valid() && tv.pending != [] && Sorted(tv.pending)
    modifies tv
    ensures tv.Valid()
    ensures shown == (old(tv.pending[0].due), Shown(old(tv.pending[0].event)))
    ensures old(tv.pending[0].event.Show?) ==> tv.pending == old(tv.pending[1..]) && tv.running == old(tv.running)
    ensures old(tv.pending[0].event.Reset?) ==> tv.pending == [] && !tv.running && tv.image == Idle
  {
    EarliestFirst(tv.pending);
    assert AfterFire(tv.pending, 0) == tv.pending[1..];
    tv.Fire();
    shown := (tv.now, tv.image);
  }

  /**
   * A click on an idle TV followed by every timer firing: each frame is shown
   * at the click time plus the holds of the frames before it, in order, and the
   * idle image returns at the click time plus the total duration.
   */
  method ClickAndWatch(tv: TvPowerUp) returns (trace: seq<(nat, Image)>)
    requires tv.Valid() && !tv.running
    modifies tv
    ensures tv.Valid() && !tv.running && tv.pending == [] && tv.image == Idle
    ensures |trace| == |FRAMES| + 1
    ensures forall j :: 0 <= j < |FRAMES| ==>
      trace[j] == (old(tv.now) + Duration(FRAMES[..j]), FRAMES[j].event.img)
    ensures trace[|FRAMES|] == (old(tv.now) + Duration(FRAMES), Idle)
  {
    tv.Click();
    TimelineAt(old(tv.nextId), tv.now, FRAMES, Reset);
    TimelineOrdered(old(tv.nextId), tv.now, FRAMES, Reset);
    trace := Watch(tv);
  }

  /** One full power-up from a freshly loaded page: the images shown and when. */
  method PowerUpTrace() returns (trace: seq<(nat, Image)>)
    ensures trace == [
      (0, PowerOn(0)), (1000, PowerOn(1)), (1500, PowerOn(2)), (2000, PowerOn(3)), (4000, Idle)
    ]
  {
    var tv := new TvPowerUp();
    trace := ClickAndWatch(tv);
    PowerUpTimeline(1, 0);
    TimelineAt(1, 0, FRAMES, Reset);
  }
}
